=== FILE: README.md ===
# MetaLens core, modelled in Dafny

MetaLens is a browser application that analyses images with a vision model. The model can be a
cloud service (OpenAI, Claude, Google Gemini), a local Ollama server, or a mock. Around the
analysis it keeps a local library:
- images and batches;
- detected faces grouped under persons;
- an upload queue;
- per-image chat histories.

This project models the deterministic core of that application as immutable Dafny datatypes and
pure functions, and proves properties of it. The parts covered are:

- **Entity store.** The image, batch, face, person and queue collections.
  - Each collection is read whole, changed and written back whole.
  - A write the browser refuses is swallowed.
  - Unknown ids are ignored or partially applied, never reported.
  - The face and person collections keep a two-way link: a face's `personId` and a person's
    `faceIds`. The model proves when that link is kept and when it breaks.
- **Adapter reply handling.** The four real adapters (Claude, Gemini, OpenAI, Ollama) turn a
  reply text into an `AnalysisResult`. This happens in these steps, each an explicit function:
  - take the first-`{`-to-last-`}` span;
  - hand it to `JSON.parse`, which is a parameter `string -> Option<Value>` over a small JSON
    datatype;
  - coerce each field to its default;
  - otherwise use the adapter's fallback.

  The chat replies' `updatedMetadata` extraction, the Gemini fence stripping and the data-URL
  split are modelled the same way. So are the stored credentials and settings of
  `adapters/state.ts`.
- **Serialisers.**
  - The Mermaid flowchart text.
  - The export envelope and file name.
  - The theme CSS, with its camelCase-to-kebab-case key conversion.
- **Component logic.** The state transitions the components run on the store:
  - the image detail panel's tag editing and metadata merge;
  - chat history growth;
  - moving and removing faces in a person's view;
  - the face assignment dialog;
  - the credential dialog;
  - the sketch page's diagram recognition;
  - in the page shell: adapter and model restore, engine choice, the upload-and-analyse loop, and
    the list handlers.

The following are parameters of the model:
- clocks, random ids and thumbnails;
- the outcome of each network call;
- whether a storage write succeeds;
- `JSON.parse`.

Every module lives in its own file. `Seqs` and `Text` hold the sequence and string helpers the
modules share. `Wrappers` holds `Option` and `Result`.

## Model

| member | source | states |
|---|---|---|
| App.StoredAdapterAsWritten | src/App.tsx:82-88 | The adapter name is restored as written. An unreadable, missing or empty entry gives `ollama`, and a saved adapter name is returned unchanged. |
| App.InheritedNameAccepted | src/App.tsx:85 | The written check `ADAPTER_MODELS[saved]` accepts a saved `constructor`, although no adapter has that name. |
| App.StoredAdapter | src/App.tsx:82-88 | The corrected restore gives the saved adapter exactly when the entry names one of the five kinds, and Ollama in every other case. |
| App.StoredAdapterAgrees | src/App.tsx:82-88 | Whenever the as-written restore yields a real adapter name, the corrected restore yields the same adapter. |
| App.StoredModel | src/App.tsx:90-97 | The restored model is always one of the adapter's models. It is the saved model exactly when that is in the adapter's list, and the adapter's first model otherwise. |
| App.AdapterChange | src/App.tsx:134-140 | Changing the adapter chooses it together with its first model, which is also the model a restore with no saved model falls back to. |
| App.AdapterChangeRestores | src/App.tsx:122-140 | Saving the choice made by an adapter change and restoring it on the next load gives back the new adapter and its first model. |
| App.GetAdapter | src/App.tsx:169-176 | The Ollama engine runs if and only if Ollama is chosen. Every other kind, the three cloud services included, runs on the mock engine. |
| App.Thumbnailed | src/App.tsx:182-198 | The first loop creates one record per file whose thumbnail was made. Records keep file order, carry that file's name, thumbnail, id and time, and have no result. A file whose thumbnail failed is skipped. |
| App.ThumbnailedCovers | src/App.tsx:183-197 | No file with a thumbnail is skipped: each such file has a record. |
| App.ThumbnailedAll | src/App.tsx:183-197 | When every thumbnail is made, there are as many records as files and the `j`-th record comes from the `j`-th file. |
| App.UpdateUnique | src/lib/storage.ts:52-59 | With unique ids, updating a record by its own id replaces that record alone. |
| App.AnalyseStep | src/App.tsx:206-214 | With unique ids, one analysis changes only its own record. A success stores the result on it and a failure stores nothing. |
| App.AnalyseFromUnfold | src/App.tsx:202-215 | One turn of the analysis loop changes only the current record and sets its status to `processing` and then to how the analysis ended. The records stay in place with unique ids for the remaining turns. |
| App.AnalyseFromKeepsBefore | src/App.tsx:202-215 | The analysis loop never touches a record placed before the images it still has to analyse. |
| App.AnalyseFromAnalyses | src/App.tsx:202-215 | Each new image ends up holding the analysis of the file sent for it. Earlier failures do not stop later images from being analysed. |
| App.AnalyseFromKeeps | src/App.tsx:202-215 | The loop leaves alone the status of every image it does not analyse. |
| App.AnalyseFromFinishes | src/App.tsx:204-214 | Each analysed image ends `complete` if its analysis succeeded and `error` if it failed, because of its own analysis alone. |
| App.MarkPending | src/App.tsx:194 | Every new id is marked `pending` and every other status is kept. |
| App.FreshIdsUnique | src/App.tsx:186-193 | When the ids handed out are fresh, the stored images plus the new records have pairwise distinct ids. |
| App.RunLoopsKeepsOld | src/App.tsx:192-215 | The upload leaves every previously stored image untouched. |
| App.RunLoopsAnalysesNew | src/App.tsx:200-215 | After both loops, the `j`-th new record holds the analysis of the file sent for it, and the store has grown by exactly the new records. |
| App.RunLoopsImages | src/App.tsx:178-219 | After both loops, the old images are kept as a prefix, the new records follow in order, and each new record holds its own analysis. |
| App.RunLoopsStatus | src/App.tsx:194-214 | After both loops, each new image's status says how its analysis ended, and no other image's status changes. |
| App.ProcessImages | src/App.tsx:178-219 | `processImages` as written. Old images are kept, new records are appended in file order, and the `j`-th new record is analysed with `files[j]`, whichever file it was made from. |
| App.Origins | src/App.tsx:183-193 | For each new record, this gives the file it was made from. |
| App.ProcessImagesPaired | src/App.tsx:178-219 | `processImages` as intended. Each new record is analysed with the file it was made from, so its name, stored result and status all describe the same file. Old images and other statuses are untouched. |
| App.PairedWhenNoThumbnailFails | src/App.tsx:183-207 | When no thumbnail fails, the written loop and the corrected loop give the same result. |
| App.PairingSkewsAfterFailedThumbnail | src/App.tsx:183-207 | Take two files where only the second gets a thumbnail. The written loop stores the first file's analysis on the record named after the second file. |
| App.ImageStatus | src/App.tsx:273 | An image's status is the recorded one, or `complete` when none is recorded. |
| App.HandleRemoveImage | src/App.tsx:242-248 | The image is removed from the store, the list and the selection; every other list entry and selected id survives. The detail view closes only when it showed that image. |
| App.HandleRemoveImageKeepsOrder | src/App.tsx:242-248 | The list and the selection keep their order: removing from a concatenated list or selection removes from each part. |
| App.HandleRemoveImageAbsent | src/App.tsx:242-248 | Removing an id that neither the list nor the selection holds leaves both exactly as they were. |
| App.HandleClearAll | src/App.tsx:250-258 | The store, the status map, the list, the selection and the detail view are all emptied, so every image then reads as `complete`. |
| Storage.Save | src/lib/storage.ts:38-44 | A save stores the new collection if the write succeeds. If the write is refused, the old collection stays and no error reaches the caller. |
| Storage.AddImage | src/lib/storage.ts:46-50 | A written add appends the image at the end and keeps every existing record's position and content. A refused write changes nothing. |
| Storage.UpdateImage | src/lib/storage.ts:52-59 | Only the first record with the id takes the patch, merged field by field, and every other record is kept. An unknown id, or a refused write, leaves the images unchanged. |
| Storage.RemoveImage | src/lib/storage.ts:61-64 | Every record with the id is dropped, and every other record survives. |
| Storage.RemoveImageKeepsOrder | src/lib/storage.ts:61-64 | Removal keeps the survivors in their original order: removing from a concatenation removes from each part. |
| Storage.ClearAllImages | src/lib/storage.ts:66-69 | Both collections become empty. |
| Storage.SetFirstBatchId | src/lib/storage.ts:104-105 | One `find` step gives the batch id to the first image with the listed id only. |
| Storage.SetBatchIdsEffect | src/lib/storage.ts:102-107 | After the loop, an image carries the new batch exactly when it is the first with a listed id. Every other image is unchanged, and no image is added, removed or reordered. |
| Storage.CreateBatch | src/lib/storage.ts:89-110 | The new batch lists exactly the given ids, unknown ids included, and is expanded. It is appended when that write succeeds. Each write can fail on its own without affecting the other. |
| Storage.CreateBatchImages | src/lib/storage.ts:89-110 | An image belongs to the new batch if and only if it is the first image with a listed id, or already pointed at that id. Ids and results are untouched. |
| Storage.CreateBatchLeavesOldListing | src/lib/storage.ts:102-107 | Moving an image into a new batch leaves it listed in its old batch, which now names an image that no longer points back. |
| Storage.RenameBatch | src/lib/storage.ts:112-119 | After a written save, the first batch with that id has the new name and every other batch is unchanged, including later batches with the same id. An unknown id or a refused write changes nothing. |
| Storage.DeleteBatch | src/lib/storage.ts:121-133 | Exactly the batches with that id are dropped. Exactly the images pointing at the batch lose their `batchId`, whatever the batch listed. No image is removed or reordered. |
| Storage.DeleteBatchUnlinks | src/lib/storage.ts:125-132 | After a deletion, no image points at the deleted batch. |
| Storage.ToggleBatchExpanded | src/lib/storage.ts:135-142 | After a written save, the first batch with that id has its `expanded` flag flipped and every other batch is unchanged. An unknown id or a refused write changes nothing. |
| Storage.ToggleTwice | src/lib/storage.ts:135-142 | Toggling the same batch twice restores the batches. |
| Faces.FacesByImageId | src/lib/faces.ts:43-45 | The result holds exactly the faces of that image. |
| Faces.AddFace | src/lib/faces.ts:48-60 | The face is stamped with the given id and time, appended at the end, and returned. |
| Faces.FaceIndex | src/lib/faces.ts:65 | This finds the position of the first face with the id, or reports that none has it. |
| Faces.FaceIndexOfUnique | src/lib/faces.ts:65 | With unique ids, a face's own id finds that face. |
| Faces.UpdateFace | src/lib/faces.ts:63-71 | Only the first face with the id takes the patch. An unknown id changes nothing. |
| Faces.RemoveFace | src/lib/faces.ts:74-77 | Exactly the faces with that id are dropped, so the id is no longer found. |
| Faces.RemoveFacesByImageId | src/lib/faces.ts:80-83 | Exactly the faces of that image are dropped, and every other face survives. Listing the image's faces afterwards gives nothing. |
| Faces.RemoveFacesByImageIdKeepsOrder | src/lib/faces.ts:80-83 | The surviving faces keep their order, and removing an image's faces where there are none changes nothing. |
| Faces.PersonIndex | src/lib/faces.ts:97-99 | This finds the position of the first person with the id, or reports that none has it. |
| Faces.CreatePerson | src/lib/faces.ts:102-116 | A person with the name, the given id, no faces and the two given timestamps is appended. Every existing person is unchanged. |
| Faces.UpdatePerson | src/lib/faces.ts:119-131 | Only the first person with the id takes the patch and the new `updatedAt`. An unknown id changes nothing. |
| Faces.DeletePerson | src/lib/faces.ts:134-145 | Exactly the persons with that id are dropped, and no face is removed. |
| Faces.UnlinkAllFrom | src/lib/faces.ts:136-141 | With unique ids, each step of the unlinking loop clears the link of its own face only. |
| Faces.DeletePersonUnlinks | src/lib/faces.ts:134-145 | With unique face ids, deleting a person clears exactly the faces' links to it and changes nothing else about any face. |
| Faces.Without | src/lib/faces.ts:170 | A face id is removed from a list: every other id is kept and that one is gone. |
| Faces.AssignFaceToPerson | src/lib/faces.ts:148-159 | The face is given the person even when no such person exists. The first person with that id gains the face at the end of its list, unless the list already holds it. |
| Faces.AssignKeepsFaceIdsDistinct | src/lib/faces.ts:154-157 | Assigning never puts a duplicate into any person's face list. |
| Faces.UnassignFaceFromPerson | src/lib/faces.ts:162-176 | An unknown or unassigned face changes nothing. Otherwise the face leaves its owner's list, if the owner exists, and its `personId` is cleared. |
| Faces.UnassignKeepsConsistent | src/lib/faces.ts:162-176 | Unassigning keeps the two-way link and the uniqueness of ids. |
| Faces.AssignUnlinkedKeepsConsistent | src/lib/faces.ts:148-159 | Assigning a face that names no existing person keeps the two-way link, whether or not the target exists. |
| Faces.UnassignKeepsFaceIdsDistinct | src/lib/faces.ts:168-172 | Unassigning never puts a duplicate into any person's face list. |
| Faces.AssignKeepsConsistent | src/lib/faces.ts:148-159 | Assigning an unassigned face to an existing person keeps the two-way link. |
| Faces.DeletePersonKeepsConsistent | src/lib/faces.ts:134-145 | Deleting a person keeps the two-way link. |
| Faces.FilterKeepsDistinctIds | src/lib/faces.ts:143 | Filtering persons out by id keeps the remaining ids distinct. |
| Faces.AssignToMissingPerson | src/lib/faces.ts:150-154 | Assigning to a person that does not exist still sets the face's `personId`, while no person's list changes. |
| Faces.ReassignLeavesStaleOwner | src/lib/faces.ts:148-159 | Reassigning an owned face leaves it in the old owner's list, so the two-way link breaks. |
| Faces.UnassignedFaces | src/lib/faces.ts:179-181 | The result holds exactly the faces with no person. |
| Faces.FacesForPerson | src/lib/faces.ts:184-186 | The result holds exactly the faces naming the person. |
| Faces.EveryFaceListedOnce | src/lib/faces.ts:179-186 | Every face is either in the unassigned list or in its own person's list. |
| Faces.FaceListsKeepOrder | src/lib/faces.ts:179-186 | Both lists keep store order. |
| Faces.IsFaceDetectionEnabled | src/lib/faces.ts:189-196 | Face detection is enabled exactly when the stored entry is `true`. |
| Faces.SetFaceDetectionEnabled | src/lib/faces.ts:198-200 | Reading the entry back gives the value that was set. |
| Faces.ClearAllFaceData | src/lib/faces.ts:220-223 | The faces and the persons become empty. |
| Queue.DropFiles | src/lib/queue.ts:97-104 | The saved form keeps every field of every item except the file, which is dropped. |
| Queue.DropFilesIdempotent | src/lib/queue.ts:19-30 | Saving and then loading gives back what was saved. A list without files passes through unchanged. |
| Queue.QueueItems | src/lib/queue.ts:19-30 | A loaded item never holds a file. |
| Queue.AddToQueue | src/lib/queue.ts:33-46 | The item is returned `pending`, with its fresh id and time and with its file. It is appended at the end, and the stored copy has no file. Earlier items are kept. |
| Queue.UpdateQueueItem | src/lib/queue.ts:49-57 | Only the first item with the id takes the patch. An unknown id writes nothing. |
| Queue.RemoveFromQueue | src/lib/queue.ts:60-63 | Exactly the items with that id are dropped, and every other item survives. |
| Queue.RemoveKeepsOrder | src/lib/queue.ts:60-63 | The survivors keep queue order. |
| Queue.ClearQueue | src/lib/queue.ts:66-68 | The queue reads back as empty. |
| Queue.QueueStats | src/lib/queue.ts:71-79 | `total` is the queue length. `pending`, `processing` and `error` are the exact numbers of items in each status. |
| Queue.StatusCountsIgnoreFiles | src/lib/queue.ts:72-78 | Dropping files does not change how many items have a status. |
| Queue.StatsBounded | src/lib/queue.ts:71-79 | `complete` is not counted: the three counts plus the complete items make up the total, so the counts never exceed it. |
| Queue.PendingQueueItems | src/lib/queue.ts:115-117 | The result holds exactly the `pending` items. |
| Queue.ErrorQueueItems | src/lib/queue.ts:120-122 | The result holds exactly the `error` items. |
| Queue.StatusListsKeepOrder | src/lib/queue.ts:115-122 | Both lists keep queue order. |
| Queue.AutoProcessQueue | src/lib/queue.ts:82-89 | Auto-processing is on exactly when the entry is `true`, off when the entry is missing, and on when storage cannot be read. |
| Queue.SetAutoProcessQueue | src/lib/queue.ts:92-94 | Reading the entry back gives the value that was set. |
| AdapterTypes.PartialOf | src/lib/adapters/types.ts:17-20 | An update carries exactly the result fields that are own keys of a JSON object. Any other value carries none of them. |
| AdapterTypes.MergeLaws | src/components/ImageDetailPanel.tsx:265-269 | Merging an empty update changes nothing. Merging a whole result's JSON replaces the result. Merging the same update twice is the same as merging it once. |
| AdapterTypes.MergeKeepsAbsentFields | src/components/ImageDetailPanel.tsx:265-269 | A merge overrides exactly the fields present in the update and keeps the others. |
| AdapterTypes.ErrorText | src/components/ImageChat.tsx:81-90 | An `Error` shows its own message, and a thrown non-error shows the fixed fallback text. |
| AdapterTypes.KindOfKey | src/lib/adapters/types.ts:36-44 | Reading a key gives the adapter with that key, or none when no adapter has it. |
| AdapterTypes.KindsAreFive | src/lib/adapters/types.ts:36-44 | There are exactly five adapter kinds. Each kind's key reads back as that kind, so no two kinds share a key. |
| AdapterTypes.ModelListsNonEmpty | src/lib/adapters/types.ts:46-52 | Every kind has at least one model, and the mock adapter's only model is `demo-v1`. |
| AdapterState.GetApiKeys | src/lib/adapters/state.ts:16-23 | The keys record is the parsed stored value, or the empty record when the entry is missing or does not parse. |
| AdapterState.SaveApiKey | src/lib/adapters/state.ts:25-29 | Saving throws exactly when the stored record is neither an object nor an array, and never touches the Ollama URL. On an array, `JSON.stringify` drops the named key, so nothing changes. |
| AdapterState.RemoveApiKey | src/lib/adapters/state.ts:31-35 | Removing throws exactly when the stored record is `null`, and never touches the Ollama URL. On a non-object the record stays as it was. |
| AdapterState.SaveRemoveKey | src/lib/adapters/state.ts:25-35 | On an object record, saving makes the key that adapter's key and leaves every other adapter's key unchanged. Removing it afterwards leaves that adapter without a key and the others still unchanged. |
| AdapterState.GetOllamaUrl | src/lib/adapters/state.ts:37-39 | The URL is never empty. It is the stored URL unless that is missing or empty, in which case it is `http://localhost:11434`. |
| AdapterState.SetOllamaUrl | src/lib/adapters/state.ts:41-43 | Setting the URL leaves the API keys untouched. |
| AdapterState.OllamaUrlRoundTrip | src/lib/adapters/state.ts:37-43 | Reading back a URL that was set gives that URL, or the default when the URL set was empty. |
| AdapterState.AdapterStatus | src/lib/adapters/state.ts:46-56 | Mock is always configured and Ollama never. A cloud adapter is configured exactly when its key is truthy. A stored `null` record makes the read throw. |
| AdapterState.CloudConfigured | src/lib/adapters/state.ts:16-23 | A cloud adapter's configuration check throws exactly when the stored record is `null`. |
| AdapterState.ConfiguredAgrees | src/lib/adapters/state.ts:46-56 | A cloud adapter's own configuration check agrees with the adapter list's flag. |
| AdapterState.OllamaHealthy | src/lib/adapters/state.ts:59-75 | Ollama is healthy exactly when its tags endpoint answered with a success status. A rejected request reads as unhealthy. |
| AdapterState.AdapterInfo | src/lib/adapters/state.ts:78-116 | A key is required exactly for OpenAI, Claude and Google. Only the mock adapter has no key name and no help link. |
| AdapterState.KeyedAdaptersAgree | src/lib/adapters/state.ts:46-116 | For the adapters that require a key, the configured flag follows the key. For the others, only the mock adapter is configured. |
| Normalize.StrList | src/lib/adapters/claude.ts:117-118 | The JSON array holds exactly the given strings, in order. |
| Normalize.ReplyFallback | src/lib/adapters/claude.ts:115-126 | The fallback is well shaped and is tagged `image`, `analyzed`. A non-empty reply's first 300 characters become the description. |
| Normalize.Coerce | src/lib/adapters/claude.ts:106-114 | Normalisation throws exactly on a parsed `null`. Otherwise each of `tags`, `objects` and `colors` is the parsed field when that is an array and the default when not. Each of `mood`, `scene`, `description` and `suggestedTitle` is the parsed field when that is truthy and the default when not. A non-object parses to the defaults. Well-shaped defaults give a well-shaped result. |
| Normalize.CoerceRoundTrip | src/lib/adapters/claude.ts:106-114 | A well-shaped result, written as JSON and normalised, comes back unchanged whatever the defaults. |
| Normalize.CoerceIdempotent | src/lib/adapters/claude.ts:106-114 | Normalising a normalised result again changes nothing. |
| Normalize.TryNormalize | src/lib/adapters/claude.ts:101-126 | The block throws into the fallback exactly when there is no brace span, `JSON.parse` rejects the span, or the span is `null`. A span that parses to anything else gives the normalised value. A result it does produce is well shaped. |
| Normalize.TryNormalizeKeepsWellShaped | src/lib/adapters/claude.ts:101-114 | A reply whose brace span parses to a well-shaped result yields exactly that result. |
| Normalize.DefaultsWellShaped | src/lib/adapters/ollama.ts:121-133 | The cloud defaults are well shaped. So are Ollama's, whenever a brace span exists, since the description then takes a non-empty slice of the reply. |
| Extract.BraceBounds | src/lib/adapters/claude.ts:102 | The bounds point at the first `{` and at the last `}`, with the `}` after the `{`. They are absent exactly when no `}` follows any `{`. |
| Extract.BraceSpan | src/lib/adapters/claude.ts:102 | The match opens with `{` and closes with `}`. It exists exactly when the bounds do. |
| Extract.UpdatedMetadataSpan | src/lib/adapters/claude.ts:200 | There is a match exactly when the text has a brace span and `"updatedMetadata"` occurs strictly between its braces. A match is the brace span, and it contains the key. |
| Extract.ContainedBefore | src/lib/adapters/claude.ts:200 | A slice of the text contains a pattern exactly when the first occurrence from the slice's start ends within the slice. |
| Extract.RemoveBraceSpan | src/lib/adapters/claude.ts:204 | Removing the brace span from its text leaves the text before the first `{` joined to the text after the last `}`. |
| Extract.WholeBraceSpan | src/lib/adapters/claude.ts:102 | A text that opens with `{` and closes with `}` is its own span, and removing it leaves nothing. |
| Extract.RemoveAllMarker | src/lib/adapters/google.ts:96 | Deleting every marker never makes the text longer. |
| Extract.StripFences | src/lib/adapters/google.ts:96 | Stripping fences never makes the text longer. |
| Extract.StripFencesNoBacktick | src/lib/adapters/google.ts:96 | A text with no backtick is left as it is. |
| Extract.StripFencesOfFencedReply | src/lib/adapters/google.ts:96 | A reply wrapped in a JSON code block comes out as exactly its body. |
| Extract.MatchDataUrl | src/lib/adapters/claude.ts:24-30 | A match splits the URL into `data:`, a non-empty media type, `;base64,` and non-empty data, with no line terminator anywhere. The media type ends at the last marker. When a `data:` text with no line terminator does not match, no marker splits it into two non-empty parts. |
| Extract.DataUrlRoundTrip | src/lib/adapters/claude.ts:24-30 | A data URL assembled from a media type and base64 data splits back into exactly those two parts. |
| Extract.SecondCommaField | src/lib/adapters/ollama.ts:67 | The field contains no comma. It is missing exactly when the text has no comma. |
| Extract.SecondCommaFieldOfDataUrl | src/lib/adapters/ollama.ts:67 | For a text with one comma, the field is everything after it. |
| Extract.FenceBounds | src/pages/SketchPage.tsx:32 | Locates the leftmost match: the first fence, and the first fence that starts at least three characters after it. No fence begins before the first, and none begins between the end of the first and the second. When it is absent, no fence is followed by a non-overlapping fence. |
| Extract.FencedBlock | src/pages/SketchPage.tsx:32 | There is a match exactly when a second fence begins at least three characters after the first. The whole match runs from the first fence to the end of the first fence after it. The group ends where that fence begins, holds no fence, and does not start with white space. |
| ImagePayload.ParseDataUrl | src/lib/adapters/claude.ts:24-30 | A matching data URL gives its media type and data. Any other text is taken as PNG data as it is. |
| ImagePayload.FileToBase64 | src/lib/adapters/claude.ts:5-21 | An unreadable file rejects with a non-error. A malformed data URL rejects with `Invalid data URL`. A success is the file's data URL, split. |
| ImagePayload.Base64Image | src/lib/adapters/claude.ts:44-51 | A string image is accepted exactly when it starts with `data:`. Otherwise it throws `Invalid image format`. |
| ImagePayload.FileRoundTrip | src/lib/adapters/claude.ts:5-51 | A file whose data URL is well formed is sent as exactly its media type and data. |
| ImagePayload.ImageUrl | src/lib/adapters/openai.ts:25-34 | Any string is sent as it is. A file succeeds exactly when it can be read. |
| ImagePayload.OllamaImage | src/lib/adapters/ollama.ts:61-71 | A plain string is sent as it is. A `data:` string is sent as the field after its first comma. Only an unreadable file fails. |
| ImagePayload.OllamaImageOfDataUrl | src/lib/adapters/ollama.ts:61-71 | A data URL with one comma sends exactly its base64 data. |
| ChatReply.HistoryTurns | src/lib/adapters/claude.ts:145-150 | There is one turn per history message, in order. User messages stay `user`, and every other message takes the backend's assistant role. Each keeps its content. |
| ChatReply.HistoryTurnsAppend | src/lib/adapters/claude.ts:145-150 | The turns of a longer history extend those of its prefix. |
| ChatReply.PlainReply | src/lib/adapters/claude.ts:210 | The message is never falsy and carries no update. A non-empty reply is its own message. |
| ChatReply.UpdateOf | src/lib/adapters/claude.ts:204-205 | There is an update exactly when the parsed value has the field. |
| ChatReply.MetadataReply | src/lib/adapters/claude.ts:197-210 | Without a span mentioning `"updatedMetadata"` the reply is plain, and so it is when the span does not parse or is `null`. Otherwise the message is the parsed `message` when that is truthy and else the reply with the span cut out and trimmed. The update is the parsed `updatedMetadata`, present exactly when the object has one. An update is only ever taken from such a span. |
| ChatReply.MetadataReplyOfObject | src/lib/adapters/claude.ts:197-210 | An embedded object with a truthy message yields that message and its update. |
| ChatReply.UpdateOnlySpan | src/lib/adapters/claude.ts:200-204 | The reply `{"updatedMetadata":{}}` is its own span, and removing it leaves nothing. |
| ChatReply.MetadataReplyMayBeEmpty | src/lib/adapters/claude.ts:203-204 | That reply yields an empty message, unlike any plain reply. |
| ChatReply.AnySpanReply | src/lib/adapters/openai.ts:187-200 | The message is never falsy. A reply with no brace span is plain, and so it is when the span does not parse or is `null`. Otherwise the message is the parsed `message` when that is truthy and else the whole reply. The update is the parsed `updatedMetadata`, present exactly when the object has one. |
| ChatReply.AnySpanReplyOfObject | src/lib/adapters/openai.ts:190-195 | A reply whose brace span is `{"message": m, "updatedMetadata": u}` with a truthy `m` yields `m` and the update `u`. |
| ChatReply.AnySpanReplyWithoutMessage | src/lib/adapters/openai.ts:190-195 | A span with an update and no `message` yields the whole reply, braces included, as the message. |
| ClaudeAdapter.Interpret | src/lib/adapters/claude.ts:99-126 | Every reply text yields a well-shaped result. |
| ClaudeAdapter.Analyze | src/lib/adapters/claude.ts:37-127 | It succeeds exactly when the key is truthy, the image is accepted and the request answered with a success status and a body that reads as JSON. A success is well shaped. A missing key throws `Claude API key not configured`. A rejected request throws the network-error message. A failed status throws a `TypeError` when its error body is JSON `null`, and otherwise the backend's message or `Claude API error: <status>`. A body that does not read as JSON rethrows the reading error. A body that is JSON `null` throws a `TypeError`. |
| ClaudeAdapter.AnalyzeKeepsWellShapedReply | src/lib/adapters/claude.ts:99-114 | A successful reply whose JSON is a well-shaped result returns exactly that result. |
| ClaudeAdapter.AnalyzeFallsBack | src/lib/adapters/claude.ts:115-126 | A reply without `{` gives the fallback. |
| ClaudeAdapter.ChatTurns | src/lib/adapters/claude.ts:141-173 | The history comes first, with `assistant` roles, followed by one user turn. Only the roles `user` and `assistant` occur. |
| ClaudeAdapter.Chat | src/lib/adapters/claude.ts:129-211 | It succeeds exactly when the key is truthy and the request answered with a success status and a readable body. The reply is read by the `updatedMetadata` rule. A rejected request propagates unchanged. A failed status throws a `TypeError` when its error body is JSON `null`, and otherwise the backend's message or `Claude API error: <status>`. An unreadable body rethrows the reading error. A body that is JSON `null` throws a `TypeError`. |
| ClaudeAdapter.ConfiguredIffKeyAccepted | src/lib/adapters/claude.ts:213-215 | With a readable image and a successful reply, `analyze` succeeds exactly when `isConfigured()` says so. |
| GoogleAdapter.Interpret | src/lib/adapters/google.ts:93-121 | Every reply text yields a well-shaped result. |
| GoogleAdapter.SameAsClaudeWithoutFences | src/lib/adapters/google.ts:96-121 | Without backticks, Gemini reads a reply as Claude does. |
| GoogleAdapter.FencedReplyReadAsBody | src/lib/adapters/google.ts:96-98 | A reply in a JSON code block is read as its body alone. |
| GoogleAdapter.Analyze | src/lib/adapters/google.ts:36-122 | It succeeds exactly when the key is truthy, the image is accepted and the request answered with a success status and a body that reads as JSON. A success is well shaped. A missing key throws `Google API key not configured`. A rejected request propagates unchanged. A failed status throws a `TypeError` when its error body is JSON `null`, and otherwise the backend's message or `Gemini API error: <status>`. An unreadable body rethrows the reading error. A body that is JSON `null` throws a `TypeError`. |
| GoogleAdapter.ChatTurns | src/lib/adapters/google.ts:137-165 | The history comes first, with assistant turns named `model`, followed by one user turn. No turn has the role `assistant`. |
| GoogleAdapter.Chat | src/lib/adapters/google.ts:124-206 | It succeeds exactly when the key is truthy and the request answered with a success status and a readable body. The reply is read by the `updatedMetadata` rule. A rejected request propagates unchanged. A failed status throws a `TypeError` when its error body is JSON `null`, and otherwise the backend's message or `Gemini API error: <status>`. An unreadable body rethrows the reading error. A body that is JSON `null` throws a `TypeError`. |
| GoogleAdapter.ConfiguredIffKeyAccepted | src/lib/adapters/google.ts:208-210 | With a readable image and a successful reply, `analyze` succeeds exactly when `isConfigured()` says so. |
| OpenAIAdapter.LongWords | src/lib/adapters/openai.ts:99 | It keeps exactly the words longer than three characters. |
| OpenAIAdapter.LongWordsAppend | src/lib/adapters/openai.ts:99 | The filter keeps order: the long words of two lists joined are those of the first followed by those of the second. |
| OpenAIAdapter.NoLongWords | src/lib/adapters/openai.ts:99 | The filter leaves nothing exactly when no word is longer than three characters. |
| OpenAIAdapter.LongWordPrefix | src/lib/adapters/openai.ts:99 | Each of the first long words of a reply is longer than three characters, has no white space and occurs in the reply. |
| OpenAIAdapter.FallbackWords | src/lib/adapters/openai.ts:99 | The words are the first five long words of the reply's white-space split, in order, or all of them when there are fewer. There are none exactly when no piece is longer than three characters. Each word is longer than three characters, contains no white space and occurs in the reply. |
| OpenAIAdapter.TextFallback | src/lib/adapters/openai.ts:96-109 | The result is well shaped, with one to five tags. If the reply has long words, they are the tags. A non-empty reply gives its first 300 characters as description and its first 50 as title. |
| OpenAIAdapter.Interpret | src/lib/adapters/openai.ts:79-109 | Every reply text yields a well-shaped result. |
| OpenAIAdapter.PlainReplyTagsAreItsWords | src/lib/adapters/openai.ts:79-109 | A reply without `{` gets the text fallback, and its tags occur in the reply. |
| OpenAIAdapter.Analyze | src/lib/adapters/openai.ts:19-110 | It succeeds exactly when the key is truthy, the image is readable and the request answered with a success status and a body that reads as JSON. A success is well shaped. A missing key throws `OpenAI API key not configured`. A rejected request propagates unchanged. A failed status throws a `TypeError` when its error body is JSON `null`, and otherwise the backend's message or `OpenAI API error: <status>`. An unreadable body rethrows the reading error. A body that is JSON `null` throws a `TypeError`. |
| OpenAIAdapter.EntriesBuildPrompt | src/lib/adapters/openai.ts:128-132 | A well-shaped result whose objects are all objects builds the system prompt. |
| OpenAIAdapter.Chat | src/lib/adapters/openai.ts:112-201 | It succeeds exactly when the key is truthy, the prompt builds and the request answered with a success status and a readable body. The reply is read by the any-span rule, and a successful message is never falsy. A prompt that cannot be built throws a `TypeError`. A failed status throws a `TypeError` when its error body is JSON `null`, and otherwise the backend's message or `OpenAI API error: <status>`. An unreadable body rethrows the reading error. A body that is JSON `null` throws a `TypeError`. |
| OpenAIAdapter.ChatTurns | src/lib/adapters/openai.ts:124-164 | The conversation is the system prompt, then the history with `assistant` roles, then the question, then the format instruction as a system turn. |
| OpenAIAdapter.ConfiguredIffKeyAccepted | src/lib/adapters/openai.ts:203-205 | With a readable image and a successful reply, `analyze` succeeds exactly when `isConfigured()` says so. |
| OllamaAdapter.CheckOllama | src/lib/adapters/ollama.ts:20-31 | The server is up exactly when the version endpoint answered with a success status. |
| OllamaAdapter.IsVisionModel | src/lib/adapters/ollama.ts:44-46 | The test throws unless the model's name is a string or an array. When it does not throw, it says whether the name mentions a vision family. |
| OllamaAdapter.VisionNames | src/lib/adapters/ollama.ts:42-47 | The filter throws exactly when some entry's test does. Otherwise every kept name mentions a vision family, and every vision model's name is kept. |
| OllamaAdapter.VisionNamesAppend | src/lib/adapters/ollama.ts:42-47 | The filter keeps order and repeats: the names of two lists joined are those of the first followed by those of the second, and the joined list throws exactly when a part does. |
| OllamaAdapter.VisionNamesOfOne | src/lib/adapters/ollama.ts:42-47 | One listed model contributes its name exactly when it is a vision model, and throws when its name cannot be searched. |
| OllamaAdapter.GetVisionModels | src/lib/adapters/ollama.ts:34-52 | A failed request, an unreadable body or a missing model list yields the empty list. With a model array, the result is the filtered names, or the empty list when the filter throws. |
| OllamaAdapter.AdapterModelsAreVisionModels | src/lib/adapters/ollama.ts:41-56 | Each model the adapter offers is recognised as a vision model. |
| OllamaAdapter.Fallback | src/lib/adapters/ollama.ts:134-146 | The fallback is well shaped and tagged `image`, `analyzed`, `local`. A non-empty reply gives its first 200 characters as description. |
| OllamaAdapter.Interpret | src/lib/adapters/ollama.ts:109-146 | Every reply, including a missing one, yields a well-shaped result. |
| OllamaAdapter.Analyze | src/lib/adapters/ollama.ts:58-147 | It succeeds exactly when the image is readable and the request answered with a success status and a body that reads as JSON. A success is well shaped. A rejected request propagates unchanged. A failed status throws `Ollama error: ` followed by the status text. An unreadable body rethrows the reading error. A body that is JSON `null` throws a `TypeError`. |
| OllamaAdapter.AnalyzeKeepsWellShapedReply | src/lib/adapters/ollama.ts:114-133 | A reply whose JSON is a well-shaped result returns exactly that result. |
| OllamaAdapter.IsConfigured | src/lib/adapters/ollama.ts:149-152 | The adapter always reports itself configured. |
| Mermaid.Mirror | src/lib/mermaid-schema.ts:71-88 | A closing delimiter has the length of its opening one. |
| Mermaid.ShapeStart | src/lib/mermaid-schema.ts:52-69 | An opening delimiter is one or two characters starting with a bracket. An unknown shape opens a rectangle. |
| Mermaid.ShapeEnd | src/lib/mermaid-schema.ts:71-88 | Every shape is closed by the mirror image of its opening delimiter. |
| Mermaid.ShapesDistinct | src/lib/mermaid-schema.ts:52-69 | The six declared shapes open with six different delimiters. |
| Mermaid.Arrow | src/lib/mermaid-schema.ts:90-101 | Every edge is at least three characters, ends in `>` and holds no space, bar or quote. An unknown type is a plain arrow. |
| Mermaid.Header | src/lib/mermaid-schema.ts:28-30 | There is a header line exactly for a flowchart, and at most one. |
| Mermaid.LinesInOrder | src/lib/mermaid-schema.ts:24-50 | The lines are the header, then one line per node in order, then one line per connection in order. |
| Mermaid.GenerateMermaidCode | src/lib/mermaid-schema.ts:24-50 | No lines give the empty text. A flowchart's code starts with `flowchart` and its direction. |
| Mermaid.JoinStartsWithFirst | src/lib/mermaid-schema.ts:49 | A join begins with its first part. |
| Mermaid.NodeLineSingle | src/lib/mermaid-schema.ts:32-38 | A node whose id and label hold no newline renders as one line. |
| Mermaid.ConnectionLineSingle | src/lib/mermaid-schema.ts:40-47 | A connection whose ends and label hold no newline renders as one line. |
| Mermaid.LineSingle | src/lib/mermaid-schema.ts:24-50 | No line of a diagram with single-line texts holds a newline. |
| Mermaid.HeaderLineSingle | src/lib/mermaid-schema.ts:28-30 | The header holds no newline when the direction holds none. |
| Mermaid.NodeLineAtSingle | src/lib/mermaid-schema.ts:32-38 | The line of each node holds no newline. |
| Mermaid.ConnectionLineAtSingle | src/lib/mermaid-schema.ts:40-47 | The line of each connection holds no newline. |
| Mermaid.LinesRoundTrip | src/lib/mermaid-schema.ts:24-50 | Splitting the code on newlines gives back exactly its lines. |
| Export.GenerateExportData | src/lib/export.ts:13-20 | The envelope has version `1.0` and the given time. It holds every result unchanged and in order, and its count is the number of results. |
| Export.DatePart | src/lib/export.ts:27 | The date is the prefix of the timestamp before its first `T`, or the whole timestamp when it has none. |
| Export.FilenameOfTimestamp | src/lib/export.ts:25-29 | A timestamp of a date, `T` and a time names the file `metalens-export-<date>.json`. |
| Export.DownloadName | src/lib/export.ts:41 | A non-empty given name is used. A missing or empty one gives the dated default. |
| Export.ExportResult | src/lib/export.ts:51-56 | The envelope holds exactly that one result under version `1.0`, with the given name or the default. |
| Export.ExportAllResults | src/lib/export.ts:59-63 | The envelope holds every result, under the dated default name. |
| Theme.KebabKey | src/ui-lib/theme/index.ts:101 | A property name holds no capital and is never shorter than its key. |
| Theme.KebabKeyOfLowercase | src/ui-lib/theme/index.ts:101 | A key without capitals is its own property name. |
| Theme.KebabKeyIdempotent | src/ui-lib/theme/index.ts:101 | Converting a property name again changes nothing. |
| Theme.KebabKeyRoundTrip | src/ui-lib/theme/index.ts:101 | A key without hyphens can be read back from its property name. |
| Theme.KebabKeyInjective | src/ui-lib/theme/index.ts:101 | Two keys without hyphens never share a property name. |
| Theme.KebabKeyKeepsNewlines | src/ui-lib/theme/index.ts:101 | Conversion adds no newline. |
| Theme.ThemeCssLines | src/ui-lib/theme/index.ts:98-105 | Splitting the style sheet on newlines gives one `--name: value;` line per entry, in entry order. |
| Theme.WithValues | src/ui-lib/theme/index.ts:51-93 | The theme pairs each key with its value, in order. |
| Theme.ThemeKeysDistinct | src/ui-lib/theme/index.ts:51-71 | The dark theme has 19 distinct keys. |
| Theme.ThemesShareKeys | src/ui-lib/theme/index.ts:51-105 | The dark and light themes have the same 19 keys, so each renders the same 19 property names, whatever the colours. |
| ImageDetailPanel.TagsWithout | src/components/ImageDetailPanel.tsx:43 | Filtering throws unless the tags are an array. Otherwise the tag is gone, every other tag stays, and nothing new appears. |
| ImageDetailPanel.TagsWithoutKeepsOrder | src/components/ImageDetailPanel.tsx:43 | The remaining tags keep their order. |
| ImageDetailPanel.TagsWith | src/components/ImageDetailPanel.tsx:51 | Spreading works on an array or a string and throws on anything else. An array is extended at the end. A string spreads into its characters. Either way the new tag comes last. |
| ImageDetailPanel.AddThenRemoveTag | src/components/ImageDetailPanel.tsx:42-57 | Adding an absent tag and then removing it gives the tag list back. |
| ImageDetailPanel.Publish | src/components/ImageDetailPanel.tsx:45-46 | The image is shown with the new result, and the store keeps its length. |
| ImageDetailPanel.RemoveTag | src/components/ImageDetailPanel.tsx:39-47 | Without a result, or with non-array tags, nothing happens. Otherwise the image is shown with the same result minus that tag, and nothing else changes. |
| ImageDetailPanel.AddTag | src/components/ImageDetailPanel.tsx:49-57 | Without a result, or with blank input, nothing happens. Array tags get the trimmed tag appended, even a duplicate. Tags that are neither an array nor a string make the spread throw, and nothing changes. |
| ImageDetailPanel.MetadataUpdate | src/components/ImageDetailPanel.tsx:265-269 | Without a result nothing happens. A non-object update shows the image unchanged. For an object update, each of the seven fields is taken from the update when present and kept otherwise. |
| ImageDetailPanel.ChatHistoryUpdate | src/components/ImageDetailPanel.tsx:270-273 | Without a result nothing happens. Otherwise the image is shown with the new history. A successful write changes only the first record with that id, and only its history. |
| ImageDetailPanel.PublishPersists | src/components/ImageDetailPanel.tsx:45-46 | After a successful write, the first record with the image's id holds the shown result and no other record changes. A refused write changes nothing. |
| ImageDetailPanel.EditsPersistWhatIsShown | src/components/ImageDetailPanel.tsx:42-57 | Removing a tag, adding one and merging metadata each store what they show. |
| ImageChat.InitialState | src/components/ImageChat.tsx:31-33 | The chat opens idle with empty input, showing the stored history or none. |
| ImageChat.ReplyContent | src/components/ImageChat.tsx:67-90 | A reply contributes its message. An error contributes `Error: ` and its message. A non-error contributes `Error: Failed to get response`. |
| ImageChat.Exchange | src/components/ImageChat.tsx:53-88 | The history grows by the question and then the answer, and keeps everything before them. |
| ImageChat.HandleSend | src/components/ImageChat.tsx:44-94 | Blank input, a request in flight, an adapter without chat or an unanalysed image leave everything as it was. Otherwise the adapter gets the trimmed question and the history before it. The history gains the question and the reply or error text and is handed on, and the input is cleared. A metadata update is passed on exactly when the reply carries a truthy one. |
| ImageChat.HistoryOnlyGrows | src/components/ImageChat.tsx:44-94 | A send never rewrites earlier turns. A request that goes out adds exactly one user turn and one assistant turn, error or not. |
| ImageChat.ReopenedChatShowsHistory | src/components/ImageChat.tsx:33-90 | Once the panel stores the history the chat hands it, a chat reopened on the stored record shows the same conversation. |
| PersonBucketDetail.SaveName | src/components/PersonBucketDetail.tsx:29-35 | A blank or unchanged name, or a missing person, changes nothing. Otherwise only that person is renamed, with the untrimmed text. |
| PersonBucketDetail.MoveOne | src/components/PersonBucketDetail.tsx:46-49 | Ids and lengths stay the same. Only the moved face changes, and it names the target. |
| PersonBucketDetail.MoveOneKeepsConsistent | src/components/PersonBucketDetail.tsx:46-49 | A move keeps the face-person links consistent, whether or not the face or the target exists. |
| PersonBucketDetail.MoveSelected | src/components/PersonBucketDetail.tsx:45-54 | Ids and lengths stay the same, and unselected faces are untouched. |
| PersonBucketDetail.MoveSelectedKeepsConsistent | src/components/PersonBucketDetail.tsx:45-54 | Moving any selection keeps the links consistent. |
| PersonBucketDetail.MoveSelectedSetsTarget | src/components/PersonBucketDetail.tsx:45-54 | With unique face ids, every selected face ends up naming the target. |
| PersonBucketDetail.MoveSelectedEffect | src/components/PersonBucketDetail.tsx:45-54 | After a move to an existing person, each selected face names it and is listed by it exactly once. No other person lists the face, its old owner included. |
| PersonBucketDetail.RemoveSelected | src/components/PersonBucketDetail.tsx:139-145 | Ids and lengths stay the same. Unselected faces are untouched, and an unassigned face stays unassigned. |
| PersonBucketDetail.RemoveSelectedUnassigns | src/components/PersonBucketDetail.tsx:139-145 | With unique face ids, no selected face is assigned afterwards. |
| PersonBucketDetail.RemoveSelectedKeepsConsistent | src/components/PersonBucketDetail.tsx:139-145 | A bulk remove keeps the links consistent. |
| PersonBucketDetail.OtherPersons | src/components/PersonBucketDetail.tsx:62 | The list holds exactly the persons other than the one shown. |
| FaceAssignmentDialog.HandleAssign | src/components/FaceAssignmentDialog.tsx:22-25 | The store is exactly the assignment of the dialog's face, and the callback follows. |
| FaceAssignmentDialog.PersonIndexOfAppended | src/lib/faces.ts:97-116 | A person appended under a new id is found at the end. |
| FaceAssignmentDialog.HandleCreateAndAssign | src/components/FaceAssignmentDialog.tsx:27-32 | A blank name changes nothing and does not call back. Otherwise a person with the untrimmed name and that one face is appended, the face is linked to it and the callback follows. The person keeps the creation time and carries the later time of the assignment as `updatedAt`. |
| FaceAssignmentDialog.AssignToAppended | src/lib/faces.ts:148-159 | Assigning a face to a person just appended under a fresh id gives that person exactly that face and the new `updatedAt`, and leaves the earlier persons alone. |
| FaceAssignmentDialog.CreateKeepsConsistent | src/lib/faces.ts:102-116 | Creating a person under a fresh id keeps the links consistent. |
| FaceAssignmentDialog.CreateAndAssignKeepsConsistent | src/components/FaceAssignmentDialog.tsx:27-32 | Creating a person and assigning an unassigned face to it keeps the links consistent. |
| ApiKeyDialog.PaidApisNeedKeys | src/components/ApiKeyDialog.tsx:49 | The paid APIs are exactly the adapters whose information requires a key. |
| ApiKeyDialog.Prefill | src/components/ApiKeyDialog.tsx:51-60 | Ollama prefills its URL. Any other adapter prefills its key when truthy, the empty text otherwise, and throws on a stored `null` record. |
| ApiKeyDialog.HandleSave | src/components/ApiKeyDialog.tsx:62-73 | Without an adapter nothing happens. Ollama stores the input, or the default URL for empty input, and keeps the keys. For a keyed adapter, blank input only closes the dialog, and otherwise the trimmed key is saved. The save throws on a record that is neither object nor array. |
| ApiKeyDialog.HandleRemove | src/components/ApiKeyDialog.tsx:75-86 | Without an adapter nothing happens. Ollama goes back to the default URL. Any other adapter loses its key, throwing on a `null` record. The input is cleared and the dialog closes. |
| ApiKeyDialog.SaveThenPrefill | src/components/ApiKeyDialog.tsx:51-73 | Reopening after a save shows what was saved, and no other adapter's key changes. |
| ApiKeyDialog.SaveKeyThenPrefill | src/components/ApiKeyDialog.tsx:51-73 | For a keyed adapter, reopening after a non-blank save shows the trimmed key. |
| ApiKeyDialog.RemoveThenPrefill | src/components/ApiKeyDialog.tsx:51-86 | Reopening after a remove shows an empty input for a keyed adapter and the default URL for Ollama. No other adapter's key changes. |
| SketchPage.SketchJson | src/pages/SketchPage.tsx:32-34 | A fenced block supplies its group, or the whole block when the group is empty. Without one, the brace span is used. Nothing is found exactly when neither pattern matches. |
| SketchPage.PlainJsonTakenWhole | src/pages/SketchPage.tsx:32-34 | A fence-free text that opens with `{` and closes with `}` is parsed whole. |
| SketchPage.FallbackConnectionsDeclared | src/pages/SketchPage.tsx:39-54 | Every connection of the stand-in diagram joins two declared nodes. |
| SketchPage.FallbackLines | src/pages/SketchPage.tsx:39-54 | The stand-in diagram renders as a `flowchart TD` header, three node lines and two connection lines. |
| SketchPage.Recognize | src/pages/SketchPage.tsx:28-54 | An object reply, a reply with no JSON, or JSON that does not parse gives the stand-in diagram. Otherwise the parsed value is used. |
| SketchPage.HandleCapture | src/pages/SketchPage.tsx:19-60 | A successful analysis clears the error and shows the recognised diagram. A failed one keeps the previous diagram and shows the error's message or `Failed to analyze sketch`. |
| SketchPage.ObjectRepliesAlwaysFallBack | src/pages/SketchPage.tsx:25-54 | Since every adapter returns an object, a successful capture always shows the stand-in diagram. |
| Seqs.Toggle | src/App.tsx:260-264 | The element is in the result exactly when it was absent. Other elements are kept. An absent element is appended at the end, and a present one is removed everywhere. |
| Seqs.ToggleTwice | src/components/PersonBucketDetail.tsx:56-60 | Toggling an absent element twice gives the selection back. |
| Seqs.ToggleKeepsNoDuplicates | src/components/PersonBucketDetail.tsx:56-60 | Toggling keeps a selection free of repeats. |
| AdapterTypes.StatusError | src/lib/adapters/claude.ts:93-96 | A failed status throws a `TypeError` exactly when the error body is JSON `null`, since `?.` guards only `.message`. Any other error body gives a non-empty `Error`: the backend's message when there is one, otherwise the prefix and the status. |
| AdapterTypes.ApiError | src/lib/adapters/claude.ts:93-96 | For an error body other than `null`, the thrown value is a non-empty `Error`. It carries the backend's message when there is one, and otherwise the adapter's prefix and the status. |
| Text.NatToStringRoundTrip | src/lib/adapters/claude.ts:95 | The decimal status code in an error message reads back as that code. |
| Text.Trim | src/components/ImageDetailPanel.tsx:50-51 | The trimmed text is an infix of the input that neither starts nor ends with white space, and everything removed before and after it is white space. |
| Text.TrimEmptyIffAllSpace | src/components/ImageDetailPanel.tsx:50 | A text trims to nothing exactly when it is all white space, which is when a tag input counts as blank. |
| Text.TrimIdempotent | src/components/ImageChat.tsx:45-49 | Trimming twice is trimming once, so the question sent is already trimmed. |
| Text.SplitOnSpaceRuns | src/lib/adapters/openai.ts:99 | There is always at least one piece, and no piece holds white space. |
| Text.SplitOnSpaceRunsJoin | src/lib/adapters/openai.ts:99 | The pieces joined by single spaces give the text with each run of white space collapsed to one space, so they are the text's words, in order, with nothing lost. |
| Text.SplitOnSpaceRunsPiecesOccur | src/lib/adapters/openai.ts:99 | Every piece occurs in the text. |
| Text.SplitJoin | src/lib/mermaid-schema.ts:49 | Splitting a newline-joined list of newline-free parts gives the parts back. |
| Json.Get | src/lib/adapters/claude.ts:106-112 | Reading a field throws exactly on `null`. It finds a value exactly when the object has that key. |

## Left out

- The mock adapter (`mock.ts`) is context, not core. Its key and model list appear only in the adapter tables.
- `fetch`, `FileReader`, the clock, `crypto.randomUUID`, thumbnail generation and `confirm()` are not modelled. They are parameters: the outcome of each request, each file's data URL, the timestamps, the generated ids, each thumbnail, and the user's answer as the choice of handler.
- PersonBucketDetail.MoveOne: one `now` stands for every clock read of a move or a bulk remove. The unassign and the assign each read the clock in `updatePerson` (src/lib/faces.ts:127), and `MoveSelected` and `RemoveSelected` reuse the same `now` for every face. No contract states a timestamp, and the reads of one handler differ at most by the time the handler takes.
- Request bodies and prompts are not modelled: model names, `max_tokens`, headers, the API URLs and the prompt text. They do not influence the result except through the reply, which is a parameter.
- `JSON.parse` is a parameter `string -> Option<Value>`. `JSON.stringify` is modelled only where its effect on a stored key record matters (`AdapterState.SaveApiKey`).
- `localStorage` itself is not modelled. Each collection is a value, and reading it gives that value back. The source's fallback to an empty list for stored text that does not parse is not modelled: the model never stores unparsable text.
- Image and batch writes take their outcome (`Written` or `Refused`) as a parameter. Face, person and queue writes are taken to succeed. Their refusal is swallowed the same way, but it is not modelled.
- Numbers such as confidences, percentages and progress are not modelled as IEEE floating point. `real` stands in where a value is only carried along.
- `getStorageUsage` (storage.ts) and `totalProgress` (App.tsx:275-281) are not modelled, because they are byte and floating-point arithmetic for display only.
- React rendering, the state setters that only toggle dialogs, scrolling, copy to clipboard and the presentational components are not modelled.
- `downloadExport` is modelled only as its file name (`Export.DownloadName`). The Blob, object URL and anchor click are DOM effects.
- The colour values of the dark and light themes are not modelled: the style sheet is proved for any values.
- `toLowerCase` is modelled on ASCII only: theme keys are ASCII identifiers.
- `App.tsx`'s `handleReanalyze`, `handleCreateBatch` and `handleModelChange` are not modelled separately. They call `analyze`, `createBatch` and `setSelectedModel`, which are modelled on their own.
- The timeout of `checkOllama` (3 seconds, an `AbortController`) is not modelled: a timed-out request is a rejected one.
- Camera capture and sketch drawing produce an image string, which is a parameter of `SketchPage.HandleCapture`.
- App.ProcessImages: assumes every storage write succeeds, and that the analysis outcome of a file depends only on the file. The interleaving of state updates with awaited calls is not modelled.
- AdapterTypes.MergeLaws: models the spread `{ ...result, ...updates }` only for the seven result fields. Other keys of `updates` are not represented. In the source they are stored with the image by `updateImage`, read back by `getStoredImages`, and written into export files.
- Extract.StripFences: the function's ensures only bound its length; its effect is stated by `Extract.StripFencesNoBacktick` and `Extract.StripFencesOfFencedReply`.
- ClaudeAdapter.Analyze: a reply field that is a truthy non-string (a number, object or array in `content[0].text`) is not modelled. The reply is taken to be a string or absent. In the source such a value makes `.match` throw, and then `.slice` either throws or gives a non-string description.
- ClaudeAdapter.Chat: a truthy non-string reply field is not modelled. In the source `.match` then throws, the error is caught, and the value itself is returned as the message.
- GoogleAdapter.Analyze: a truthy non-string reply field is not modelled. In the source `.replace` throws, and then `.slice` either throws or gives a non-string description.
- GoogleAdapter.Chat: a truthy non-string reply field is not modelled, for the same reason as in `ClaudeAdapter.Chat`.
- OpenAIAdapter.Analyze: a truthy non-string `message.content` is not modelled. In the source `.match` and then `.split` throw, and the call rejects with a TypeError.
- OpenAIAdapter.Chat: a truthy non-string `message.content` is not modelled. In the source `.match` throws, the error is caught, and the value itself is returned as the message.
- OllamaAdapter.Analyze: a non-string `data.response` is not modelled. The reply is taken to be a string or absent. In the source `.match` throws, and the fallback's `.slice` either throws or gives a non-string description.
- Normalize.ReplyFallback: lengths count Unicode scalar values, not the UTF-16 code units that JavaScript's `slice(0, 300)` counts. A reply with characters outside the Basic Multilingual Plane keeps more text in the model than in the source.
- Normalize.OllamaDefaults: the 200-character slice counts scalar values, not UTF-16 code units.
- OpenAIAdapter.TextFallback: the 300- and 50-character slices count scalar values, not UTF-16 code units.
- OpenAIAdapter.LongWords: `w.length > 3` counts scalar values, not UTF-16 code units. For example, the word made of two emoji has length 4 in JavaScript and is kept there, but the model drops it.
- OpenAIAdapter.FallbackWords: inherits the scalar-value length of `OpenAIAdapter.LongWords`.
- OllamaAdapter.Fallback: the 200-character slice counts scalar values, not UTF-16 code units.

## Findings

| source | as written | input that shows it | evidently intended | confidence | as-written member | corrected member |
|---|---|---|---|---|---|---|
| src/App.tsx:183-207 | `processImages` skips a file whose thumbnail fails, then analyses `newImages[i]` with `files[i]`, so every later image is analysed with the wrong file. | files `a.png` and `b.png`, where the first thumbnail fails: the image of `b.png` is analysed with `a.png` | each stored image is analysed with its own file | high (not executed) | App.ProcessImages, App.PairingSkewsAfterFailedThumbnail | App.ProcessImagesPaired, App.PairedWhenNoThumbnailFails |
| src/App.tsx:82-88 | `getStoredAdapter` accepts a saved name when `ADAPTER_MODELS[saved]` is truthy. Names inherited from `Object.prototype` pass this test too. | a stored adapter name `constructor` is accepted | only the five adapter keys are accepted | high (not executed) | App.StoredAdapterAsWritten, App.InheritedNameAccepted | App.StoredAdapter, App.StoredAdapterAgrees |

=== FILE: adapter_state.dfy ===
/** The adapter configuration kept in browser storage: the API keys record and the Ollama URL,
    and what the UI derives from them. */
module AdapterState {
  import opened Wrappers
  import opened Json
  import opened AdapterTypes

  /** The stored API keys entry: absent (or the empty string), text `JSON.parse` rejects, or the
      value it parses to. */
  datatype KeySlot = Missing | Unparsable | Stored(value: Value)

  /** The two storage entries this module owns. */
  datatype Config = Config(apiKeys: KeySlot, ollamaUrl: Option<string>)

  const DefaultOllamaUrl := "http://localhost:11434"

  /** `getApiKeys()`: the parsed record, or an empty record when the entry is absent or corrupt.
      A stored value that is not an object (`null`, say) is returned as it is. */
  function GetApiKeys(c: Config): (v: Value)
    ensures c.apiKeys.Stored? ==> v == c.apiKeys.value
    ensures !c.apiKeys.Stored? ==> v == Obj(map[])
  {
    match c.apiKeys
    case Stored(v) => v
    case _ => Obj(map[])
  }

  /** `getApiKeys()[k]`, the key an adapter reads before every call. */
  function KeyOf(c: Config, k: AdapterKind): Lookup {
    Get(GetApiKeys(c), Key(k))
  }

  /** `saveApiKey(adapter, apiKey)`: sets the property and stores the record again. Assigning a
      property of `null` or of a primitive throws (module code is strict); on an array the
      assignment succeeds but `JSON.stringify` drops the named property. */
  function SaveApiKey(c: Config, k: AdapterKind, apiKey: string): (r: Result<Config, Thrown>)
    ensures r.Failure? <==> !GetApiKeys(c).Obj? && !GetApiKeys(c).Arr?
    ensures r.Success? ==> r.value.ollamaUrl == c.ollamaUrl
    ensures r.Success? && GetApiKeys(c).Arr? ==> r.value.apiKeys == Stored(GetApiKeys(c))
  {
    match GetApiKeys(c)
    case Obj(m) => Success(c.(apiKeys := Stored(Obj(m[Key(k) := Str(apiKey)]))))
    case Arr(items) => Success(c.(apiKeys := Stored(Arr(items))))
    case _ => Failure(TypeFault)
  }

  /** `removeApiKey(adapter)`: deletes the property and stores the record again. Deleting a
      property of `null` throws; on any other non-object the deletion changes nothing. */
  function RemoveApiKey(c: Config, k: AdapterKind): (r: Result<Config, Thrown>)
    ensures r.Failure? <==> GetApiKeys(c).Null?
    ensures r.Success? ==> r.value.ollamaUrl == c.ollamaUrl
    ensures r.Success? && !GetApiKeys(c).Obj? ==> r.value.apiKeys == Stored(GetApiKeys(c))
  {
    match GetApiKeys(c)
    case Null => Failure(TypeFault)
    case Obj(m) => Success(c.(apiKeys := Stored(Obj(m - {Key(k)}))))
    case v => Success(c.(apiKeys := Stored(v)))
  }

  /** Saving a key makes it the adapter's key and leaves every other adapter's key as it was;
      removing it afterwards leaves the adapter without a key and the others still untouched. */
  lemma SaveRemoveKey(c: Config, k: AdapterKind, apiKey: string)
    requires GetApiKeys(c).Obj?
    ensures SaveApiKey(c, k, apiKey).Success?
    ensures KeyOf(SaveApiKey(c, k, apiKey).value, k) == Found(Str(apiKey))
    ensures forall j :: j != k ==> KeyOf(SaveApiKey(c, k, apiKey).value, j) == KeyOf(c, j)
    ensures RemoveApiKey(SaveApiKey(c, k, apiKey).value, k).Success?
    ensures KeyOf(RemoveApiKey(SaveApiKey(c, k, apiKey).value, k).value, k) == Undefined
    ensures forall j :: j != k ==> KeyOf(RemoveApiKey(SaveApiKey(c, k, apiKey).value, k).value, j) == KeyOf(c, j)
  {
    forall j | j != k ensures Key(j) != Key(k) {
      KindsAreFive();
      assert KindOfKey(Key(j)) == Some(j);
    }
  }

  /** `getOllamaUrl()`: the stored URL unless it is absent or empty. */
  function GetOllamaUrl(c: Config): (url: string)
    ensures url != ""
    ensures c.ollamaUrl.Some? && c.ollamaUrl.value != "" ==> url == c.ollamaUrl.value
  {
    match c.ollamaUrl
    case Some(u) => if u != "" then u else DefaultOllamaUrl
    case None => DefaultOllamaUrl
  }

  /** `setOllamaUrl(url)` */
  function SetOllamaUrl(c: Config, url: string): (c': Config)
    ensures c'.apiKeys == c.apiKeys
  {
    c.(ollamaUrl := Some(url))
  }

  /** Reading back a set URL gives it, or the default when it was empty. */
  lemma OllamaUrlRoundTrip(c: Config, url: string)
    ensures GetOllamaUrl(SetOllamaUrl(c, url)) == if url == "" then DefaultOllamaUrl else url
  {
  }

  /** One entry of `getAdapterStates()`. */
  datatype Status = Status(configured: bool, apiKey: Lookup)

  /** `getAdapterStates()[k]`: the mock adapter is always configured, Ollama never (until its
      health check), the cloud adapters exactly when their key is truthy. Reading the keys of a
      stored `null` throws. */
  function AdapterStatus(c: Config, k: AdapterKind): (r: Result<Status, Thrown>)
    ensures r.Failure? <==> GetApiKeys(c).Null?
    ensures r.Success? ==> (r.value.configured <==> k == Mock || (k != Ollama && IsTruthy(KeyOf(c, k))))
  {
    if GetApiKeys(c).Null? then Failure(TypeFault)
    else match k
      case Mock => Success(Status(true, Undefined))
      case Ollama => Success(Status(false, Undefined))
      case _ => Success(Status(IsTruthy(KeyOf(c, k)), KeyOf(c, k)))
  }

  /** `isConfigured()` of a cloud adapter: `!!getApiKeys()[k]`. */
  function CloudConfigured(c: Config, k: AdapterKind): (r: Result<bool, Thrown>)
    requires k in {OpenAI, Claude, Google}
    ensures r.Failure? <==> GetApiKeys(c).Null?
  {
    match KeyOf(c, k)
    case TypeError => Failure(TypeFault)
    case l => Success(IsTruthy(l))
  }

  /** A cloud adapter reports itself configured exactly when the adapter list shows it configured. */
  lemma ConfiguredAgrees(c: Config, k: AdapterKind)
    requires k in {OpenAI, Claude, Google}
    ensures CloudConfigured(c, k).Success? <==> AdapterStatus(c, k).Success?
    ensures CloudConfigured(c, k).Success? ==>
      CloudConfigured(c, k).value == AdapterStatus(c, k).value.configured
  {
  }

  /** `checkOllamaHealth()`: the tags endpoint answered with a success status before the
      three-second abort; a rejection (including the abort) reads as unhealthy. */
  function OllamaHealthy(f: Fetch): (healthy: bool)
    ensures healthy <==> f.Responded? && f.ok
  {
    match f
    case Rejected(_) => false
    case Responded(ok, _, _, _, _) => ok
  }

  /** `getAdapterInfo(adapter)` */
  datatype Info = Info(requiresKey: bool, keyName: string, placeholder: string, helpUrl: Option<string>)

  function AdapterInfo(k: AdapterKind): (info: Info)
    ensures info.requiresKey <==> k in {OpenAI, Claude, Google}
    ensures info.keyName == "" <==> k == Mock
    ensures info.helpUrl.None? <==> k == Mock
  {
    match k
    case Mock => Info(false, "", "", None)
    case OpenAI => Info(true, "OPENAI_API_KEY", "sk-...", Some("https://platform.openai.com/api-keys"))
    case Claude => Info(true, "ANTHROPIC_API_KEY", "sk-ant-...", Some("https://console.anthropic.com/settings/keys"))
    case Google => Info(true, "GOOGLE_API_KEY", "AIza...", Some("https://aistudio.google.com/apikey"))
    case Ollama => Info(false, "OLLAMA_URL", DefaultOllamaUrl, Some("https://ollama.ai"))
  }

  /** The adapters that need a key are exactly the ones whose configured flag follows a key. */
  lemma KeyedAdaptersAgree(c: Config, k: AdapterKind)
    requires !GetApiKeys(c).Null?
    ensures AdapterInfo(k).requiresKey ==> (AdapterStatus(c, k).value.configured <==> IsTruthy(KeyOf(c, k)))
    ensures !AdapterInfo(k).requiresKey ==> (AdapterStatus(c, k).value.configured <==> k == Mock)
  {
  }
}

=== FILE: api_key_dialog.dfy ===
/** The dialog that edits an adapter's credential: the API key of a keyed adapter, the server URL
    of Ollama. The dialog may be open with no adapter chosen, in which case it does nothing. */
module ApiKeyDialog {
  import opened Wrappers
  import opened Json
  import opened Text
  import opened AdapterTypes
  import opened AdapterState

  /** `isPaidApi`: the adapter is one of the three cloud services. */
  predicate IsPaidApi(adapter: Option<AdapterKind>) {
    adapter.Some? && adapter.value in {OpenAI, Claude, Google}
  }

  /** The cloud services are exactly the adapters whose information says they need a key. */
  lemma PaidApisNeedKeys(k: AdapterKind)
    ensures IsPaidApi(Some(k)) <==> AdapterInfo(k).requiresKey
  {
  }

  /** The prefill effect on opening: the current URL for Ollama; otherwise the stored key when
      truthy, else the empty text. Reading a key out of a stored `null` throws. */
  function Prefill(c: Config, k: AdapterKind): (r: Result<Value, Thrown>)
    ensures k == Ollama ==> r == Success(Str(GetOllamaUrl(c)))
    ensures k != Ollama ==> (r.Failure? <==> GetApiKeys(c).Null?)
    ensures k != Ollama && r.Success? ==>
      if IsTruthy(KeyOf(c, k)) then r.value == KeyOf(c, k).value else r.value == Str("")
  {
    if k == Ollama then Success(Str(GetOllamaUrl(c)))
    else match KeyOf(c, k)
      case TypeError => Failure(TypeFault)
      case Undefined => Success(Str(""))
      case Found(v) => Success(if Truthy(v) then v else Str(""))
  }

  /** The dialog after a handler: the configuration, the input text, and whether it closed. */
  datatype Dialog = Dialog(config: Config, value: string, closed: bool)

  /** `handleSave()`: for Ollama the input is stored, or the default URL when the input is empty;
      for any other adapter the trimmed input is saved as its key when it is not blank, and a
      blank input leaves the keys alone. A save that throws leaves the dialog open. */
  function HandleSave(c: Config, adapter: Option<AdapterKind>, value: string): (r: Result<Dialog, Thrown>)
    ensures adapter.None? ==> r == Success(Dialog(c, value, false))
    ensures adapter == Some(Ollama) ==>
      r.Success? && r.value.closed && r.value.config.apiKeys == c.apiKeys &&
      GetOllamaUrl(r.value.config) == (if value != "" then value else DefaultOllamaUrl)
    ensures adapter.Some? && adapter.value != Ollama && Trim(value) == "" ==> r == Success(Dialog(c, value, true))
    ensures adapter.Some? && adapter.value != Ollama && Trim(value) != "" ==>
      && (r.Failure? <==> !GetApiKeys(c).Obj? && !GetApiKeys(c).Arr?)
      && (r.Success? ==> r.value.closed && r.value.config == SaveApiKey(c, adapter.value, Trim(value)).value)
  {
    match adapter
    case None => Success(Dialog(c, value, false))
    case Some(k) =>
      if k == Ollama then
        var url := if value != "" then value else DefaultOllamaUrl;
        OllamaUrlRoundTrip(c, url);
        Success(Dialog(SetOllamaUrl(c, url), value, true))
      else if Trim(value) == "" then Success(Dialog(c, value, true))
      else match SaveApiKey(c, k, Trim(value))
        case Success(c') => Success(Dialog(c', value, true))
        case Failure(e) => Failure(e)
  }

  /** `handleRemove()`: Ollama goes back to the default URL, any other adapter loses its key; the
      input is cleared. */
  function HandleRemove(c: Config, adapter: Option<AdapterKind>, value: string): (r: Result<Dialog, Thrown>)
    ensures adapter.None? ==> r == Success(Dialog(c, value, false))
    ensures adapter == Some(Ollama) ==>
      r.Success? && r.value == Dialog(SetOllamaUrl(c, DefaultOllamaUrl), "", true) &&
      GetOllamaUrl(r.value.config) == DefaultOllamaUrl
    ensures adapter.Some? && adapter.value != Ollama ==>
      && (r.Failure? <==> GetApiKeys(c).Null?)
      && (r.Success? ==> r.value.closed && r.value.value == "" && r.value.config == RemoveApiKey(c, adapter.value).value)
  {
    match adapter
    case None => Success(Dialog(c, value, false))
    case Some(k) =>
      if k == Ollama then Success(Dialog(SetOllamaUrl(c, DefaultOllamaUrl), "", true))
      else match RemoveApiKey(c, k)
        case Success(c') => Success(Dialog(c', "", true))
        case Failure(e) => Failure(e)
  }

  /** Reopening the dialog after a save shows what was saved: the trimmed key, or the URL (the
      default for an empty input); every other adapter's key is untouched. */
  lemma SaveThenPrefill(c: Config, k: AdapterKind, value: string)
    requires GetApiKeys(c).Obj?
    ensures HandleSave(c, Some(k), value).Success?
    ensures k == Ollama ==>
      Prefill(HandleSave(c, Some(k), value).value.config, k) == Success(Str(if value != "" then value else DefaultOllamaUrl))
    ensures k != Ollama && Trim(value) != "" ==>
      Prefill(HandleSave(c, Some(k), value).value.config, k) == Success(Str(Trim(value)))
    ensures k != Ollama ==> forall j :: j != k ==> KeyOf(HandleSave(c, Some(k), value).value.config, j) == KeyOf(c, j)
  {
    if k == Ollama {
      OllamaUrlRoundTrip(c, if value != "" then value else DefaultOllamaUrl);
    } else if Trim(value) != "" {
      SaveKeyThenPrefill(c, k, value);
    } else {
      assert HandleSave(c, Some(k), value) == Success(Dialog(c, value, true));
    }
  }

  /** The keyed case of `SaveThenPrefill`: the saved dialog prefills with the trimmed key. */
  lemma SaveKeyThenPrefill(c: Config, k: AdapterKind, value: string)
    requires GetApiKeys(c).Obj? && k != Ollama && Trim(value) != ""
    ensures HandleSave(c, Some(k), value).Success?
    ensures Prefill(HandleSave(c, Some(k), value).value.config, k) == Success(Str(Trim(value)))
    ensures forall j :: j != k ==> KeyOf(HandleSave(c, Some(k), value).value.config, j) == KeyOf(c, j)
  {
    SaveRemoveKey(c, k, Trim(value));
    var saved := SaveApiKey(c, k, Trim(value)).value;
    assert HandleSave(c, Some(k), value) == Success(Dialog(saved, value, true));
    assert KeyOf(saved, k) == Found(Str(Trim(value)));
  }

  /** Reopening the dialog after a remove shows an empty input for a keyed adapter and the
      default URL for Ollama; the other adapters' keys are untouched. */
  lemma RemoveThenPrefill(c: Config, k: AdapterKind)
    requires GetApiKeys(c).Obj?
    ensures HandleRemove(c, Some(k), "").Success?
    ensures k == Ollama ==> Prefill(HandleRemove(c, Some(k), "").value.config, k) == Success(Str(DefaultOllamaUrl))
    ensures k != Ollama ==> Prefill(HandleRemove(c, Some(k), "").value.config, k) == Success(Str(""))
    ensures k != Ollama ==> forall j :: j != k ==> KeyOf(HandleRemove(c, Some(k), "").value.config, j) == KeyOf(c, j)
  {
    if k != Ollama {
      forall j | j != k ensures Key(j) != Key(k) {
        KindsAreFive();
        assert KindOfKey(Key(j)) == Some(j);
      }
    }
  }
}

=== FILE: app.dfy ===
/** The page shell: restoring the chosen adapter and model, choosing the engine, the upload loop
    that stores and analyses new images, and the list handlers. The adapter's analysis is taken to
    depend only on the file it is given; thumbnails, ids and times are parameters. */
module App {
  import opened Wrappers
  import opened Seqs
  import opened AdapterTypes
  import opened Storage
  import Queue
  type Status = Queue.Status
  type Setting = Queue.Setting

  /** The names every plain JavaScript object inherits from `Object.prototype`, each of which
      looks up to a truthy value on an object literal. */
  const InheritedNames: seq<string> := [
    "constructor", "toString", "toLocaleString", "valueOf", "hasOwnProperty", "isPrototypeOf",
    "propertyIsEnumerable", "__proto__", "__defineGetter__", "__defineSetter__",
    "__lookupGetter__", "__lookupSetter__"]

  /** `getStoredAdapter()` as written: the saved text is accepted when it is non-empty and
      `ADAPTER_MODELS[saved]` is truthy, which an inherited name also satisfies. */
  function StoredAdapterAsWritten(read: Setting): (name: string)
    ensures read.Unreadable? || read.value.None? || read.value.value == "" ==> name == Key(Ollama)
    ensures read.Stored? && read.value.Some? && KindOfKey(read.value.value).Some? ==> name == read.value.value
  {
    match read
    case Unreadable => Key(Ollama)
    case Stored(v) =>
      if v.Some? && v.value != "" && (KindOfKey(v.value).Some? || v.value in InheritedNames) then v.value
      else Key(Ollama)
  }

  /** A saved `constructor` is accepted although no adapter has that name. */
  lemma InheritedNameAccepted()
    ensures StoredAdapterAsWritten(Queue.Stored(Some("constructor"))) == "constructor"
    ensures KindOfKey("constructor").None?
  {
    assert "constructor" in InheritedNames;
    KindsAreFive();
  }

  /** `getStoredAdapter()` as intended: the saved adapter when it is one of the five, Ollama
      otherwise. */
  function StoredAdapter(read: Setting): (k: AdapterKind)
    ensures read.Stored? && read.value.Some? && KindOfKey(read.value.value).Some? ==> k == KindOfKey(read.value.value).value
    ensures !(read.Stored? && read.value.Some? && KindOfKey(read.value.value).Some?) ==> k == Ollama
  {
    match read
    case Stored(Some(saved)) => KindOfKey(saved).GetOr(Ollama)
    case _ => Ollama
  }

  /** The corrected reading agrees with the written one on every value the written one turns into
      an adapter, and returns only adapter names. */
  lemma StoredAdapterAgrees(read: Setting)
    ensures KindOfKey(StoredAdapterAsWritten(read)).Some? ==> Key(StoredAdapter(read)) == StoredAdapterAsWritten(read)
  {
    KindsAreFive();
    if read.Stored? && read.value.Some? && read.value.value != "" && KindOfKey(read.value.value).None? && read.value.value in InheritedNames {
      assert StoredAdapterAsWritten(read) == read.value.value;
    }
  }

  /** `getStoredModel(adapter)`: the saved model when the adapter offers it, else the adapter's
      first model; always one of the adapter's models. */
  function StoredModel(read: Setting, k: AdapterKind): (model: string)
    ensures model in ModelsOf(k)
    ensures read.Stored? && read.value.Some? && read.value.value in ModelsOf(k) ==> model == read.value.value
    ensures !(read.Stored? && read.value.Some? && read.value.value in ModelsOf(k)) ==> model == ModelsOf(k)[0]
  {
    ModelListsNonEmpty(k);
    match read
    case Stored(Some(saved)) => if saved != "" && saved in ModelsOf(k) then saved else ModelsOf(k)[0]
    case _ => ModelsOf(k)[0]
  }

  /** The two stored choices: the adapter and model entries. */
  datatype Choice = Choice(adapter: AdapterKind, model: string)

  /** `handleAdapterChange(k)`: the adapter and its first model are chosen and both saved. The
      model chosen is the one a restore with no saved model falls back to. */
  function AdapterChange(k: AdapterKind): (c: Choice)
    ensures c.adapter == k && c.model in ModelsOf(k)
    ensures c.model == ModelsOf(k)[0]
    ensures c.model == StoredModel(Queue.Stored(None), k)
  {
    ModelListsNonEmpty(k);
    Choice(k, ModelsOf(k)[0])
  }

  /** Restoring after a change gives back the same choice: the new adapter and its first model. */
  lemma AdapterChangeRestores(k: AdapterKind)
    ensures var c := AdapterChange(k);
      StoredAdapter(Queue.Stored(Some(Key(c.adapter)))) == k &&
      StoredModel(Queue.Stored(Some(c.model)), StoredAdapter(Queue.Stored(Some(Key(c.adapter))))) == ModelsOf(k)[0]
  {
    KindsAreFive();
    ModelListsNonEmpty(k);
  }

  /** The engine an adapter choice runs on. */
  datatype Engine = MockEngine | OllamaEngine

  /** `getAdapter()`: Ollama runs on the Ollama adapter and every other choice, the three cloud
      services included, on the mock adapter. */
  function GetAdapter(k: AdapterKind): (e: Engine)
    ensures e == OllamaEngine <==> k == Ollama
  {
    if k == Ollama then OllamaEngine else MockEngine
  }

  /** An image created in the first loop of `processImages`, with the index of its file. */
  datatype NewImage = NewImage(origin: nat, image: StoredImage)

  /** The record stored for file `f`: no result, batch or history yet. */
  function FreshImage(files: seq<File>, thumbnails: seq<Option<string>>, ids: seq<string>, addedAt: seq<string>, f: nat): StoredImage
    requires f < |files| == |thumbnails| == |ids| == |addedAt| && thumbnails[f].Some?
  {
    StoredImage(ids[f], files[f].name, thumbnails[f].value, None, None, None, addedAt[f])
  }

  /** The first loop from file `f` on: a record for each file whose thumbnail was made, in file
      order; a file whose thumbnail failed is skipped. */
  function Thumbnailed(files: seq<File>, thumbnails: seq<Option<string>>, ids: seq<string>, addedAt: seq<string>, f: nat): (news: seq<NewImage>)
    requires |files| == |thumbnails| == |ids| == |addedAt| && f <= |files|
    decreases |files| - f
    ensures |news| <= |files| - f
    ensures forall j :: 0 <= j < |news| ==>
      f <= news[j].origin < |files| && thumbnails[news[j].origin].Some? &&
      news[j].image == FreshImage(files, thumbnails, ids, addedAt, news[j].origin)
    ensures forall j, l :: 0 <= j < l < |news| ==> news[j].origin < news[l].origin
  {
    if f == |files| then []
    else if thumbnails[f].Some? then [NewImage(f, FreshImage(files, thumbnails, ids, addedAt, f))] + Thumbnailed(files, thumbnails, ids, addedAt, f + 1)
    else Thumbnailed(files, thumbnails, ids, addedAt, f + 1)
  }

  /** Every file whose thumbnail was made gets a record. */
  lemma {:induction false} ThumbnailedCovers(files: seq<File>, thumbnails: seq<Option<string>>, ids: seq<string>, addedAt: seq<string>, f: nat, g: nat)
    requires |files| == |thumbnails| == |ids| == |addedAt| && f <= g < |files| && thumbnails[g].Some?
    decreases |files| - f
    ensures exists j :: 0 <= j < |Thumbnailed(files, thumbnails, ids, addedAt, f)| && Thumbnailed(files, thumbnails, ids, addedAt, f)[j].origin == g
  {
    var news := Thumbnailed(files, thumbnails, ids, addedAt, f);
    if g == f {
      assert news[0].origin == g;
    } else {
      ThumbnailedCovers(files, thumbnails, ids, addedAt, f + 1, g);
      var rest := Thumbnailed(files, thumbnails, ids, addedAt, f + 1);
      var l :| 0 <= l < |rest| && rest[l].origin == g;
      if thumbnails[f].Some? {
        assert news[l + 1] == rest[l];
      } else {
        assert news[l] == rest[l];
      }
    }
  }

  /** When every thumbnail is made, the `j`-th new record comes from the `j`-th file. */
  lemma {:induction false} ThumbnailedAll(files: seq<File>, thumbnails: seq<Option<string>>, ids: seq<string>, addedAt: seq<string>, f: nat)
    requires |files| == |thumbnails| == |ids| == |addedAt| && f <= |files|
    requires forall g :: 0 <= g < |files| ==> thumbnails[g].Some?
    decreases |files| - f
    ensures |Thumbnailed(files, thumbnails, ids, addedAt, f)| == |files| - f
    ensures forall j :: 0 <= j < |files| - f ==> Thumbnailed(files, thumbnails, ids, addedAt, f)[j].origin == f + j
  {
    if f < |files| {
      var rest := Thumbnailed(files, thumbnails, ids, addedAt, f + 1);
      ThumbnailedAll(files, thumbnails, ids, addedAt, f + 1);
      var news := Thumbnailed(files, thumbnails, ids, addedAt, f);
      assert news == [NewImage(f, FreshImage(files, thumbnails, ids, addedAt, f))] + rest;
      assert forall j :: 1 <= j < |news| ==> news[j] == rest[j - 1];
    }
  }

  /** The images of the new records. */
  function Images(news: seq<NewImage>): (r: seq<StoredImage>)
    ensures |r| == |news| && forall j :: 0 <= j < |news| ==> r[j] == news[j].image
  {
    Map(news, (n: NewImage) => n.image)
  }

  /** Every stored id occurs once. */
  predicate UniqueImageIds(images: seq<StoredImage>) {
    forall k, l :: 0 <= k < l < |images| ==> images[k].id != images[l].id
  }

  /** With unique ids, `updateImage` of a record's id replaces that record alone. */
  lemma UpdateUnique(images: seq<StoredImage>, k: nat, p: ImagePatch)
    requires UniqueImageIds(images) && k < |images|
    ensures UpdateImage(images, images[k].id, p, Written) == images[k := ApplyPatch(images[k], p)]
  {
    var r := UpdateImage(images, images[k].id, p, Written);
    forall m | 0 <= m < |images| ensures r[m] == images[k := ApplyPatch(images[k], p)][m] {
      if m != k && images[m].id == images[k].id {
        assert false;
      }
    }
  }

  /** A record after its analysis: the result stored when the analysis succeeded. */
  function Analysed(img: StoredImage, outcome: Result<AnalysisResult, Thrown>): (r: StoredImage)
    ensures r.id == img.id
  {
    if outcome.Success? then img.(result := Some(outcome.value)) else img
  }

  /** The status an analysis ends in. */
  function Finished(outcome: Result<AnalysisResult, Thrown>): Status {
    if outcome.Success? then Queue.Complete else Queue.Failed
  }

  /** `updateImage(id, { result })` after a successful analysis; nothing is written after a
      failed one. */
  function StoreOutcome(stored: seq<StoredImage>, id: string, outcome: Result<AnalysisResult, Thrown>): seq<StoredImage> {
    if outcome.Success? then UpdateImage(stored, id, ResultPatch(Some(outcome.value)), Written) else stored
  }

  /** The second loop from new image `i` on, over the list `newImages` the first loop built: the
      image is marked `processing`, the file `sent[i]` is analysed, and the image is marked
      `complete` with its result stored, or marked `error` with nothing stored; a failure does
      not stop the loop. */
  function AnalyseFrom(stored: seq<StoredImage>, status: map<string, Status>, newImages: seq<StoredImage>, sent: seq<File>,
                       analyze: File -> Result<AnalysisResult, Thrown>, i: nat)
    : (r: (seq<StoredImage>, map<string, Status>))
    requires i <= |newImages| == |sent|
    decreases |newImages| - i
    ensures |r.0| == |stored|
  {
    if i == |newImages| then (stored, status)
    else
      var id := newImages[i].id;
      var outcome := analyze(sent[i]);
      AnalyseFrom(StoreOutcome(stored, id, outcome), status[id := Queue.Processing][id := Finished(outcome)], newImages, sent, analyze, i + 1)
  }

  /** With unique ids, storing an outcome replaces that record alone. */
  lemma AnalyseStep(stored: seq<StoredImage>, k: nat, outcome: Result<AnalysisResult, Thrown>)
    requires k < |stored| && UniqueImageIds(stored)
    ensures StoreOutcome(stored, stored[k].id, outcome) == stored[k := Analysed(stored[k], outcome)]
  {
    if outcome.Success? {
      UpdateUnique(stored, k, ResultPatch(Some(outcome.value)));
    } else {
      assert stored[k := Analysed(stored[k], outcome)] == stored;
    }
  }

  /** The new images sit at the end of the store from `base` on, in order. */
  predicate Placed(stored: seq<StoredImage>, base: nat, newImages: seq<StoredImage>) {
    base + |newImages| == |stored| && forall k :: base <= k < |stored| ==> stored[k].id == newImages[k - base].id
  }

  /** One turn of the second loop, with unique ids: the `i`-th new record alone takes its
      analysis, and the records stay placed and unique for the turns after it. */
  lemma AnalyseFromUnfold(stored: seq<StoredImage>, status: map<string, Status>, base: nat, newImages: seq<StoredImage>,
                          sent: seq<File>, analyze: File -> Result<AnalysisResult, Thrown>, i: nat)
    requires i < |newImages| == |sent| && Placed(stored, base, newImages) && UniqueImageIds(stored)
    ensures var outcome := analyze(sent[i]);
      var id := newImages[i].id;
      var stored' := stored[base + i := Analysed(stored[base + i], outcome)];
      && Placed(stored', base, newImages) && UniqueImageIds(stored')
      && AnalyseFrom(stored, status, newImages, sent, analyze, i)
         == AnalyseFrom(stored', status[id := Queue.Processing][id := Finished(outcome)], newImages, sent, analyze, i + 1)
  {
    var outcome := analyze(sent[i]);
    AnalyseStep(stored, base + i, outcome);
    var stored' := stored[base + i := Analysed(stored[base + i], outcome)];
    assert forall m :: 0 <= m < |stored| ==> stored'[m].id == stored[m].id;
  }

  /** A record before the images still to analyse is untouched. */
  lemma {:induction false} AnalyseFromKeepsBefore(stored: seq<StoredImage>, status: map<string, Status>, base: nat, newImages: seq<StoredImage>,
                                                  sent: seq<File>, analyze: File -> Result<AnalysisResult, Thrown>, i: nat, k: nat)
    requires i <= |newImages| == |sent| && Placed(stored, base, newImages) && UniqueImageIds(stored) && k < base + i
    decreases |newImages| - i
    ensures AnalyseFrom(stored, status, newImages, sent, analyze, i).0[k] == stored[k]
  {
    if i < |newImages| {
      var id := newImages[i].id;
      var outcome := analyze(sent[i]);
      AnalyseFromUnfold(stored, status, base, newImages, sent, analyze, i);
      var stored' := stored[base + i := Analysed(stored[base + i], outcome)];
      AnalyseFromKeepsBefore(stored', status[id := Queue.Processing][id := Finished(outcome)], base, newImages, sent, analyze, i + 1, k);
    }
  }

  /** The `j`-th new image, from `i` on, ends holding the analysis of `sent[j]`. */
  lemma {:induction false} AnalyseFromAnalyses(stored: seq<StoredImage>, status: map<string, Status>, base: nat, newImages: seq<StoredImage>,
                                               sent: seq<File>, analyze: File -> Result<AnalysisResult, Thrown>, i: nat, j: nat)
    requires i <= j < |newImages| == |sent| && Placed(stored, base, newImages) && UniqueImageIds(stored)
    decreases |newImages| - i
    ensures AnalyseFrom(stored, status, newImages, sent, analyze, i).0[base + j] == Analysed(stored[base + j], analyze(sent[j]))
  {
    var id := newImages[i].id;
    var outcome := analyze(sent[i]);
    AnalyseFromUnfold(stored, status, base, newImages, sent, analyze, i);
    var stored' := stored[base + i := Analysed(stored[base + i], outcome)];
    var status' := status[id := Queue.Processing][id := Finished(outcome)];
    if j == i {
      AnalyseFromKeepsBefore(stored', status', base, newImages, sent, analyze, i + 1, base + j);
      assert stored'[base + j] == Analysed(stored[base + j], outcome);
    } else {
      AnalyseFromAnalyses(stored', status', base, newImages, sent, analyze, i + 1, j);
      assert stored'[base + j] == stored[base + j];
    }
  }

  /** A status whose image is not among the images still to analyse is untouched. */
  lemma {:induction false} AnalyseFromKeeps(stored: seq<StoredImage>, status: map<string, Status>, newImages: seq<StoredImage>, sent: seq<File>,
                                            analyze: File -> Result<AnalysisResult, Thrown>, i: nat, id: string)
    requires i <= |newImages| == |sent| && id in status
    requires forall j :: i <= j < |newImages| ==> newImages[j].id != id
    decreases |newImages| - i
    ensures var r := AnalyseFrom(stored, status, newImages, sent, analyze, i).1;
      id in r && r[id] == status[id]
  {
    if i < |newImages| {
      var fid := newImages[i].id;
      var outcome := analyze(sent[i]);
      AnalyseFromKeeps(StoreOutcome(stored, fid, outcome), status[fid := Queue.Processing][fid := Finished(outcome)], newImages, sent, analyze, i + 1, id);
    }
  }

  /** Each image from `i` on ends `complete` or `error` by its own analysis. */
  lemma {:induction false} AnalyseFromFinishes(stored: seq<StoredImage>, status: map<string, Status>, newImages: seq<StoredImage>, sent: seq<File>,
                                               analyze: File -> Result<AnalysisResult, Thrown>, i: nat, j: nat)
    requires i <= j < |newImages| == |sent| && UniqueImageIds(newImages)
    decreases |newImages| - i
    ensures var r := AnalyseFrom(stored, status, newImages, sent, analyze, i).1;
      newImages[j].id in r && r[newImages[j].id] == Finished(analyze(sent[j]))
  {
    var fid := newImages[i].id;
    var outcome := analyze(sent[i]);
    var stored' := StoreOutcome(stored, fid, outcome);
    var status' := status[fid := Queue.Processing][fid := Finished(outcome)];
    if j == i {
      AnalyseFromKeeps(stored', status', newImages, sent, analyze, i + 1, fid);
    } else {
      AnalyseFromFinishes(stored', status', newImages, sent, analyze, i + 1, j);
    }
  }

  /** `setProcessingStatus(prev => ({ ...prev, [id]: 'pending' }))` for each id in turn. */
  function MarkPending(status: map<string, Status>, ids: seq<string>): (r: map<string, Status>)
    decreases |ids|
    ensures forall j :: 0 <= j < |ids| ==> ids[j] in r && r[ids[j]] == Queue.Pending
    ensures forall id :: id in status && id !in ids ==> id in r && r[id] == status[id]
  {
    if |ids| == 0 then status
    else MarkPending(status[ids[0] := Queue.Pending], ids[1..])
  }

  /** What `processImages` leaves: the stored images, the status map, and the new records. */
  datatype Run = Run(images: seq<StoredImage>, status: map<string, Status>, added: seq<NewImage>)

  /** The ids handed out are fresh: distinct, and unused by the stored images. */
  predicate FreshIds(images: seq<StoredImage>, ids: seq<string>) {
    NoDuplicates(ids) && forall k, g :: 0 <= k < |images| && 0 <= g < |ids| ==> images[k].id != ids[g]
  }

  /** The new records have distinct ids unused by the stored images. */
  lemma FreshIdsUnique(images: seq<StoredImage>, files: seq<File>, thumbnails: seq<Option<string>>, ids: seq<string>, addedAt: seq<string>)
    requires |files| == |thumbnails| == |ids| == |addedAt| && UniqueImageIds(images) && FreshIds(images, ids)
    ensures UniqueImageIds(images + Images(Thumbnailed(files, thumbnails, ids, addedAt, 0)))
  {
    var news := Thumbnailed(files, thumbnails, ids, addedAt, 0);
    var all := images + Images(news);
    forall k, l | 0 <= k < l < |all| ensures all[k].id != all[l].id {
      if l >= |images| {
        var nl := news[l - |images|];
        if k >= |images| {
          var nk := news[k - |images|];
          assert nk.origin < nl.origin;
          assert ids[nk.origin] != ids[nl.origin];
        }
      }
    }
  }

  /** A record's id. */
  function ImageId(img: StoredImage): string {
    img.id
  }

  /** Both loops, given the file sent for each new record: the records are appended and marked
      `pending`, then analysed in order. */
  function RunLoops(images: seq<StoredImage>, status: map<string, Status>, news: seq<NewImage>, sent: seq<File>,
                    analyze: File -> Result<AnalysisResult, Thrown>): (r: Run)
    requires |sent| == |news|
    ensures r.added == news
  {
    var newImages := Images(news);
    var pending := MarkPending(status, Map(newImages, ImageId));
    var loop := AnalyseFrom(images + newImages, pending, newImages, sent, analyze, 0);
    Run(loop.0, loop.1, news)
  }

  /** An old record is untouched by both loops. */
  lemma RunLoopsKeepsOld(images: seq<StoredImage>, status: map<string, Status>, news: seq<NewImage>, sent: seq<File>,
                         analyze: File -> Result<AnalysisResult, Thrown>, k: nat)
    requires |sent| == |news| && UniqueImageIds(images + Images(news)) && k < |images|
    ensures var r := RunLoops(images, status, news, sent, analyze).images;
      |r| == |images| + |news| && r[k] == images[k]
  {
    var newImages := Images(news);
    var stored := images + newImages;
    var pending := MarkPending(status, Map(newImages, ImageId));
    assert RunLoops(images, status, news, sent, analyze).images == AnalyseFrom(stored, pending, newImages, sent, analyze, 0).0;
    AppendPlaced(images, news);
    AnalyseFromKeepsBefore(stored, pending, |images|, newImages, sent, analyze, 0, k);
  }

  /** The `j`-th new record ends holding the analysis of `sent[j]`. */
  lemma RunLoopsAnalysesNew(images: seq<StoredImage>, status: map<string, Status>, news: seq<NewImage>, sent: seq<File>,
                            analyze: File -> Result<AnalysisResult, Thrown>, j: nat)
    requires |sent| == |news| && UniqueImageIds(images + Images(news)) && j < |news|
    ensures |RunLoops(images, status, news, sent, analyze).images| == |images| + |news|
    ensures RunLoops(images, status, news, sent, analyze).images[|images| + j] == Analysed(news[j].image, analyze(sent[j]))
  {
    RunLoopsUnfold(images, status, news, sent, analyze);
    AppendedAnalysed(images, MarkPending(status, Map(Images(news), ImageId)), news, sent, analyze, j);
  }

  /** On the appended store, the `j`-th new record ends holding the analysis of `sent[j]`. */
  lemma AppendedAnalysed(images: seq<StoredImage>, status: map<string, Status>, news: seq<NewImage>, sent: seq<File>,
                         analyze: File -> Result<AnalysisResult, Thrown>, j: nat)
    requires |sent| == |news| && UniqueImageIds(images + Images(news)) && j < |news|
    ensures AnalyseFrom(images + Images(news), status, Images(news), sent, analyze, 0).0[|images| + j] == Analysed(news[j].image, analyze(sent[j]))
  {
    AppendPlaced(images, news);
    AppendedAt(images, news, j);
    AnalysedAt(images + Images(news), status, |images|, Images(news), sent, analyze, j, news[j].image);
  }

  /** The new image at `base + j`, holding `img` before the loop, holds its analysis after. */
  lemma AnalysedAt(stored: seq<StoredImage>, status: map<string, Status>, base: nat, newImages: seq<StoredImage>,
                   sent: seq<File>, analyze: File -> Result<AnalysisResult, Thrown>, j: nat, img: StoredImage)
    requires j < |newImages| == |sent| && Placed(stored, base, newImages) && UniqueImageIds(stored) && stored[base + j] == img
    ensures AnalyseFrom(stored, status, newImages, sent, analyze, 0).0[base + j] == Analysed(img, analyze(sent[j]))
  {
    AnalyseFromAnalyses(stored, status, base, newImages, sent, analyze, 0, j);
  }

  /** The new records follow the old ones in the store. */
  lemma AppendPlaced(images: seq<StoredImage>, news: seq<NewImage>)
    ensures Placed(images + Images(news), |images|, Images(news))
  {
  }

  /** The `j`-th appended record is the `j`-th new image. */
  lemma AppendedAt(images: seq<StoredImage>, news: seq<NewImage>, j: nat)
    requires j < |news|
    ensures |images + Images(news)| == |images| + |news| && (images + Images(news))[|images| + j] == news[j].image
  {
  }

  /** Both loops' records are the second loop's result on the appended store. */
  lemma RunLoopsUnfold(images: seq<StoredImage>, status: map<string, Status>, news: seq<NewImage>, sent: seq<File>,
                       analyze: File -> Result<AnalysisResult, Thrown>)
    requires |sent| == |news|
    ensures |RunLoops(images, status, news, sent, analyze).images| == |images| + |news|
    ensures RunLoops(images, status, news, sent, analyze).images
            == AnalyseFrom(images + Images(news), MarkPending(status, Map(Images(news), ImageId)), Images(news), sent, analyze, 0).0
  {
  }

  /** With fresh ids, the old records are untouched and the `j`-th new record holds the analysis
      of `sent[j]`. */
  lemma RunLoopsImages(images: seq<StoredImage>, status: map<string, Status>, news: seq<NewImage>, sent: seq<File>,
                       analyze: File -> Result<AnalysisResult, Thrown>)
    requires |sent| == |news| && UniqueImageIds(images + Images(news))
    ensures var r := RunLoops(images, status, news, sent, analyze);
      && |r.images| == |images| + |news|
      && r.images[..|images|] == images
      && forall j :: 0 <= j < |news| ==> r.images[|images| + j] == Analysed(news[j].image, analyze(sent[j]))
  {
    var r := RunLoops(images, status, news, sent, analyze).images;
    assert |r| == |images| + |news| by {
      assert |r| == |images + Images(news)|;
    }
    forall k | 0 <= k < |images| ensures r[k] == images[k] {
      RunLoopsKeepsOld(images, status, news, sent, analyze, k);
    }
    assert r[..|images|] == images;
    forall j | 0 <= j < |news| ensures r[|images| + j] == Analysed(news[j].image, analyze(sent[j])) {
      RunLoopsAnalysesNew(images, status, news, sent, analyze, j);
    }
  }

  /** With fresh ids, the `j`-th new record's status says how the analysis of `sent[j]` ended,
      and no other status changes. */
  lemma RunLoopsStatus(images: seq<StoredImage>, status: map<string, Status>, news: seq<NewImage>, sent: seq<File>,
                       analyze: File -> Result<AnalysisResult, Thrown>)
    requires |sent| == |news| && UniqueImageIds(images + Images(news))
    ensures var r := RunLoops(images, status, news, sent, analyze);
      && (forall j :: 0 <= j < |news| ==> news[j].image.id in r.status && r.status[news[j].image.id] == Finished(analyze(sent[j])))
      && (forall id :: id in status && (forall j :: 0 <= j < |news| ==> news[j].image.id != id) ==> id in r.status && r.status[id] == status[id])
  {
    var newImages := Images(news);
    var stored := images + newImages;
    var newIds := Map(newImages, ImageId);
    var pending := MarkPending(status, newIds);
    assert UniqueImageIds(newImages) by {
      assert forall j :: 0 <= j < |newImages| ==> newImages[j] == stored[|images| + j];
    }
    forall j | 0 <= j < |news|
      ensures news[j].image.id in RunLoops(images, status, news, sent, analyze).status
      ensures RunLoops(images, status, news, sent, analyze).status[news[j].image.id] == Finished(analyze(sent[j]))
    {
      AnalyseFromFinishes(stored, pending, newImages, sent, analyze, 0, j);
    }
    forall id | id in status && (forall j :: 0 <= j < |news| ==> news[j].image.id != id)
      ensures id in RunLoops(images, status, news, sent, analyze).status
      ensures RunLoops(images, status, news, sent, analyze).status[id] == status[id]
    {
      AnalyseFromKeeps(stored, pending, newImages, sent, analyze, 0, id);
    }
  }

  /** `processImages(files)` as written: the `j`-th new record is analysed with `files[j]`,
      whatever file it was made from. */
  function ProcessImages(images: seq<StoredImage>, status: map<string, Status>, files: seq<File>, thumbnails: seq<Option<string>>,
                         ids: seq<string>, addedAt: seq<string>, analyze: File -> Result<AnalysisResult, Thrown>): (r: Run)
    requires |files| == |thumbnails| == |ids| == |addedAt| && UniqueImageIds(images) && FreshIds(images, ids)
    ensures r.added == Thumbnailed(files, thumbnails, ids, addedAt, 0)
    ensures |r.images| == |images| + |r.added| && r.images[..|images|] == images
    ensures forall j :: 0 <= j < |r.added| ==> r.images[|images| + j] == Analysed(r.added[j].image, analyze(files[j]))
    ensures forall j :: 0 <= j < |r.added| ==>
      r.added[j].image.id in r.status && r.status[r.added[j].image.id] == Finished(analyze(files[j]))
  {
    var news := Thumbnailed(files, thumbnails, ids, addedAt, 0);
    FreshIdsUnique(images, files, thumbnails, ids, addedAt);
    RunLoopsImages(images, status, news, files[..|news|], analyze);
    RunLoopsStatus(images, status, news, files[..|news|], analyze);
    RunLoops(images, status, news, files[..|news|], analyze)
  }

  /** The file each new record was made from. */
  function Origins(files: seq<File>, news: seq<NewImage>): (sent: seq<File>)
    requires forall j :: 0 <= j < |news| ==> news[j].origin < |files|
    ensures |sent| == |news| && forall j :: 0 <= j < |news| ==> sent[j] == files[news[j].origin]
  {
    if |news| == 0 then [] else [files[news[0].origin]] + Origins(files, news[1..])
  }

  /** `processImages(files)` as intended: each new record is analysed with the file it was made
      from, so its file name, its stored result and its status all describe the same file; the
      statuses of other images are untouched. */
  function ProcessImagesPaired(images: seq<StoredImage>, status: map<string, Status>, files: seq<File>, thumbnails: seq<Option<string>>,
                               ids: seq<string>, addedAt: seq<string>, analyze: File -> Result<AnalysisResult, Thrown>): (r: Run)
    requires |files| == |thumbnails| == |ids| == |addedAt| && UniqueImageIds(images) && FreshIds(images, ids)
    ensures r.added == Thumbnailed(files, thumbnails, ids, addedAt, 0)
    ensures |r.images| == |images| + |r.added| && r.images[..|images|] == images
    ensures forall j :: 0 <= j < |r.added| ==>
      && r.images[|images| + j].filename == files[r.added[j].origin].name
      && r.images[|images| + j] == Analysed(r.added[j].image, analyze(files[r.added[j].origin]))
      && r.added[j].image.id in r.status
      && r.status[r.added[j].image.id] == Finished(analyze(files[r.added[j].origin]))
    ensures forall id :: id in status && id !in ids ==> id in r.status && r.status[id] == status[id]
  {
    var news := Thumbnailed(files, thumbnails, ids, addedAt, 0);
    FreshIdsUnique(images, files, thumbnails, ids, addedAt);
    RunLoopsImages(images, status, news, Origins(files, news), analyze);
    RunLoopsStatus(images, status, news, Origins(files, news), analyze);
    RunLoops(images, status, news, Origins(files, news), analyze)
  }

  /** When every thumbnail is made, the written loop pairs each record with its own file and the
      two definitions agree. */
  lemma PairedWhenNoThumbnailFails(images: seq<StoredImage>, status: map<string, Status>, files: seq<File>, thumbnails: seq<Option<string>>,
                                   ids: seq<string>, addedAt: seq<string>, analyze: File -> Result<AnalysisResult, Thrown>)
    requires |files| == |thumbnails| == |ids| == |addedAt| && UniqueImageIds(images) && FreshIds(images, ids)
    requires forall g :: 0 <= g < |files| ==> thumbnails[g].Some?
    ensures ProcessImages(images, status, files, thumbnails, ids, addedAt, analyze) ==
            ProcessImagesPaired(images, status, files, thumbnails, ids, addedAt, analyze)
  {
    var news := Thumbnailed(files, thumbnails, ids, addedAt, 0);
    ThumbnailedAll(files, thumbnails, ids, addedAt, 0);
    assert Origins(files, news) == files[..|news|];
  }

  /** With two files of which only the second gets a thumbnail, the written loop stores the
      analysis of the first file on the record made from the second. */
  lemma PairingSkewsAfterFailedThumbnail(analyze: File -> Result<AnalysisResult, Thrown>)
    requires analyze(File("a.png", None)).Success?
    ensures var r := ProcessImages([], map[], [File("a.png", None), File("b.png", None)], [None, Some("thumb")],
                                   ["id-a", "id-b"], ["t0", "t1"], analyze);
      |r.images| == 1 && r.images[0].filename == "b.png" && r.images[0].result == Some(analyze(File("a.png", None)).value)
  {
    var files := [File("a.png", None), File("b.png", None)];
    var news := Thumbnailed(files, [None, Some("thumb")], ["id-a", "id-b"], ["t0", "t1"], 0);
    assert news == [NewImage(1, StoredImage("id-b", "b.png", "thumb", None, None, None, "t1"))];
  }

  /** `getImageStatus(id)`: the recorded status, `complete` when none is recorded. */
  function ImageStatus(status: map<string, Status>, id: string): (s: Status)
    ensures id in status ==> s == status[id]
    ensures id !in status ==> s == Queue.Complete
  {
    if id in status then status[id] else Queue.Complete
  }

  /** What the page shows besides the store: the image list, the selection and the open image. */
  datatype View = View(images: seq<StoredImage>, selected: seq<string>, detail: Option<StoredImage>)

  /** `handleRemoveImage(id)`: the image leaves the store, the list and the selection, and the
      detail view closes when it showed that image. */
  function HandleRemoveImage(stored: seq<StoredImage>, v: View, id: string, w: Write): (r: (seq<StoredImage>, View))
    ensures r.0 == RemoveImage(stored, id, w)
    ensures forall k :: 0 <= k < |r.1.images| ==> r.1.images[k].id != id && r.1.images[k] in v.images
    ensures forall k :: 0 <= k < |v.images| && v.images[k].id != id ==> v.images[k] in r.1.images
    ensures id !in r.1.selected
    ensures forall k :: 0 <= k < |v.selected| && v.selected[k] != id ==> v.selected[k] in r.1.selected
    ensures forall k :: 0 <= k < |r.1.selected| ==> r.1.selected[k] in v.selected
    ensures v.detail.Some? && v.detail.value.id == id ==> r.1.detail.None?
    ensures !(v.detail.Some? && v.detail.value.id == id) ==> r.1.detail == v.detail
  {
    var detail := if v.detail.Some? && v.detail.value.id == id then None else v.detail;
    (RemoveImage(stored, id, w), View(Filter(v.images, (img: StoredImage) => img.id != id), Filter(v.selected, IsNot(id)), detail))
  }

  /** The list and the selection keep their order: removing from a concatenation removes from
      each part. */
  lemma HandleRemoveImageKeepsOrder(stored: seq<StoredImage>, xs: seq<StoredImage>, ys: seq<StoredImage>,
                                    sx: seq<string>, sy: seq<string>, detail: Option<StoredImage>, id: string, w: Write)
    ensures var whole := HandleRemoveImage(stored, View(xs + ys, sx + sy, detail), id, w).1;
      && whole.images == HandleRemoveImage(stored, View(xs, sx, detail), id, w).1.images
                         + HandleRemoveImage(stored, View(ys, sy, detail), id, w).1.images
      && whole.selected == HandleRemoveImage(stored, View(xs, sx, detail), id, w).1.selected
                           + HandleRemoveImage(stored, View(ys, sy, detail), id, w).1.selected
  {
    FilterAppend(xs, ys, (img: StoredImage) => img.id != id);
    FilterAppend(sx, sy, IsNot(id));
  }

  /** Removing an image the page does not show leaves the list and the selection as they were. */
  lemma HandleRemoveImageAbsent(stored: seq<StoredImage>, v: View, id: string, w: Write)
    requires forall k :: 0 <= k < |v.images| ==> v.images[k].id != id
    requires id !in v.selected
    ensures HandleRemoveImage(stored, v, id, w).1.images == v.images
    ensures HandleRemoveImage(stored, v, id, w).1.selected == v.selected
  {
    FilterKeepsAll(v.images, (img: StoredImage) => img.id != id);
    FilterKeepsAll(v.selected, IsNot(id));
  }

  /** `handleClearAll()`: the store, the statuses, the list, the selection and the detail view are
      all emptied. */
  function HandleClearAll(s: Store): (r: (Store, map<string, Status>, View))
    ensures r.0.images == [] && r.0.batches == [] && r.1 == map[]
    ensures r.2 == View([], [], None)
    ensures forall id :: ImageStatus(r.1, id) == Queue.Complete
  {
    (ClearAllImages(s), map[], View([], [], None))
  }
}

=== FILE: chat_reply.dfy ===
/** The parts of `chat` the cloud adapters share: the conversation turns sent with a question, and
    how a reply text becomes a message plus an optional metadata update. */
module ChatReply {
  import opened Wrappers
  import opened Json
  import opened Text
  import opened AdapterTypes
  import Extract

  /** A conversation turn as sent to a backend: the backend's role name and the turn's content. */
  datatype Turn = Turn(role: string, content: Value)

  /** The history as backend turns, in order: user turns keep the role `user`, every other turn
      takes the backend's name for the assistant (`assistant`, or `model` for Gemini). */
  function HistoryTurns(history: seq<ChatMessage>, assistantRole: string): (turns: seq<Turn>)
    ensures |turns| == |history|
    ensures forall i :: 0 <= i < |history| ==>
      turns[i] == Turn(if history[i].role == User then "user" else assistantRole, history[i].content)
  {
    if |history| == 0 then []
    else
      var h := history[0];
      [Turn(if h.role == User then "user" else assistantRole, h.content)]
        + HistoryTurns(history[1..], assistantRole)
  }

  /** Turns sent for earlier histories are a prefix of those sent for a longer one. */
  lemma {:induction false} HistoryTurnsAppend(history: seq<ChatMessage>, more: seq<ChatMessage>, assistantRole: string)
    ensures HistoryTurns(history + more, assistantRole) ==
      HistoryTurns(history, assistantRole) + HistoryTurns(more, assistantRole)
  {
    if |history| == 0 {
      assert history + more == more;
    } else {
      assert (history + more)[1..] == history[1..] + more;
      HistoryTurnsAppend(history[1..], more, assistantRole);
    }
  }

  /** `{ message: content || 'No response' }` */
  function PlainReply(content: string): (r: ChatResponse)
    ensures Truthy(r.message) && r.updatedMetadata.None?
    ensures content != "" ==> r.message == Str(content)
  {
    ChatResponse(Str(if content != "" then content else "No response"), None)
  }

  /** `r` is what a parsed reply `v` gives: its `message` field when that is truthy, `otherwise`
      when it is not, and its `updatedMetadata` field as the update exactly when `v` has one. */
  predicate ReadsReply(r: ChatResponse, v: Value, otherwise: Value) {
    && (IsTruthy(Get(v, "message")) ==> r.message == Get(v, "message").value)
    && (!IsTruthy(Get(v, "message")) ==> r.message == otherwise)
    && (r.updatedMetadata.Some? <==> Get(v, "updatedMetadata").Found?)
    && (r.updatedMetadata.Some? ==> r.updatedMetadata.value == Get(v, "updatedMetadata").value)
  }

  /** `parsed.updatedMetadata`, where `undefined` is no update. */
  function UpdateOf(l: Lookup): (u: Option<Value>)
    ensures u.Some? <==> l.Found?
  {
    match l
    case Found(v) => Some(v)
    case _ => None
  }

  /** The Claude and Gemini reply: when the reply holds a brace span mentioning `"updatedMetadata"`
      that parses to something other than `null`, the message is its truthy `message` field or
      else the reply with that span cut out and trimmed, and the update is its `updatedMetadata`
      field; in every other case the reply is plain text. */
  function MetadataReply(content: string, parse: string -> Option<Value>): (r: ChatResponse)
    ensures Extract.UpdatedMetadataSpan(content).None? ==> r == PlainReply(content)
    ensures r.updatedMetadata.Some? ==> Extract.UpdatedMetadataSpan(content).Some?
    ensures Extract.UpdatedMetadataSpan(content).Some? ==>
      var span := Extract.UpdatedMetadataSpan(content).value;
      (parse(span).None? || parse(span) == Some(Null) ==> r == PlainReply(content))
    ensures Extract.UpdatedMetadataSpan(content).Some? ==>
      var span := Extract.UpdatedMetadataSpan(content).value;
      parse(span).Some? && !parse(span).value.Null? ==>
        ReadsReply(r, parse(span).value, Str(Trim(Extract.RemoveFirst(content, span))))
  {
    match Extract.UpdatedMetadataSpan(content)
    case None => PlainReply(content)
    case Some(span) =>
      match parse(span)
      case None => PlainReply(content)
      case Some(Null) => PlainReply(content)
      case Some(v) =>
        ChatResponse(
          OrElse(Get(v, "message"), Str(Trim(Extract.RemoveFirst(content, span)))),
          UpdateOf(Get(v, "updatedMetadata")))
  }

  /** A reply that embeds `{"message": m, "updatedMetadata": u}` with a truthy `m` yields `m` and `u`. */
  lemma MetadataReplyOfObject(content: string, parse: string -> Option<Value>, m: Value, u: Value)
    requires Extract.UpdatedMetadataSpan(content).Some?
    requires parse(Extract.UpdatedMetadataSpan(content).value) ==
      Some(Obj(map["message" := m, "updatedMetadata" := u]))
    requires Truthy(m)
    ensures MetadataReply(content, parse) == ChatResponse(m, Some(u))
  {
    var v := Obj(map["message" := m, "updatedMetadata" := u]);
    assert Get(v, "message") == Found(m);
    assert Get(v, "updatedMetadata") == Found(u);
  }

  /** The update-only reply `{"updatedMetadata":{}}`. */
  const UpdateOnly := "{" + Extract.UpdatedMetadataKey + ":{}}"

  /** The update-only reply is its own metadata span. */
  lemma UpdateOnlySpan()
    ensures Extract.UpdatedMetadataSpan(UpdateOnly) == Some(UpdateOnly)
    ensures Extract.RemoveFirst(UpdateOnly, UpdateOnly) == ""
  {
    var head := "{" + Extract.UpdatedMetadataKey;
    assert UpdateOnly == head + ":{}}";
    assert UpdateOnly[0] == '{' && UpdateOnly[|UpdateOnly| - 1] == '}';
    Extract.WholeBraceSpan(UpdateOnly);
    assert UpdateOnly[..|head|] == head;
    assert head[1..] == Extract.UpdatedMetadataKey;
    assert OccursAt(UpdateOnly, Extract.UpdatedMetadataKey, 1);
  }

  /** Unlike a plain reply, a metadata reply can carry an empty message: a reply that is nothing
      but the update object, with no `message` field, leaves nothing once the object is cut out. */
  lemma MetadataReplyMayBeEmpty()
    ensures MetadataReply(UpdateOnly, (s: string) => Some(Obj(map["updatedMetadata" := Obj(map[])]))).message == Str("")
  {
    UpdateOnlySpan();
    assert Trim("") == "";
  }

  /** The OpenAI reply: any brace span that parses to something other than `null` supplies the
      message (its truthy `message` field, else the whole reply) and the update. */
  function AnySpanReply(content: string, parse: string -> Option<Value>): (r: ChatResponse)
    ensures Truthy(r.message)
    ensures Extract.BraceSpan(content).None? ==> r == PlainReply(content)
    ensures Extract.BraceSpan(content).Some? ==>
      var span := Extract.BraceSpan(content).value;
      (parse(span).None? || parse(span) == Some(Null) ==> r == PlainReply(content))
    ensures Extract.BraceSpan(content).Some? ==>
      var span := Extract.BraceSpan(content).value;
      parse(span).Some? && !parse(span).value.Null? ==> ReadsReply(r, parse(span).value, Str(content))
  {
    match Extract.BraceSpan(content)
    case None => PlainReply(content)
    case Some(span) =>
      match parse(span)
      case None => PlainReply(content)
      case Some(Null) => PlainReply(content)
      case Some(v) => ChatResponse(OrElse(Get(v, "message"), Str(content)), UpdateOf(Get(v, "updatedMetadata")))
  }

  /** A reply whose brace span is `{"message": m, "updatedMetadata": u}` with a truthy `m` yields
      `m` and `u`. */
  lemma AnySpanReplyOfObject(content: string, parse: string -> Option<Value>, m: Value, u: Value)
    requires Extract.BraceSpan(content).Some?
    requires parse(Extract.BraceSpan(content).value) ==
      Some(Obj(map["message" := m, "updatedMetadata" := u]))
    requires Truthy(m)
    ensures AnySpanReply(content, parse) == ChatResponse(m, Some(u))
  {
    var v := Obj(map["message" := m, "updatedMetadata" := u]);
    assert Get(v, "message") == Found(m);
    assert Get(v, "updatedMetadata") == Found(u);
  }

  /** Without a truthy `message` field the whole reply is the message, braces included. */
  lemma AnySpanReplyWithoutMessage(content: string, parse: string -> Option<Value>, u: Value)
    requires Extract.BraceSpan(content).Some?
    requires parse(Extract.BraceSpan(content).value) == Some(Obj(map["updatedMetadata" := u]))
    ensures AnySpanReply(content, parse) == ChatResponse(Str(content), Some(u))
  {
    var v := Obj(map["updatedMetadata" := u]);
    assert Get(v, "message") == Undefined;
    assert Get(v, "updatedMetadata") == Found(u);
  }
}

=== FILE: claude.dfy ===
/** The Claude vision adapter: `analyze` and `chat` against the Anthropic Messages API, with the
    HTTP exchange given as its outcome. */
module ClaudeAdapter {
  import opened Wrappers
  import opened Json
  import opened Text
  import opened AdapterTypes
  import opened Extract
  import opened Normalize
  import AdapterState
  import ImagePayload
  import ChatReply

  /** The result drawn from a successful reply's text. */
  function Interpret(content: string, parse: string -> Option<Value>): (r: AnalysisResult)
    ensures WellShaped(r)
  {
    match TryNormalize(content, parse, CloudDefaults)
    case Some(r) => r
    case None => ReplyFallback(content)
  }

  const NetworkErrorPrefix := "Network error - check your API key and internet connection: "

  /** `analyze(image, model)`. Without a key it throws before anything else; then the image is
      prepared; a rejected request is rethrown as a network error; a failed status throws a
      TypeError on a `null` error body, otherwise the backend's message or
      `Claude API error: <status>`; any reply text then yields a result. */
  function Analyze(c: AdapterState.Config, image: ImageInput, fetch: Fetch, parse: string -> Option<Value>, engineText: string)
    : (r: Result<AnalysisResult, Thrown>)
    ensures r.Success? <==>
      IsTruthy(AdapterState.KeyOf(c, Claude)) && ImagePayload.Base64Image(image).Success? && Answered(fetch)
    ensures r.Success? ==> WellShaped(r.value)
    ensures AdapterState.KeyOf(c, Claude).Undefined? ==> r == Failure(Error("Claude API key not configured"))
    ensures IsTruthy(AdapterState.KeyOf(c, Claude)) && ImagePayload.Base64Image(image).Success? && fetch.Rejected? ==>
      r.Failure? && r.error.Error? && StartsWith(r.error.message, NetworkErrorPrefix)
    ensures IsTruthy(AdapterState.KeyOf(c, Claude)) && ImagePayload.Base64Image(image).Success? && fetch.Responded? ==>
      (!fetch.ok && fetch.errorBody.ErrorField? ==>
        r == Failure(ApiError(fetch.errorBody.message, "Claude API error: ", fetch.status))) &&
      (!fetch.ok && fetch.errorBody.NullError? ==> r == Failure(TypeFault)) &&
      (fetch.ok && fetch.body.Unreadable? ==> r == Failure(fetch.body.error)) &&
      (fetch.ok && fetch.body.NullBody? ==> r == Failure(TypeFault))
  {
    match AdapterState.KeyOf(c, Claude)
    case TypeError => Failure(TypeFault)
    case key =>
      if !IsTruthy(key) then Failure(Error("Claude API key not configured"))
      else match ImagePayload.Base64Image(image)
        case Failure(e) => Failure(e)
        case Success(_) =>
          match fetch
          case Rejected(e) =>
            Failure(Error(NetworkErrorPrefix + ErrorText(e, engineText, "Unknown error")))
          case Responded(ok, status, _, errorBody, body) =>
            if !ok then Failure(StatusError(errorBody, "Claude API error: ", status))
            else match body
              case Unreadable(e) => Failure(e)
              case NullBody => Failure(TypeFault)
              case Reply(text) => Success(Interpret(text.GetOr(""), parse))
  }

  /** A reply whose JSON is a well-shaped result is returned as that result. */
  lemma AnalyzeKeepsWellShapedReply(c: AdapterState.Config, image: ImageInput, content: string,
                                    parse: string -> Option<Value>, engineText: string, r: AnalysisResult)
    requires IsTruthy(AdapterState.KeyOf(c, Claude)) && ImagePayload.Base64Image(image).Success?
    requires BraceSpan(content).Some? && parse(BraceSpan(content).value) == Some(ToJson(r))
    requires WellShaped(r)
    ensures Analyze(c, image, Responded(true, 200, "OK", ErrorField(""), Reply(Some(content))), parse, engineText) == Success(r)
  {
    TryNormalizeKeepsWellShaped(content, parse, CloudDefaults, r);
  }

  /** A reply with no JSON at all falls back, keeping the reply's opening as description. */
  lemma AnalyzeFallsBack(content: string, parse: string -> Option<Value>)
    requires forall i :: 0 <= i < |content| ==> content[i] != '{'
    ensures Interpret(content, parse) == ReplyFallback(content)
  {
  }

  /** The conversation turns of `chat`: the history with assistant turns named `assistant`, then
      the question itself as a user turn. Only the two roles the Messages API accepts occur. */
  function ChatTurns(history: seq<ChatMessage>, question: Value): (turns: seq<ChatReply.Turn>)
    ensures |turns| == |history| + 1
    ensures turns[..|history|] == ChatReply.HistoryTurns(history, "assistant")
    ensures turns[|history|].role == "user"
    ensures forall i :: 0 <= i < |turns| ==> turns[i].role == "user" || turns[i].role == "assistant"
  {
    ChatReply.HistoryTurns(history, "assistant") + [ChatReply.Turn("user", question)]
  }

  /** `chat(...)`. Without a key it throws; a rejected request propagates as it is; a failed
      status throws as in `analyze`; a reply is read by the metadata-reply rule. */
  function Chat(c: AdapterState.Config, fetch: Fetch, parse: string -> Option<Value>): (r: Result<ChatResponse, Thrown>)
    ensures r.Success? <==> IsTruthy(AdapterState.KeyOf(c, Claude)) && Answered(fetch)
    ensures r.Success? ==> r.value == ChatReply.MetadataReply(fetch.body.text.GetOr(""), parse)
    ensures fetch.Rejected? && IsTruthy(AdapterState.KeyOf(c, Claude)) ==> r == Failure(fetch.error)
    ensures IsTruthy(AdapterState.KeyOf(c, Claude)) && fetch.Responded? ==>
      (!fetch.ok && fetch.errorBody.ErrorField? ==>
        r == Failure(ApiError(fetch.errorBody.message, "Claude API error: ", fetch.status))) &&
      (!fetch.ok && fetch.errorBody.NullError? ==> r == Failure(TypeFault)) &&
      (fetch.ok && fetch.body.Unreadable? ==> r == Failure(fetch.body.error)) &&
      (fetch.ok && fetch.body.NullBody? ==> r == Failure(TypeFault))
  {
    match AdapterState.KeyOf(c, Claude)
    case TypeError => Failure(TypeFault)
    case key =>
      if !IsTruthy(key) then Failure(Error("Claude API key not configured"))
      else match fetch
        case Rejected(e) => Failure(e)
        case Responded(ok, status, _, errorBody, body) =>
          if !ok then Failure(StatusError(errorBody, "Claude API error: ", status))
          else match body
            case Unreadable(e) => Failure(e)
            case NullBody => Failure(TypeFault)
            case Reply(text) => Success(ChatReply.MetadataReply(text.GetOr(""), parse))
  }

  /** `isConfigured()` */
  function IsConfigured(c: AdapterState.Config): Result<bool, Thrown> {
    AdapterState.CloudConfigured(c, Claude)
  }

  /** With a readable image and a successful reply, `analyze` succeeds exactly when the adapter
      reports itself configured. */
  lemma ConfiguredIffKeyAccepted(c: AdapterState.Config, image: ImageInput, fetch: Fetch,
                                 parse: string -> Option<Value>, engineText: string)
    requires !AdapterState.GetApiKeys(c).Null?
    requires ImagePayload.Base64Image(image).Success? && Answered(fetch)
    ensures IsConfigured(c).Success?
    ensures IsConfigured(c).value <==> Analyze(c, image, fetch, parse, engineText).Success?
  {
  }
}

=== FILE: export.dfy ===
/** The JSON export of analysis results: a versioned envelope and a dated file name. The clock is
    a parameter; the browser download is not modelled. */
module Export {
  import opened Wrappers
  import opened Text
  import opened AdapterTypes

  const Version := "1.0"

  datatype ExportData = ExportData(version: string, exportedAt: string, count: nat, results: seq<AnalysisResult>)

  /** `generateExportData(results)`: every result, unchanged and in order, under version `1.0`
      with its count. */
  function GenerateExportData(results: seq<AnalysisResult>, now: string): (data: ExportData)
    ensures data.version == Version && data.exportedAt == now
    ensures data.results == results && data.count == |data.results|
  {
    ExportData(Version, now, |results|, results)
  }

  /** The text before the first `T` of a timestamp, the whole text when it has none. */
  function DatePart(iso: string): (date: string)
    ensures 'T' !in date && |date| <= |iso|
    ensures date == iso[..|date|]
    ensures |date| < |iso| ==> iso[|date|] == 'T'
  {
    var parts := SplitOn(iso, 'T');
    match FirstIndexOf(iso, 'T')
    case None =>
      assert parts[0] == iso;
      parts[0]
    case Some(i) =>
      assert parts[0] == iso[..i];
      parts[0]
  }

  const FilePrefix := "metalens-export-"
  const FileSuffix := ".json"

  /** `createExportFilename()` for the current time `iso`. */
  function CreateExportFilename(iso: string): string {
    FilePrefix + DatePart(iso) + FileSuffix
  }

  /** A timestamp `YYYY-MM-DD` + `T` + time names the file after its date. */
  lemma FilenameOfTimestamp(date: string, time: string)
    requires 'T' !in date
    ensures CreateExportFilename(date + "T" + time) == FilePrefix + date + FileSuffix
  {
    var iso := date + "T" + time;
    assert iso[..|date|] == date;
    assert iso[|date|] == 'T';
  }

  /** The name a download gets: the given one when truthy, the dated default otherwise. */
  function DownloadName(filename: Option<string>, iso: string): (name: string)
    ensures filename.Some? && filename.value != "" ==> name == filename.value
    ensures filename.None? || filename.value == "" ==> name == CreateExportFilename(iso)
  {
    if filename.Some? && filename.value != "" then filename.value else CreateExportFilename(iso)
  }

  /** `exportResult(result, filename)`: an envelope of exactly that one result. */
  function ExportResult(result: AnalysisResult, filename: Option<string>, now: string): (r: (ExportData, string))
    ensures r.0.results == [result] && r.0.count == 1 && r.0.version == Version
    ensures r.1 == DownloadName(filename, now)
  {
    (GenerateExportData([result], now), DownloadName(filename, now))
  }

  /** `exportAllResults(results)`: every result, under the dated default name. */
  function ExportAllResults(results: seq<AnalysisResult>, now: string): (r: (ExportData, string))
    ensures r.0.results == results && r.0.count == |results|
    ensures r.1 == CreateExportFilename(now)
  {
    (GenerateExportData(results, now), CreateExportFilename(now))
  }
}

=== FILE: extract.dfy ===
/** The fixed text extractions the adapters and the sketch page apply to backend replies, each one
    a specific regular expression of the source written out as a function. */
module Extract {
  import opened Wrappers
  import opened Text

  /** Bounds of the match of `/\{[\s\S]*\}/`: the first `{` and the last `}`, when that `}` comes
      after the `{`. A later `{` cannot do better, since it has fewer `}` after it. */
  function BraceBounds(s: string): (r: Option<(nat, nat)>)
    ensures r.Some? ==> r.value.0 < r.value.1 < |s| && s[r.value.0] == '{' && s[r.value.1] == '}'
    ensures r.Some? ==> forall k :: 0 <= k < r.value.0 ==> s[k] != '{'
    ensures r.Some? ==> forall k :: r.value.1 < k < |s| ==> s[k] != '}'
    ensures r.None? ==> forall i, j :: 0 <= i < j < |s| && s[i] == '{' ==> s[j] != '}'
  {
    match FirstIndexOf(s, '{')
    case None => None
    case Some(i) =>
      match LastIndexOf(s, '}')
      case None => None
      case Some(j) => if i < j then Some((i, j)) else None
  }

  /** The text `/\{[\s\S]*\}/` matches: from the first `{` through the last `}`. */
  function BraceSpan(s: string): (r: Option<string>)
    ensures r.Some? ==> |r.value| >= 2 && r.value[0] == '{' && r.value[|r.value| - 1] == '}'
    ensures r.Some? <==> BraceBounds(s).Some?
  {
    match BraceBounds(s)
    case None => None
    case Some((i, j)) => Some(s[i..j + 1])
  }

  const UpdatedMetadataKey := "\"updatedMetadata\""

  /** The text `/\{[\s\S]*"updatedMetadata"[\s\S]*\}/` matches. Its leftmost start is the first `{`
      whenever any start works, and its greedy end is the last `}`; so it is the brace span,
      provided the quoted key occurs after the opening `{` and ends at or before the closing `}`. */
  function UpdatedMetadataSpan(s: string): (r: Option<string>)
    ensures r.Some? ==> r == BraceSpan(s)
    ensures r.Some? ==> Contains(r.value, UpdatedMetadataKey)
    ensures r.Some? <==>
      BraceBounds(s).Some? && Contains(s[BraceBounds(s).value.0 + 1..BraceBounds(s).value.1], UpdatedMetadataKey)
  {
    match BraceBounds(s)
    case None => None
    case Some((i, j)) =>
      ContainedBefore(s, UpdatedMetadataKey, i + 1, j);
      match IndexOfFrom(s, UpdatedMetadataKey, i + 1)
      case None => None
      case Some(k) =>
        if k + |UpdatedMetadataKey| <= j then
          OccursInInfix(s, UpdatedMetadataKey, i, j + 1, k);
          Some(s[i..j + 1])
        else None
  }

  /** A slice contains `p` exactly when the first occurrence of `p` from the slice's start ends
      within the slice. */
  lemma ContainedBefore(s: string, p: string, lo: nat, hi: nat)
    requires lo <= hi <= |s|
    ensures Contains(s[lo..hi], p) <==> IndexOfFrom(s, p, lo).Some? && IndexOfFrom(s, p, lo).value + |p| <= hi
  {
    if Contains(s[lo..hi], p) {
      var m :| 0 <= m <= |s[lo..hi]| && OccursAt(s[lo..hi], p, m);
      OccursInWhole(s, p, lo, hi, m);
    }
    if IndexOfFrom(s, p, lo).Some? && IndexOfFrom(s, p, lo).value + |p| <= hi {
      var k := IndexOfFrom(s, p, lo).value;
      OccursInInfix(s, p, lo, hi, k);
      assert OccursAt(s[lo..hi], p, k - lo);
    }
  }

  /** An occurrence inside a slice is an occurrence in the slice. */
  lemma OccursInInfix(s: string, p: string, lo: nat, hi: nat, k: nat)
    requires lo <= k && k + |p| <= hi <= |s| && OccursAt(s, p, k)
    ensures OccursAt(s[lo..hi], p, k - lo)
  {
    forall m | 0 <= m < |p| ensures s[lo..hi][k - lo + m] == p[m] {
      assert s[k..k + |p|][m] == p[m];
    }
  }

  /** `s.replace(t, '')`: removes the first occurrence of `t`, if any. */
  function RemoveFirst(s: string, t: string): string {
    match IndexOfFrom(s, t, 0)
    case None => s
    case Some(k) => s[..k] + s[k + |t|..]
  }

  /** Removing the brace span from the text it was taken from leaves exactly what surrounds it:
      no earlier occurrence of the span exists, because it begins with the first `{`. */
  lemma RemoveBraceSpan(s: string)
    requires BraceBounds(s).Some?
    ensures RemoveFirst(s, BraceSpan(s).value) ==
      s[..BraceBounds(s).value.0] + s[BraceBounds(s).value.1 + 1..]
  {
    var (i, j) := BraceBounds(s).value;
    var t := BraceSpan(s).value;
    assert t == s[i..j + 1];
    assert OccursAt(s, t, i);
  }

  /** A text that opens with `{` and closes with `}` is its own brace span, and cutting that span
      out leaves nothing. */
  lemma WholeBraceSpan(s: string)
    requires |s| >= 2 && s[0] == '{' && s[|s| - 1] == '}'
    ensures BraceBounds(s) == Some((0, |s| - 1))
    ensures BraceSpan(s) == Some(s)
    ensures RemoveFirst(s, s) == ""
  {
    assert s[0..|s|] == s;
    RemoveBraceSpan(s);
  }

  /** `s.replace(/<marker>\n?/g, '')`: deletes every occurrence of `marker`, together with one
      newline right after it, scanning left to right. */
  function RemoveAllMarker(s: string, marker: string): (r: string)
    requires |marker| > 0
    decreases |s|
    ensures |r| <= |s|
  {
    if |s| == 0 then ""
    else if StartsWith(s, marker) then
      var rest := s[|marker|..];
      if |rest| > 0 && rest[0] == '\n' then RemoveAllMarker(rest[1..], marker)
      else RemoveAllMarker(rest, marker)
    else [s[0]] + RemoveAllMarker(s[1..], marker)
  }

  /** The markdown fence removal of the Gemini adapter: every "```json" with an optional newline,
      then every "```" with an optional newline. */
  function StripFences(s: string): (r: string)
    ensures |r| <= |s|
  {
    RemoveAllMarker(RemoveAllMarker(s, "```json"), "```")
  }

  /** A backtick-free prefix is kept in front of whatever the removal makes of the rest. */
  lemma {:induction false} KeepsPlainPrefix(pre: string, rest: string, marker: string)
    requires |marker| > 0 && marker[0] == '`'
    requires '`' !in pre
    ensures RemoveAllMarker(pre + rest, marker) == pre + RemoveAllMarker(rest, marker)
  {
    if |pre| > 0 {
      var s := pre + rest;
      assert s[0] == pre[0] && pre[0] in pre;
      assert !StartsWith(s, marker) by {
        if |marker| <= |s| { assert s[..|marker|][0] == s[0]; }
      }
      assert RemoveAllMarker(s, marker) == [s[0]] + RemoveAllMarker(s[1..], marker);
      assert s[1..] == pre[1..] + rest;
      assert forall k :: 0 <= k < |pre[1..]| ==> pre[1..][k] == pre[k + 1];
      KeepsPlainPrefix(pre[1..], rest, marker);
    } else {
      assert pre + rest == rest;
    }
  }

  /** Text without a backtick has no fence to remove. */
  lemma StripFencesNoBacktick(s: string)
    requires '`' !in s
    ensures StripFences(s) == s
  {
    KeepsPlainPrefix(s, "", "```json");
    KeepsPlainPrefix(s, "", "```");
    assert s + "" == s;
  }

  /** Text shorter than the marker is kept. */
  lemma {:induction false} ShortTextKept(s: string, marker: string)
    requires |marker| > 0 && |s| < |marker|
    ensures RemoveAllMarker(s, marker) == s
  {
    if |s| > 0 {
      ShortTextKept(s[1..], marker);
      assert s == [s[0]] + s[1..];
    }
  }

  /** A reply fenced as a JSON code block loses both fences and the newline after the opening one:
      what remains is the block's body. */
  lemma StripFencesOfFencedReply(body: string)
    requires '`' !in body
    ensures StripFences("```json\n" + body + "```") == body
  {
    var s := "```json\n" + body + "```";
    assert s[..7] == "```json";
    assert s[7..][1..] == body + "```";
    KeepsPlainPrefix(body, "```", "```json");
    ShortTextKept("```", "```json");
    assert RemoveAllMarker(s, "```json") == body + "```";
    KeepsPlainPrefix(body, "```", "```");
    assert RemoveAllMarker("```", "```") == "";
    assert body + "" == body;
  }

  /** A data URL split by `/^data:(.+);base64,(.+)$/`. */
  datatype DataUrl = DataUrl(data: string, mediaType: string)

  const Base64Marker := ";base64,"

  /** The largest `k <= hi` where `p` occurs. */
  function LastOccurrenceAtMost(s: string, p: string, hi: int): (r: Option<nat>)
    decreases if hi < 0 then 0 else hi + 1
    ensures r.Some? ==> r.value <= hi && OccursAt(s, p, r.value)
    ensures r.Some? ==> forall k :: r.value < k <= hi ==> !OccursAt(s, p, k)
    ensures r.None? ==> forall k :: 0 <= k <= hi ==> !OccursAt(s, p, k)
  {
    if hi < 0 then None
    else if OccursAt(s, p, hi) then Some(hi)
    else LastOccurrenceAtMost(s, p, hi - 1)
  }

  predicate NoLineTerminator(s: string) {
    forall i :: 0 <= i < |s| ==> !IsLineTerminator(s[i])
  }

  /** The match of `/^data:(.+);base64,(.+)$/`, if any. `.` matches no line terminator, so the text
      after `data:` must hold none; the greedy first group ends at the last `;base64,` that leaves a
      non-empty media type before it and non-empty data after it. */
  function MatchDataUrl(s: string): (r: Option<DataUrl>)
    ensures r.Some? ==> s == "data:" + r.value.mediaType + Base64Marker + r.value.data
    ensures r.Some? ==> |r.value.mediaType| > 0 && |r.value.data| > 0 && NoLineTerminator(s)
    ensures r.Some? ==> forall k :: 5 + |r.value.mediaType| < k <= |s| - 9 ==> !OccursAt(s, Base64Marker, k)
    ensures r.None? && StartsWith(s, "data:") && NoLineTerminator(s) ==>
      forall k :: 6 <= k <= |s| - 9 ==> !OccursAt(s, Base64Marker, k)
  {
    if !StartsWith(s, "data:") || !NoLineTerminator(s) then None
    else match LastOccurrenceAtMost(s, Base64Marker, |s| - 9)
      case None => None
      case Some(k) =>
        if k < 6 then None
        else
          var r := DataUrl(s[k + 8..], s[5..k]);
          assert s == s[..5] + s[5..k] + s[k..k + 8] + s[k + 8..];
          Some(r)
  }

  /** A data URL built from a non-empty media type and non-empty base64 data (which never contains
      `;`) splits back into exactly those two parts. */
  lemma DataUrlRoundTrip(mediaType: string, data: string)
    requires |mediaType| > 0 && |data| > 0
    requires NoLineTerminator(mediaType) && NoLineTerminator(data)
    requires ';' !in data
    ensures MatchDataUrl("data:" + mediaType + Base64Marker + data) == Some(DataUrl(data, mediaType))
  {
    var s := "data:" + mediaType + Base64Marker + data;
    var k0 := 5 + |mediaType|;
    assert s[..5] == "data:";
    assert s[k0..k0 + 8] == Base64Marker;
    assert NoLineTerminator(s) by {
      forall i | 0 <= i < |s| ensures !IsLineTerminator(s[i]) {
        if i < 5 { assert s[i] == "data:"[i]; }
        else if i < k0 { assert s[i] == mediaType[i - 5]; }
        else if i < k0 + 8 { assert s[i] == Base64Marker[i - k0]; }
        else { assert s[i] == data[i - k0 - 8]; }
      }
    }
    forall k | k0 < k <= |s| - 9 ensures !OccursAt(s, Base64Marker, k) {
      if k < k0 + 8 { assert s[k] == Base64Marker[k - k0]; }
      else { assert s[k] == data[k - k0 - 8]; assert data[k - k0 - 8] in data; }
      assert s[k] != ';';
    }
    assert OccursAt(s, Base64Marker, k0);
    var r := MatchDataUrl(s);
    assert r.Some?;
    assert |r.value.mediaType| == |mediaType|;
    assert s[5..k0] == mediaType;
    assert s[k0 + 8..] == data;
  }

  /** `s.split(',')[1]`: the text between the first and the second comma (to the end when there is
      no second), or `undefined` when there is no comma at all. */
  function SecondCommaField(s: string): (r: Option<string>)
    ensures r.Some? ==> ',' !in r.value
    ensures r.None? <==> ',' !in s
  {
    var parts := SplitOn(s, ',');
    if |parts| >= 2 then Some(parts[1])
    else
      assert FirstIndexOf(s, ',').None?;
      None
  }

  /** For a data URL with one comma, the field is everything after it. */
  lemma SecondCommaFieldOfDataUrl(head: string, data: string)
    requires ',' !in head && ',' !in data
    ensures SecondCommaField(head + "," + data) == Some(data)
  {
    var s := head + "," + data;
    assert forall k :: 0 <= k < |head| ==> s[k] == head[k];
    assert s[|head|] == ',';
    assert FirstIndexOf(s, ',') == Some(|head|);
    assert s[|head| + 1..] == data;
    assert s[..|head|] == head;
    assert forall k :: 0 <= k < |data| ==> data[k] != ',';
    assert SplitOn(data, ',') == [data];
  }

  /** The longest run of white space starting at `p`, as an end index. */
  function SkipSpaces(s: string, p: nat): (q: nat)
    requires p <= |s|
    decreases |s| - p
    ensures p <= q <= |s|
    ensures forall k :: p <= k < q ==> IsSpace(s[k])
    ensures q == |s| || !IsSpace(s[q])
  {
    if p < |s| && IsSpace(s[p]) then SkipSpaces(s, p + 1) else p
  }

  /** Where the fenced-block match starts and where its closing fence begins: the first fence
      and the first fence at least three characters after it. Absent exactly when no two
      non-overlapping fences occur. */
  function FenceBounds(s: string): (r: Option<(nat, nat)>)
    ensures r.Some? ==> var (i, k) := r.value;
      && OccursAt(s, "```", i) && OccursAt(s, "```", k) && i + 3 <= k
      && (forall m :: 0 <= m < i ==> !OccursAt(s, "```", m))
      && (forall m :: i + 3 <= m < k ==> !OccursAt(s, "```", m))
    ensures r.None? ==> forall i, k :: 0 <= i && i + 3 <= k && OccursAt(s, "```", i) ==> !OccursAt(s, "```", k)
  {
    match IndexOfFrom(s, "```", 0)
    case None => None
    case Some(i) =>
      match IndexOfFrom(s, "```", i + 3)
      case None => None
      case Some(k) => Some((i, k))
  }

  /** The match of "```" + optional "json" + white space + a lazy group + "```": the whole match
      and the captured group. Its leftmost start is the first fence, which needs a later fence
      that does not overlap it; a later start cannot do better, having fewer fences after it. The
      whole match runs to the end of the first such fence, and the group ends where that fence
      begins, after the optional `json` and the white space that follows. */
  function FencedBlock(s: string): (r: Option<(string, string)>)
    ensures r.Some? ==> |r.value.1| + 6 <= |r.value.0|
    ensures r.Some? ==> StartsWith(r.value.0, "```") && !Contains(r.value.1, "```")
    ensures r.Some? <==> FenceBounds(s).Some?
    ensures r.Some? ==> var (i, k) := FenceBounds(s).value;
      && r.value.0 == s[i..k + 3]
      && i + 3 <= k - |r.value.1|
      && r.value.1 == s[k - |r.value.1|..k]
    ensures r.Some? ==> r.value.1 == "" || !IsSpace(r.value.1[0])
  {
    match FenceBounds(s)
    case None => None
    case Some((i, k)) =>
      var p := if OccursAt(s, "json", i + 3) then i + 7 else i + 3;
      FenceAfterTag(s, i, k);
      var q := SkipSpaces(s, p);
      assert s[k..k + 3][0] == '`';
      NoFenceInGroup(s, q, k, i + 3);
      FencedShape(s, i, q, k);
      Some((s[i..k + 3], s[q..k]))
  }

  /** The whole match from a fence at `i` to the end of the fence at `k`, and a group from `q` to
      `k` that starts after the opening fence and not on white space. */
  lemma FencedShape(s: string, i: nat, q: nat, k: nat)
    requires i + 3 <= q <= k && k + 3 <= |s| && OccursAt(s, "```", i)
    requires q == k || !IsSpace(s[q])
    ensures |s[q..k]| + 6 <= |s[i..k + 3]| && StartsWith(s[i..k + 3], "```")
    ensures i + 3 <= k - |s[q..k]| && s[q..k] == s[k - |s[q..k]|..k]
    ensures s[q..k] == "" || !IsSpace(s[q..k][0])
  {
    assert s[i..k + 3][..3] == s[i..i + 3];
  }

  /** A fence that follows the opening fence cannot overlap a `json` tag right after it. */
  lemma FenceAfterTag(s: string, i: nat, k: nat)
    requires i + 3 <= k && OccursAt(s, "```", k)
    ensures OccursAt(s, "json", i + 3) ==> i + 7 <= k
  {
    if OccursAt(s, "json", i + 3) {
      forall d | i + 3 <= d < i + 7 ensures s[d] != '`' {
        assert s[d] == s[i + 3..i + 7][d - (i + 3)];
      }
      assert s[k] == s[k..k + 3][0];
    }
  }

  /** An occurrence in a slice is an occurrence in the whole text. */
  lemma OccursInWhole(s: string, p: string, lo: nat, hi: nat, m: nat)
    requires lo <= hi <= |s| && OccursAt(s[lo..hi], p, m)
    ensures OccursAt(s, p, lo + m)
  {
    var w := s[lo..hi][m..m + |p|];
    forall d | 0 <= d < |p| ensures s[lo + m + d] == p[d] {
      assert w[d] == p[d];
    }
  }

  /** No fence lies within a stretch that ends at the first fence after `from`. */
  lemma NoFenceInGroup(s: string, q: nat, k: nat, from: nat)
    requires from <= q <= k <= |s|
    requires forall m :: from <= m < k ==> !OccursAt(s, "```", m)
    ensures !Contains(s[q..k], "```")
  {
    forall m | 0 <= m <= k - q ensures !OccursAt(s[q..k], "```", m) {
      if OccursAt(s[q..k], "```", m) {
        OccursInWhole(s, "```", q, k, m);
      }
    }
  }
}

=== FILE: face_assignment.dfy ===
/** The dialog that assigns a detected face: to an existing person, or to a person created on the
    spot. The new person's id and the time are parameters. */
module FaceAssignmentDialog {
  import opened Wrappers
  import opened Text
  import opened Seqs
  import opened Faces

  /** The face store after a dialog action, and whether `onAssigned` was called. The call comes
      last, after the store has been written. */
  datatype Outcome = Outcome(store: FaceStore, notified: bool)

  /** `handleAssign(personId)`: exactly `assignFaceToPerson(face.id, personId)`, then the callback. */
  function HandleAssign(s: FaceStore, face: Face, personId: string, now: string): (r: Outcome)
    ensures r.notified
    ensures r.store == AssignFaceToPerson(s, face.id, personId, now)
  {
    Outcome(AssignFaceToPerson(s, face.id, personId, now), true)
  }

  /** No person and no face refers to `id` yet: what a freshly generated id satisfies. */
  predicate FreshPersonId(s: FaceStore, id: string) {
    && (forall b :: 0 <= b < |s.persons| ==> s.persons[b].id != id)
    && (forall a :: 0 <= a < |s.faces| ==> s.faces[a].personId != Some(id))
  }

  /** A person appended under an id no earlier person has is found at the end. */
  lemma PersonIndexOfAppended(persons: seq<Person>, p: Person)
    ensures (forall b :: 0 <= b < |persons| ==> persons[b].id != p.id) ==> PersonIndex(persons + [p], p.id) == Some(|persons|)
  {
    if forall b :: 0 <= b < |persons| ==> persons[b].id != p.id {
      var all := persons + [p];
      assert all[|persons|].id == p.id;
      assert forall b :: 0 <= b < |persons| ==> all[b].id != p.id;
    }
  }

  /** Assigning a face to a person just appended under a fresh id gives that person the face and
      leaves the earlier persons alone. */
  lemma AssignToAppended(s: FaceStore, faceId: string, p: Person, now: string)
    requires p.faceIds == []
    ensures (forall b :: 0 <= b < |s.persons| ==> s.persons[b].id != p.id) ==>
      AssignFaceToPerson(FaceStore(s.faces, s.persons + [p]), faceId, p.id, now).persons
        == s.persons + [p.(faceIds := [faceId], updatedAt := now)]
  {
    PersonIndexOfAppended(s.persons, p);
    if forall b :: 0 <= b < |s.persons| ==> s.persons[b].id != p.id {
      var all := s.persons + [p];
      assert PersonIndex(all, p.id) == Some(|s.persons|);
      assert faceId !in all[|s.persons|].faceIds;
      assert all[|s.persons|].faceIds + [faceId] == [faceId];
      assert all[|s.persons| := all[|s.persons|].(faceIds := [faceId], updatedAt := now)]
        == s.persons + [p.(faceIds := [faceId], updatedAt := now)];
    }
  }

  /** `handleCreateAndAssign()`: a blank name does nothing; otherwise a person named with the
      untrimmed text is created and the dialog's face assigned to it. The three clock reads are
      parameters: the new person's `createdAt` and `updatedAt`, and the `updatedAt` the
      assignment stamps afterwards. */
  function HandleCreateAndAssign(s: FaceStore, face: Face, newPersonName: string, newId: string,
                                 createdAt: string, updatedAt: string, assignedAt: string): (r: Outcome)
    ensures Trim(newPersonName) == "" ==> r == Outcome(s, false)
    ensures Trim(newPersonName) != "" ==> r.notified
    ensures Trim(newPersonName) != "" && (forall b :: 0 <= b < |s.persons| ==> s.persons[b].id != newId) ==>
      && |r.store.persons| == |s.persons| + 1
      && r.store.persons[..|s.persons|] == s.persons
      && r.store.persons[|s.persons|] == Person(newId, newPersonName, [face.id], createdAt, assignedAt)
    ensures Trim(newPersonName) != "" ==> r.store.faces == UpdateFace(s.faces, face.id, LinkPatch(Some(newId)))
  {
    if Trim(newPersonName) == "" then Outcome(s, false)
    else
      var (persons, person) := CreatePerson(s.persons, newPersonName, newId, createdAt, updatedAt);
      AssignToAppended(s, face.id, person, assignedAt);
      Outcome(AssignFaceToPerson(FaceStore(s.faces, persons), face.id, person.id, assignedAt), true)
  }

  /** Creating a person under a fresh id keeps a consistent store consistent. */
  lemma CreateKeepsConsistent(s: FaceStore, newPersonName: string, newId: string, createdAt: string, updatedAt: string)
    requires Consistent(s) && FreshPersonId(s, newId)
    ensures Consistent(FaceStore(s.faces, CreatePerson(s.persons, newPersonName, newId, createdAt, updatedAt).0))
  {
    var persons := CreatePerson(s.persons, newPersonName, newId, createdAt, updatedAt).0;
    assert forall b :: 0 <= b < |s.persons| ==> persons[b] == s.persons[b];
  }

  /** Creating a person under a fresh id and assigning an unassigned face to it keeps a consistent
      store consistent. */
  lemma CreateAndAssignKeepsConsistent(s: FaceStore, i: nat, newPersonName: string, newId: string,
                                       createdAt: string, updatedAt: string, assignedAt: string)
    requires Consistent(s) && i < |s.faces| && s.faces[i].personId.None? && FreshPersonId(s, newId)
    ensures Consistent(HandleCreateAndAssign(s, s.faces[i], newPersonName, newId, createdAt, updatedAt, assignedAt).store)
  {
    if Trim(newPersonName) != "" {
      var (persons, person) := CreatePerson(s.persons, newPersonName, newId, createdAt, updatedAt);
      var created := FaceStore(s.faces, persons);
      CreateKeepsConsistent(s, newPersonName, newId, createdAt, updatedAt);
      forall a, b | 0 <= a < |s.faces| && 0 <= b < |persons| && s.faces[a].id == s.faces[i].id
        ensures s.faces[a].personId != Some(persons[b].id)
      {
        assert a == i;
      }
      AssignUnlinkedKeepsConsistent(created, s.faces[i].id, newId, assignedAt);
    }
  }
}

=== FILE: faces.dfy ===
/** Detected faces and the persons they are grouped under. A face names its person by
    `personId`; a person lists its faces in `faceIds`. The operations keep the two sides in step
    only under the conditions the lemmas below name. Writes are taken to succeed. */
module Faces {
  import opened Wrappers
  import opened Seqs

  /** A bounding box, in image pixels. */
  datatype Box = Box(x: real, y: real, width: real, height: real)

  datatype Face = Face(
    id: string,
    imageId: string,
    boundingBox: Box,
    confidence: real,
    personId: Option<string>,
    estimatedAge: Option<real>,
    estimatedGender: Option<string>,
    detectedAt: string)

  datatype Person = Person(id: string, name: string, faceIds: seq<string>, createdAt: string, updatedAt: string)

  datatype FaceStore = FaceStore(faces: seq<Face>, persons: seq<Person>)

  /** `Partial<FaceData>`; the optional fields may be set to `undefined`. */
  datatype FacePatch = FacePatch(
    id: Option<string>,
    imageId: Option<string>,
    boundingBox: Option<Box>,
    confidence: Option<real>,
    personId: Option<Option<string>>,
    estimatedAge: Option<Option<real>>,
    estimatedGender: Option<Option<string>>,
    detectedAt: Option<string>)

  /** `Partial<Person>` */
  datatype PersonPatch = PersonPatch(
    id: Option<string>,
    name: Option<string>,
    faceIds: Option<seq<string>>,
    createdAt: Option<string>,
    updatedAt: Option<string>)

  /** `{ personId }` and `{ personId: undefined }` */
  function LinkPatch(personId: Option<string>): FacePatch {
    FacePatch(None, None, None, None, Some(personId), None, None, None)
  }

  function FaceIdsPatch(faceIds: seq<string>): PersonPatch {
    PersonPatch(None, None, Some(faceIds), None, None)
  }

  function NamePatch(name: string): PersonPatch {
    PersonPatch(None, Some(name), None, None, None)
  }

  /** `{ ...face, ...updates }` */
  function ApplyFacePatch(f: Face, p: FacePatch): Face {
    Face(
      p.id.GetOr(f.id), p.imageId.GetOr(f.imageId), p.boundingBox.GetOr(f.boundingBox),
      p.confidence.GetOr(f.confidence), p.personId.GetOr(f.personId), p.estimatedAge.GetOr(f.estimatedAge),
      p.estimatedGender.GetOr(f.estimatedGender), p.detectedAt.GetOr(f.detectedAt))
  }

  /** `{ ...person, ...updates, updatedAt: now }` */
  function ApplyPersonPatch(q: Person, p: PersonPatch, now: string): Person {
    Person(p.id.GetOr(q.id), p.name.GetOr(q.name), p.faceIds.GetOr(q.faceIds), p.createdAt.GetOr(q.createdAt), now)
  }

  /** A face counts as assigned when its `personId` is truthy: the empty string does not count. */
  predicate Assigned(f: Face) {
    f.personId.Some? && f.personId.value != ""
  }

  /** No two faces, or no two persons, share an id. Generated ids make this the normal case. */
  predicate UniqueFaceIds(faces: seq<Face>) {
    forall i, j :: 0 <= i < j < |faces| ==> faces[i].id != faces[j].id
  }

  predicate UniquePersonIds(persons: seq<Person>) {
    forall i, j :: 0 <= i < j < |persons| ==> persons[i].id != persons[j].id
  }

  /** The two sides of the link agree: a face names a person exactly when that person lists it. */
  predicate Linked(s: FaceStore) {
    forall i, j :: 0 <= i < |s.faces| && 0 <= j < |s.persons| ==>
      (s.faces[i].personId == Some(s.persons[j].id) <==> s.faces[i].id in s.persons[j].faceIds)
  }

  predicate Consistent(s: FaceStore) {
    UniqueFaceIds(s.faces) && UniquePersonIds(s.persons) && Linked(s)
  }

  /** `getFacesByImageId(imageId)` */
  function FacesByImageId(faces: seq<Face>, imageId: string): (r: seq<Face>)
    ensures forall k :: 0 <= k < |r| ==> r[k].imageId == imageId && r[k] in faces
    ensures forall k :: 0 <= k < |faces| && faces[k].imageId == imageId ==> faces[k] in r
  {
    Filter(faces, (f: Face) => f.imageId == imageId)
  }

  /** `addFace(face)`: the face, with a fresh id and detection time, is appended. */
  function AddFace(faces: seq<Face>, face: Face, id: string, detectedAt: string): (r: (seq<Face>, Face))
    ensures r.1 == face.(id := id, detectedAt := detectedAt)
    ensures r.0 == faces + [r.1]
  {
    var added := face.(id := id, detectedAt := detectedAt);
    (faces + [added], added)
  }

  /** The matchers `face.id === id` and `person.id === id`. */
  function FaceHasId(id: string): Face -> bool {
    (f: Face) => f.id == id
  }

  function PersonHasId(id: string): Person -> bool {
    (q: Person) => q.id == id
  }

  /** `faces.findIndex(face => face.id === id)`, as an option. */
  function FaceIndex(faces: seq<Face>, id: string): (r: Option<nat>)
    ensures r.Some? ==> r.value < |faces| && faces[r.value].id == id
    ensures r.Some? ==> forall j :: 0 <= j < r.value ==> faces[j].id != id
    ensures r.None? ==> forall j :: 0 <= j < |faces| ==> faces[j].id != id
  {
    FindIndex(faces, FaceHasId(id))
  }

  /** The search looks at ids only: lists with the same ids, index by index, find the same face. */
  lemma FaceIndexOfSameIds(xs: seq<Face>, ys: seq<Face>, id: string)
    requires |xs| == |ys| && forall k :: 0 <= k < |xs| ==> xs[k].id == ys[k].id
    ensures FaceIndex(xs, id) == FaceIndex(ys, id)
  {
    match FaceIndex(xs, id)
    case None =>
    case Some(i) =>
      assert ys[i].id == id;
  }

  /** With unique ids, the face found by an id is the one carrying it. */
  lemma FaceIndexOfUnique(faces: seq<Face>, k: nat)
    requires UniqueFaceIds(faces) && k < |faces|
    ensures FaceIndex(faces, faces[k].id) == Some(k)
  {
  }

  /** `updateFace(id, updates)`: the first face with that id is merged with the patch; an unknown id
      changes nothing. */
  function UpdateFace(faces: seq<Face>, id: string, p: FacePatch): (r: seq<Face>)
    ensures FaceIndex(faces, id).None? ==> r == faces
    ensures FaceIndex(faces, id).Some? ==>
      r == faces[FaceIndex(faces, id).value := ApplyFacePatch(faces[FaceIndex(faces, id).value], p)]
  {
    UpdateFirst(faces, FaceHasId(id), (f: Face) => ApplyFacePatch(f, p))
  }

  /** `removeFace(id)`: every face with that id is dropped. */
  function RemoveFace(faces: seq<Face>, id: string): (r: seq<Face>)
    ensures forall k :: 0 <= k < |r| ==> r[k].id != id && r[k] in faces
    ensures forall k :: 0 <= k < |faces| && faces[k].id != id ==> faces[k] in r
    ensures FaceIndex(r, id).None?
  {
    Filter(faces, (f: Face) => f.id != id)
  }

  /** `removeFacesByImageId(imageId)`: exactly the faces of that image are dropped. */
  function RemoveFacesByImageId(faces: seq<Face>, imageId: string): (r: seq<Face>)
    ensures forall k :: 0 <= k < |r| ==> r[k].imageId != imageId && r[k] in faces
    ensures forall k :: 0 <= k < |faces| && faces[k].imageId != imageId ==> faces[k] in r
    ensures FacesByImageId(r, imageId) == []
  {
    var r := Filter(faces, (f: Face) => f.imageId != imageId);
    assert forall f :: f in r ==> f.imageId != imageId;
    var left := FacesByImageId(r, imageId);
    assert |left| > 0 ==> left[0] in r && left[0].imageId == imageId;
    r
  }

  /** The faces that survive keep their order: removing from a concatenation removes from each part,
      and a list with no face of the image is unchanged. */
  lemma RemoveFacesByImageIdKeepsOrder(xs: seq<Face>, ys: seq<Face>, imageId: string)
    ensures RemoveFacesByImageId(xs + ys, imageId) == RemoveFacesByImageId(xs, imageId) + RemoveFacesByImageId(ys, imageId)
    ensures (forall k :: 0 <= k < |xs| ==> xs[k].imageId != imageId) ==> RemoveFacesByImageId(xs, imageId) == xs
  {
    FilterAppend(xs, ys, (f: Face) => f.imageId != imageId);
    if forall k :: 0 <= k < |xs| ==> xs[k].imageId != imageId {
      FilterKeepsAll(xs, (f: Face) => f.imageId != imageId);
    }
  }

  /** `persons.findIndex(person => person.id === id)`, as an option; `getPersonById(id)` is the
      person at that index. */
  function PersonIndex(persons: seq<Person>, id: string): (r: Option<nat>)
    ensures r.Some? ==> r.value < |persons| && persons[r.value].id == id
    ensures r.Some? ==> forall j :: 0 <= j < r.value ==> persons[j].id != id
    ensures r.None? ==> forall j :: 0 <= j < |persons| ==> persons[j].id != id
  {
    FindIndex(persons, PersonHasId(id))
  }

  /** `createPerson(name)`: a person with no faces is appended; the id and the two timestamps,
      each its own clock read, are parameters. */
  function CreatePerson(persons: seq<Person>, name: string, id: string, createdAt: string, updatedAt: string)
    : (r: (seq<Person>, Person))
    ensures r.1.name == name && r.1.faceIds == [] && r.1.id == id
    ensures r.1.createdAt == createdAt && r.1.updatedAt == updatedAt
    ensures r.0 == persons + [r.1]
  {
    var person := Person(id, name, [], createdAt, updatedAt);
    (persons + [person], person)
  }

  /** `updatePerson(id, updates)`: the first person with that id is merged with the patch and
      stamped `now`; an unknown id changes nothing. */
  function UpdatePerson(persons: seq<Person>, id: string, p: PersonPatch, now: string): (r: seq<Person>)
    ensures PersonIndex(persons, id).None? ==> r == persons
    ensures PersonIndex(persons, id).Some? ==>
      r == persons[PersonIndex(persons, id).value := ApplyPersonPatch(persons[PersonIndex(persons, id).value], p, now)]
  {
    UpdateFirst(persons, PersonHasId(id), (q: Person) => ApplyPersonPatch(q, p, now))
  }

  /** The `forEach` of `deletePerson`: for each face of the snapshot that names the person,
      `updateFace(face.id, { personId: undefined })` on the current list. */
  function UnlinkAll(current: seq<Face>, pending: seq<Face>, id: string): (r: seq<Face>)
    decreases |pending|
    ensures |r| == |current|
  {
    if |pending| == 0 then current
    else
      var next := if pending[0].personId == Some(id) then UpdateFace(current, pending[0].id, LinkPatch(None)) else current;
      UnlinkAll(next, pending[1..], id)
  }

  /** A face with its link to person `id` cleared. */
  function Unlinked(f: Face, id: string): Face {
    if f.personId == Some(id) then f.(personId := None) else f
  }

  /** `deletePerson(id)`: the faces naming the person are unlinked one by one, then every person
      with that id is dropped. No face is removed. */
  function DeletePerson(s: FaceStore, id: string): (r: FaceStore)
    ensures |r.faces| == |s.faces|
    ensures forall k :: 0 <= k < |r.persons| ==> r.persons[k].id != id && r.persons[k] in s.persons
    ensures forall k :: 0 <= k < |s.persons| && s.persons[k].id != id ==> s.persons[k] in r.persons
  {
    FaceStore(UnlinkAll(s.faces, s.faces, id), Filter(s.persons, (q: Person) => q.id != id))
  }

  /** One step of the unlinking loop: with unique ids, `updateFace` by the id of face `k` reaches
      face `k` itself. */
  lemma {:induction false} UnlinkAllFrom(snapshot: seq<Face>, current: seq<Face>, k: nat, id: string)
    requires UniqueFaceIds(snapshot) && k <= |snapshot| && |current| == |snapshot|
    requires forall j :: 0 <= j < |snapshot| ==> current[j].id == snapshot[j].id
    requires forall j :: 0 <= j < k ==> current[j] == Unlinked(snapshot[j], id)
    requires forall j :: k <= j < |snapshot| ==> current[j] == snapshot[j]
    decreases |snapshot| - k
    ensures forall j :: 0 <= j < |snapshot| ==> UnlinkAll(current, snapshot[k..], id)[j] == Unlinked(snapshot[j], id)
  {
    if k < |snapshot| {
      var f := snapshot[k];
      var next := if f.personId == Some(id) then UpdateFace(current, f.id, LinkPatch(None)) else current;
      assert UnlinkAll(current, snapshot[k..], id) == UnlinkAll(next, snapshot[k + 1..], id) by {
        assert snapshot[k..][0] == f;
        assert snapshot[k..][1..] == snapshot[k + 1..];
      }
      if f.personId == Some(id) {
        assert forall j :: 0 <= j < k ==> current[j].id != f.id;
        assert FaceIndex(current, f.id) == Some(k);
      }
      assert next == current[k := Unlinked(f, id)];
      UnlinkAllFrom(snapshot, next, k + 1, id);
    } else {
      assert snapshot[k..] == [];
    }
  }

  /** With unique face ids, deleting a person clears exactly the links to it and changes nothing
      else about any face. */
  lemma DeletePersonUnlinks(s: FaceStore, id: string)
    requires UniqueFaceIds(s.faces)
    ensures forall k :: 0 <= k < |s.faces| ==> DeletePerson(s, id).faces[k] == Unlinked(s.faces[k], id)
  {
    assert s.faces[0..] == s.faces;
    UnlinkAllFrom(s.faces, s.faces, 0, id);
  }

  /** `person.faceIds.filter(id => id !== faceId)` */
  function Without(faceIds: seq<string>, faceId: string): (r: seq<string>)
    ensures faceId !in r
    ensures forall x :: x in r <==> x in faceIds && x != faceId
  {
    Filter(faceIds, (x: string) => x != faceId)
  }

  /** `assignFaceToPerson(faceId, personId)`: the face is given the person whatever it held before,
      even when no such person exists; the first person with that id gains the face at the end of
      its list, unless it lists the face already. */
  function AssignFaceToPerson(s: FaceStore, faceId: string, personId: string, now: string): (r: FaceStore)
    ensures r.faces == UpdateFace(s.faces, faceId, LinkPatch(Some(personId)))
    ensures PersonIndex(s.persons, personId).None? ==> r.persons == s.persons
    ensures PersonIndex(s.persons, personId).Some? ==>
      var j := PersonIndex(s.persons, personId).value;
      r.persons == if faceId in s.persons[j].faceIds then s.persons
                   else s.persons[j := s.persons[j].(faceIds := s.persons[j].faceIds + [faceId], updatedAt := now)]
  {
    var faces := UpdateFace(s.faces, faceId, LinkPatch(Some(personId)));
    match PersonIndex(s.persons, personId)
    case Some(j) =>
      var person := s.persons[j];
      if faceId !in person.faceIds then
        FaceStore(faces, UpdatePerson(s.persons, personId, FaceIdsPatch(person.faceIds + [faceId]), now))
      else FaceStore(faces, s.persons)
    case None => FaceStore(faces, s.persons)
  }

  /** Assigning never lists a face twice: persons without duplicate face ids keep none. */
  lemma AssignKeepsFaceIdsDistinct(s: FaceStore, faceId: string, personId: string, now: string)
    requires DistinctFaceLists(s.persons)
    ensures DistinctFaceLists(AssignFaceToPerson(s, faceId, personId, now).persons)
  {
    var r := AssignFaceToPerson(s, faceId, personId, now);
    match PersonIndex(s.persons, personId)
    case None =>
    case Some(j) =>
      if faceId !in s.persons[j].faceIds {
        var ids := s.persons[j].faceIds + [faceId];
        assert forall a :: 0 <= a < |s.persons[j].faceIds| ==> ids[a] == s.persons[j].faceIds[a] && ids[a] != faceId;
        assert NoDuplicates(ids);
      }
  }

  /** No person lists a face twice. */
  predicate DistinctFaceLists(persons: seq<Person>) {
    forall k :: 0 <= k < |persons| ==> NoDuplicates(persons[k].faceIds)
  }

  /** `unassignFaceFromPerson(faceId)`: nothing for an unknown or unassigned face; otherwise the
      face is dropped from its owner's list (when the owner exists) and its `personId` cleared. */
  function UnassignFaceFromPerson(s: FaceStore, faceId: string, now: string): (r: FaceStore)
    ensures FaceIndex(s.faces, faceId).None? ==> r == s
    ensures FaceIndex(s.faces, faceId).Some? ==>
      var i := FaceIndex(s.faces, faceId).value;
      if !Assigned(s.faces[i]) then r == s
      else
        && r.faces == s.faces[i := s.faces[i].(personId := None)]
        && (PersonIndex(s.persons, s.faces[i].personId.value).None? ==> r.persons == s.persons)
        && (PersonIndex(s.persons, s.faces[i].personId.value).Some? ==>
              var j := PersonIndex(s.persons, s.faces[i].personId.value).value;
              r.persons == s.persons[j := s.persons[j].(faceIds := Without(s.persons[j].faceIds, faceId), updatedAt := now)])
  {
    match FaceIndex(s.faces, faceId)
    case None => s
    case Some(i) =>
      var face := s.faces[i];
      if !Assigned(face) then s
      else
        var persons := match PersonIndex(s.persons, face.personId.value)
          case Some(j) => UpdatePerson(s.persons, s.persons[j].id, FaceIdsPatch(Without(s.persons[j].faceIds, faceId)), now)
          case None => s.persons;
        FaceStore(UpdateFace(s.faces, faceId, LinkPatch(None)), persons)
  }

  /** Unassigning keeps a consistent store consistent. */
  lemma UnassignKeepsConsistent(s: FaceStore, faceId: string, now: string)
    requires Consistent(s)
    ensures Consistent(UnassignFaceFromPerson(s, faceId, now))
  {
    var r := UnassignFaceFromPerson(s, faceId, now);
    match FaceIndex(s.faces, faceId)
    case None =>
    case Some(i) =>
      if Assigned(s.faces[i]) {
        assert forall a :: 0 <= a < |s.faces| && a != i ==> s.faces[a].id != faceId;
        assert UniqueFaceIds(r.faces) by {
          assert forall a :: 0 <= a < |s.faces| ==> r.faces[a].id == s.faces[a].id;
        }
        assert UniquePersonIds(r.persons) by {
          assert forall b :: 0 <= b < |s.persons| ==> r.persons[b].id == s.persons[b].id;
        }
      }
  }

  /** Assigning a face that names no existing person keeps a consistent store consistent, whether
      or not the target person exists. */
  lemma AssignUnlinkedKeepsConsistent(s: FaceStore, faceId: string, personId: string, now: string)
    requires Consistent(s)
    requires forall a, b :: 0 <= a < |s.faces| && 0 <= b < |s.persons| && s.faces[a].id == faceId ==>
      s.faces[a].personId != Some(s.persons[b].id)
    ensures Consistent(AssignFaceToPerson(s, faceId, personId, now))
  {
    var r := AssignFaceToPerson(s, faceId, personId, now);
    assert UniqueFaceIds(r.faces) by {
      assert |r.faces| == |s.faces| && forall a :: 0 <= a < |s.faces| ==> r.faces[a].id == s.faces[a].id;
    }
    assert UniquePersonIds(r.persons) by {
      assert |r.persons| == |s.persons| && forall b :: 0 <= b < |s.persons| ==> r.persons[b].id == s.persons[b].id;
    }
    forall a, b | 0 <= a < |r.faces| && 0 <= b < |r.persons|
      ensures r.faces[a].personId == Some(r.persons[b].id) <==> r.faces[a].id in r.persons[b].faceIds
    {
      if s.faces[a].id == faceId {
        assert FaceIndex(s.faces, faceId) == Some(a);
        assert faceId !in s.persons[b].faceIds;
      }
    }
  }

  /** Unassigning never lists a face twice either. */
  lemma UnassignKeepsFaceIdsDistinct(s: FaceStore, faceId: string, now: string)
    requires DistinctFaceLists(s.persons)
    ensures DistinctFaceLists(UnassignFaceFromPerson(s, faceId, now).persons)
  {
    match FaceIndex(s.faces, faceId)
    case None =>
    case Some(i) =>
      if Assigned(s.faces[i]) {
        match PersonIndex(s.persons, s.faces[i].personId.value)
        case None =>
        case Some(j) =>
          FilterKeepsNoDuplicates(s.persons[j].faceIds, (x: string) => x != faceId);
      }
  }

  /** Assigning an unassigned face to an existing person keeps a consistent store consistent. */
  lemma AssignKeepsConsistent(s: FaceStore, i: nat, j: nat, now: string)
    requires Consistent(s)
    requires i < |s.faces| && j < |s.persons| && s.faces[i].personId.None?
    ensures Consistent(AssignFaceToPerson(s, s.faces[i].id, s.persons[j].id, now))
  {
    AssignUnlinkedKeepsConsistent(s, s.faces[i].id, s.persons[j].id, now);
  }

  /** Deleting a person keeps a consistent store consistent. */
  lemma DeletePersonKeepsConsistent(s: FaceStore, id: string)
    requires Consistent(s)
    ensures Consistent(DeletePerson(s, id))
  {
    var r := DeletePerson(s, id);
    DeletePersonUnlinks(s, id);
    FilterKeepsDistinctIds(s.persons, id);
    assert UniqueFaceIds(r.faces) by {
      assert forall a :: 0 <= a < |s.faces| ==> r.faces[a].id == s.faces[a].id;
    }
    forall a, b | 0 <= a < |r.faces| && 0 <= b < |r.persons|
      ensures r.faces[a].personId == Some(r.persons[b].id) <==> r.faces[a].id in r.persons[b].faceIds
    {
      var p := r.persons[b];
      var j :| 0 <= j < |s.persons| && s.persons[j] == p;
      assert p.id != id;
    }
  }

  /** Filtering persons out by id keeps the others' ids distinct. */
  lemma {:induction false} FilterKeepsDistinctIds(persons: seq<Person>, id: string)
    requires UniquePersonIds(persons)
    ensures UniquePersonIds(Filter(persons, (q: Person) => q.id != id))
  {
    if |persons| > 0 {
      var rest := Filter(persons[1..], (q: Person) => q.id != id);
      FilterKeepsDistinctIds(persons[1..], id);
      assert forall k :: 0 <= k < |rest| ==> rest[k] in persons[1..] && rest[k].id != persons[0].id;
    }
  }

  /** Assigning to a person that does not exist still sets the face's `personId`: the face then
      names a person no list holds. */
  lemma AssignToMissingPerson(s: FaceStore, i: nat, personId: string, now: string)
    requires UniqueFaceIds(s.faces) && i < |s.faces|
    requires forall k :: 0 <= k < |s.persons| ==> s.persons[k].id != personId
    ensures AssignFaceToPerson(s, s.faces[i].id, personId, now).faces[i].personId == Some(personId)
    ensures AssignFaceToPerson(s, s.faces[i].id, personId, now).persons == s.persons
  {
    FaceIndexOfUnique(s.faces, i);
  }

  /** Reassigning a face that already has an owner leaves it in the old owner's list, so the
      store is no longer linked. */
  lemma ReassignLeavesStaleOwner(s: FaceStore, i: nat, jOld: nat, jNew: nat, now: string)
    requires Consistent(s)
    requires i < |s.faces| && jOld < |s.persons| && jNew < |s.persons| && jOld != jNew
    requires s.faces[i].personId == Some(s.persons[jOld].id)
    ensures var r := AssignFaceToPerson(s, s.faces[i].id, s.persons[jNew].id, now);
      s.faces[i].id in r.persons[jOld].faceIds && r.faces[i].personId == Some(s.persons[jNew].id) && !Linked(r)
  {
    var faceId := s.faces[i].id;
    var r := AssignFaceToPerson(s, faceId, s.persons[jNew].id, now);
    FaceIndexOfUnique(s.faces, i);
    assert PersonIndex(s.persons, s.persons[jNew].id) == Some(jNew);
    assert r.persons[jOld] == s.persons[jOld];
    assert r.faces[i].personId != Some(r.persons[jOld].id);
  }

  /** `getUnassignedFaces()` */
  function UnassignedFaces(faces: seq<Face>): (r: seq<Face>)
    ensures forall k :: 0 <= k < |r| ==> !Assigned(r[k]) && r[k] in faces
    ensures forall k :: 0 <= k < |faces| && !Assigned(faces[k]) ==> faces[k] in r
  {
    Filter(faces, (f: Face) => !Assigned(f))
  }

  /** `getFacesForPerson(personId)` */
  function FacesForPerson(faces: seq<Face>, personId: string): (r: seq<Face>)
    ensures forall k :: 0 <= k < |r| ==> r[k].personId == Some(personId) && r[k] in faces
    ensures forall k :: 0 <= k < |faces| && faces[k].personId == Some(personId) ==> faces[k] in r
  {
    Filter(faces, (f: Face) => f.personId == Some(personId))
  }

  /** Every face is listed as unassigned or under its own person, and an assigned face only under
      its person. */
  lemma EveryFaceListedOnce(faces: seq<Face>, k: nat)
    requires k < |faces|
    ensures faces[k] in UnassignedFaces(faces) <==> !Assigned(faces[k])
    ensures Assigned(faces[k]) ==> faces[k] in FacesForPerson(faces, faces[k].personId.value)
  {
  }

  /** Both lists keep the order of the faces: filtering a concatenation filters each part. */
  lemma FaceListsKeepOrder(xs: seq<Face>, ys: seq<Face>, personId: string)
    ensures UnassignedFaces(xs + ys) == UnassignedFaces(xs) + UnassignedFaces(ys)
    ensures FacesForPerson(xs + ys, personId) == FacesForPerson(xs, personId) + FacesForPerson(ys, personId)
  {
    FilterAppend(xs, ys, (f: Face) => !Assigned(f));
    FilterAppend(xs, ys, (f: Face) => f.personId == Some(personId));
  }

  /** `isFaceDetectionEnabled()`: the stored flag is exactly `true`. */
  function IsFaceDetectionEnabled(stored: Option<string>): (enabled: bool)
    ensures enabled <==> stored == Some("true")
  {
    stored == Some("true")
  }

  /** `setFaceDetectionEnabled(enabled)` stores `enabled.toString()`. */
  function SetFaceDetectionEnabled(enabled: bool): (stored: Option<string>)
    ensures IsFaceDetectionEnabled(stored) == enabled
  {
    Some(if enabled then "true" else "false")
  }

  /** `clearAllFaceData()` */
  function ClearAllFaceData(s: FaceStore): (r: FaceStore)
    ensures r.faces == [] && r.persons == []
  {
    FaceStore([], [])
  }
}

=== FILE: google.dfy ===
/** The Gemini vision adapter: `analyze` and `chat` against the Generative Language API. Its reply
    handling is Claude's after markdown fences are stripped. */
module GoogleAdapter {
  import opened Wrappers
  import opened Json
  import opened Text
  import opened AdapterTypes
  import opened Extract
  import opened Normalize
  import AdapterState
  import ImagePayload
  import ChatReply
  import ClaudeAdapter

  /** The result drawn from a successful reply's text: fences removed before the brace span is
      looked for; the fallback still quotes the reply as received. */
  function Interpret(content: string, parse: string -> Option<Value>): (r: AnalysisResult)
    ensures WellShaped(r)
  {
    match TryNormalize(StripFences(content), parse, CloudDefaults)
    case Some(r) => r
    case None => ReplyFallback(content)
  }

  /** Without backticks in the reply, Gemini and Claude read it alike. */
  lemma SameAsClaudeWithoutFences(content: string, parse: string -> Option<Value>)
    requires '`' !in content
    ensures Interpret(content, parse) == ClaudeAdapter.Interpret(content, parse)
  {
    StripFencesNoBacktick(content);
  }

  /** A reply wrapped in a JSON code block is read as its body would be by Claude. */
  lemma FencedReplyReadAsBody(body: string, parse: string -> Option<Value>)
    requires '`' !in body
    ensures TryNormalize(StripFences("```json\n" + body + "```"), parse, CloudDefaults)
      == TryNormalize(body, parse, CloudDefaults)
  {
    StripFencesOfFencedReply(body);
  }

  /** `analyze(image, model)`: the key check, then the image, then the request, whose rejection
      propagates unchanged; a failed status throws a TypeError on a `null`
      error body, otherwise the backend's message or `Gemini API error: <status>`. */
  function Analyze(c: AdapterState.Config, image: ImageInput, fetch: Fetch, parse: string -> Option<Value>)
    : (r: Result<AnalysisResult, Thrown>)
    ensures r.Success? <==>
      IsTruthy(AdapterState.KeyOf(c, Google)) && ImagePayload.Base64Image(image).Success? && Answered(fetch)
    ensures r.Success? ==> WellShaped(r.value)
    ensures AdapterState.KeyOf(c, Google).Undefined? ==> r == Failure(Error("Google API key not configured"))
    ensures IsTruthy(AdapterState.KeyOf(c, Google)) && ImagePayload.Base64Image(image).Success? && fetch.Rejected? ==>
      r == Failure(fetch.error)
    ensures IsTruthy(AdapterState.KeyOf(c, Google)) && ImagePayload.Base64Image(image).Success? && fetch.Responded? ==>
      (!fetch.ok && fetch.errorBody.ErrorField? ==>
        r == Failure(ApiError(fetch.errorBody.message, "Gemini API error: ", fetch.status))) &&
      (!fetch.ok && fetch.errorBody.NullError? ==> r == Failure(TypeFault)) &&
      (fetch.ok && fetch.body.Unreadable? ==> r == Failure(fetch.body.error)) &&
      (fetch.ok && fetch.body.NullBody? ==> r == Failure(TypeFault))
  {
    match AdapterState.KeyOf(c, Google)
    case TypeError => Failure(TypeFault)
    case key =>
      if !IsTruthy(key) then Failure(Error("Google API key not configured"))
      else match ImagePayload.Base64Image(image)
        case Failure(e) => Failure(e)
        case Success(_) =>
          match fetch
          case Rejected(e) => Failure(e)
          case Responded(ok, status, _, errorBody, body) =>
            if !ok then Failure(StatusError(errorBody, "Gemini API error: ", status))
            else match body
              case Unreadable(e) => Failure(e)
              case NullBody => Failure(TypeFault)
              case Reply(text) => Success(Interpret(text.GetOr(""), parse))
  }

  /** The conversation of `chat`: the history with assistant turns named `model`, then the question.
      No turn carries the role `assistant`, which Gemini does not know. */
  function ChatTurns(history: seq<ChatMessage>, question: Value): (turns: seq<ChatReply.Turn>)
    ensures |turns| == |history| + 1
    ensures turns[..|history|] == ChatReply.HistoryTurns(history, "model")
    ensures turns[|history|].role == "user"
    ensures forall i :: 0 <= i < |turns| ==> turns[i].role != "assistant"
  {
    ChatReply.HistoryTurns(history, "model") + [ChatReply.Turn("user", question)]
  }

  /** `chat(...)`: as Claude's, with Gemini's error prefix. */
  function Chat(c: AdapterState.Config, fetch: Fetch, parse: string -> Option<Value>): (r: Result<ChatResponse, Thrown>)
    ensures r.Success? <==> IsTruthy(AdapterState.KeyOf(c, Google)) && Answered(fetch)
    ensures r.Success? ==> r.value == ChatReply.MetadataReply(fetch.body.text.GetOr(""), parse)
    ensures fetch.Rejected? && IsTruthy(AdapterState.KeyOf(c, Google)) ==> r == Failure(fetch.error)
    ensures IsTruthy(AdapterState.KeyOf(c, Google)) && fetch.Responded? ==>
      (!fetch.ok && fetch.errorBody.ErrorField? ==>
        r == Failure(ApiError(fetch.errorBody.message, "Gemini API error: ", fetch.status))) &&
      (!fetch.ok && fetch.errorBody.NullError? ==> r == Failure(TypeFault)) &&
      (fetch.ok && fetch.body.Unreadable? ==> r == Failure(fetch.body.error)) &&
      (fetch.ok && fetch.body.NullBody? ==> r == Failure(TypeFault))
  {
    match AdapterState.KeyOf(c, Google)
    case TypeError => Failure(TypeFault)
    case key =>
      if !IsTruthy(key) then Failure(Error("Google API key not configured"))
      else match fetch
        case Rejected(e) => Failure(e)
        case Responded(ok, status, _, errorBody, body) =>
          if !ok then Failure(StatusError(errorBody, "Gemini API error: ", status))
          else match body
            case Unreadable(e) => Failure(e)
            case NullBody => Failure(TypeFault)
            case Reply(text) => Success(ChatReply.MetadataReply(text.GetOr(""), parse))
  }

  /** `isConfigured()` */
  function IsConfigured(c: AdapterState.Config): Result<bool, Thrown> {
    AdapterState.CloudConfigured(c, Google)
  }

  /** With a readable image and a successful reply, `analyze` succeeds exactly when the adapter
      reports itself configured. */
  lemma ConfiguredIffKeyAccepted(c: AdapterState.Config, image: ImageInput, fetch: Fetch, parse: string -> Option<Value>)
    requires !AdapterState.GetApiKeys(c).Null?
    requires ImagePayload.Base64Image(image).Success? && Answered(fetch)
    ensures IsConfigured(c).Success?
    ensures IsConfigured(c).value <==> Analyze(c, image, fetch, parse).Success?
  {
  }
}

=== FILE: image_chat.dfy ===
/** The chat about an analysed image: the history shown, and what sending a question does to it.
    The adapter's reply is a given outcome and the two timestamps are parameters. */
module ImageChat {
  import opened Wrappers
  import opened Json
  import opened Text
  import opened AdapterTypes
  import opened Storage
  import ImageDetailPanel

  /** The chat's state: the text being typed, whether a request is in flight, and the history. */
  datatype ChatState = ChatState(message: string, loading: bool, history: seq<ChatMessage>)

  /** The state the chat opens with: the image's stored history, or none. */
  function InitialState(image: StoredImage): (s: ChatState)
    ensures s.message == "" && !s.loading
    ensures image.chatHistory.Some? ==> s.history == image.chatHistory.value
    ensures image.chatHistory.None? ==> s.history == []
  {
    ChatState("", false, image.chatHistory.GetOr([]))
  }

  /** What the adapter is asked: the question and the history before it. */
  datatype Request = Request(question: string, history: seq<ChatMessage>)

  /** What a send leaves behind: the new state, the request made, the history handed to
      `onChatHistoryUpdate` and the update handed to `onMetadataUpdate`. */
  datatype Send = Send(state: ChatState, request: Option<Request>, historyUpdate: Option<seq<ChatMessage>>,
                       metadataUpdate: Option<Value>)

  /** The four reasons `handleSend` returns at once: blank input, a request in flight, an adapter
      without `chat`, an image without a result. */
  predicate Ignored(state: ChatState, hasChat: bool, image: StoredImage) {
    Trim(state.message) == "" || state.loading || !hasChat || image.result.None?
  }

  /** The assistant's turn for an outcome: the reply's message, or the error's text. */
  function ReplyContent(outcome: Result<ChatResponse, Thrown>, engineText: string): (content: Value)
    ensures outcome.Success? ==> content == outcome.value.message
    ensures outcome.Failure? && outcome.error.Error? ==> content == Str("Error: " + outcome.error.message)
    ensures outcome.Failure? && outcome.error.NonError? ==> content == Str("Error: " + "Failed to get response")
  {
    match outcome
    case Success(response) => response.message
    case Failure(e) => Str("Error: " + ErrorText(e, engineText, "Failed to get response"))
  }

  /** The history with a question and its answer appended. */
  function Exchange(history: seq<ChatMessage>, question: ChatMessage, answer: ChatMessage): (r: seq<ChatMessage>)
    ensures |r| == |history| + 2 && r[..|history|] == history
    ensures r[|history|] == question && r[|history| + 1] == answer
  {
    history + [question, answer]
  }

  /** `handleSend()`: the trimmed question is appended as a user turn, the adapter is asked with
      the history as it was, and the reply or the error is appended as an assistant turn. A
      truthy metadata update in the reply is passed on. */
  function HandleSend(state: ChatState, hasChat: bool, image: StoredImage, outcome: Result<ChatResponse, Thrown>,
                      sentAt: string, repliedAt: string, engineText: string): (r: Send)
    ensures Ignored(state, hasChat, image) ==> r == Send(state, None, None, None)
    ensures !Ignored(state, hasChat, image) ==>
      && r.request == Some(Request(Trim(state.message), state.history))
      && r.state.message == "" && !r.state.loading
      && |r.state.history| == |state.history| + 2
      && r.state.history[..|state.history|] == state.history
      && r.state.history[|state.history|] == ChatMessage(User, Str(Trim(state.message)), sentAt)
      && r.state.history[|state.history| + 1] == ChatMessage(Assistant, ReplyContent(outcome, engineText), repliedAt)
      && r.historyUpdate == Some(r.state.history)
    ensures r.metadataUpdate.Some? <==>
      && !Ignored(state, hasChat, image) && outcome.Success?
      && outcome.value.updatedMetadata.Some? && Truthy(outcome.value.updatedMetadata.value)
    ensures r.metadataUpdate.Some? ==> r.metadataUpdate == outcome.value.updatedMetadata
  {
    if Ignored(state, hasChat, image) then Send(state, None, None, None)
    else
      var question := Trim(state.message);
      var final := Exchange(state.history, ChatMessage(User, Str(question), sentAt),
                            ChatMessage(Assistant, ReplyContent(outcome, engineText), repliedAt));
      var update :=
        if outcome.Success? && outcome.value.updatedMetadata.Some? && Truthy(outcome.value.updatedMetadata.value)
        then outcome.value.updatedMetadata else None;
      Send(ChatState("", false, final), Some(Request(question, state.history)), Some(final), update)
  }

  /** A send never rewrites the past: the history before is a prefix of the history after, and a
      request that goes out grows it by exactly one question and one answer, error or not. */
  lemma HistoryOnlyGrows(state: ChatState, hasChat: bool, image: StoredImage, outcome: Result<ChatResponse, Thrown>,
                         sentAt: string, repliedAt: string, engineText: string)
    ensures var r := HandleSend(state, hasChat, image, outcome, sentAt, repliedAt, engineText);
      && |state.history| <= |r.state.history|
      && r.state.history[..|state.history|] == state.history
      && (r.request.Some? <==> |r.state.history| == |state.history| + 2)
      && (r.request.Some? ==> r.state.history[|state.history|].role == User && r.state.history[|state.history| + 1].role == Assistant)
  {
  }

  /** The detail panel stores the history the chat hands it, so a chat reopened on the stored
      record shows the same conversation. */
  lemma ReopenedChatShowsHistory(images: seq<StoredImage>, image: StoredImage, k: nat, state: ChatState, hasChat: bool,
                                 outcome: Result<ChatResponse, Thrown>, sentAt: string, repliedAt: string, engineText: string)
    requires !Ignored(state, hasChat, image)
    requires ImageDetailPanel.FirstWithImageId(images, image.id, k)
    ensures var r := HandleSend(state, hasChat, image, outcome, sentAt, repliedAt, engineText);
      var e := ImageDetailPanel.ChatHistoryUpdate(images, image, r.historyUpdate.value, Written);
      k < |e.images| && InitialState(e.images[k]).history == r.state.history
  {
  }
}

=== FILE: image_detail.dfy ===
/** The image detail panel's edits of an analysed image: removing and adding a tag, merging a chat
    metadata update into the result, and replacing the chat history. Each edit is written to the
    image store and handed to the page as the updated image. Without a result the panel renders
    nothing and no edit exists. */
module ImageDetailPanel {
  import opened Wrappers
  import opened Json
  import opened Text
  import opened Seqs
  import opened AdapterTypes
  import opened Storage

  /** What an edit leaves behind: the stored images, and the image passed to `onUpdate` (`None`
      when the edit did nothing or threw before reaching the store). */
  datatype Effect = Effect(images: seq<StoredImage>, shown: Option<StoredImage>)

  /** `tags.filter(t => t !== tag)`; `None` when `tags` is not an array and `filter` throws. */
  function TagsWithout(tags: Value, tag: string): (r: Option<Value>)
    ensures r.Some? <==> tags.Arr?
    ensures r.Some? ==> r.value.Arr? && Str(tag) !in r.value.items && |r.value.items| <= |tags.items|
    ensures r.Some? ==> forall i :: 0 <= i < |tags.items| && tags.items[i] != Str(tag) ==> tags.items[i] in r.value.items
    ensures r.Some? ==> forall i :: 0 <= i < |r.value.items| ==> r.value.items[i] in tags.items
  {
    if tags.Arr? then Some(Arr(Filter(tags.items, IsNot(Str(tag))))) else None
  }

  /** Removal keeps the remaining tags in their order: removing from a concatenation removes from
      each part. */
  lemma TagsWithoutKeepsOrder(xs: seq<Value>, ys: seq<Value>, tag: string)
    ensures TagsWithout(Arr(xs + ys), tag).value.items ==
      TagsWithout(Arr(xs), tag).value.items + TagsWithout(Arr(ys), tag).value.items
  {
    FilterAppend(xs, ys, IsNot(Str(tag)));
  }

  /** A one-character string, what spreading a string yields per character. */
  function CharTag(c: char): Value {
    Str([c])
  }

  /** `[...tags, tag]`: an array is extended at the end; a string spreads into its characters
      first; any other value is not iterable and the spread throws (`None`). */
  function TagsWith(tags: Value, tag: string): (r: Option<Value>)
    ensures r.Some? <==> tags.Arr? || tags.Str?
    ensures tags.Arr? ==> r == Some(Arr(tags.items + [Str(tag)]))
    ensures tags.Str? ==>
      && r.Some? && r.value.Arr? && |r.value.items| == |tags.s| + 1
      && forall i :: 0 <= i < |tags.s| ==> r.value.items[i] == Str([tags.s[i]])
    ensures r.Some? ==> r.value.Arr? && |r.value.items| >= 1 && r.value.items[|r.value.items| - 1] == Str(tag)
  {
    match tags
    case Arr(items) => Some(Arr(items + [Str(tag)]))
    case Str(s) => Some(Arr(Map(s, CharTag) + [Str(tag)]))
    case _ => None
  }

  /** Adding a tag that was absent and then removing it gives the tag list back. */
  lemma AddThenRemoveTag(items: seq<Value>, tag: string)
    requires Str(tag) !in items
    ensures TagsWithout(TagsWith(Arr(items), tag).value, tag) == Some(Arr(items))
  {
    FilterAppend(items, [Str(tag)], IsNot(Str(tag)));
    FilterKeepsAll(items, IsNot(Str(tag)));
    assert [Str(tag)][1..] == [];
    assert Filter([Str(tag)], IsNot(Str(tag))) == [];
    assert items + [] == items;
  }

  /** Writes `result` as the image's result and shows the image with it. */
  function Publish(images: seq<StoredImage>, image: StoredImage, result: AnalysisResult, w: Write): (e: Effect)
    ensures e.shown == Some(image.(result := Some(result)))
    ensures |e.images| == |images|
  {
    Effect(UpdateImage(images, image.id, ResultPatch(Some(result)), w), Some(image.(result := Some(result))))
  }

  /** `handleRemoveTag(tag)`: every tag equal to `tag` is dropped, the rest of the result is kept. */
  function RemoveTag(images: seq<StoredImage>, image: StoredImage, tag: string, w: Write): (e: Effect)
    ensures image.result.None? || !image.result.value.tags.Arr? ==> e == Effect(images, None)
    ensures image.result.Some? && image.result.value.tags.Arr? ==>
      && e.shown.Some? && e.shown.value.result.Some?
      && e.shown.value == image.(result := e.shown.value.result)
      && e.shown.value.result.value.tags.Arr?
      && Str(tag) !in e.shown.value.result.value.tags.items
      && e.shown.value.result.value == image.result.value.(tags := e.shown.value.result.value.tags)
  {
    match image.result
    case None => Effect(images, None)
    case Some(result) =>
      match TagsWithout(result.tags, tag)
      case None => Effect(images, None)
      case Some(tags) => Publish(images, image, result.(tags := tags), w)
  }

  /** `handleAddTag()`: blank input does nothing; otherwise the trimmed tag is appended, even when
      the list already holds it. */
  function AddTag(images: seq<StoredImage>, image: StoredImage, newTag: string, w: Write): (e: Effect)
    ensures image.result.None? || Trim(newTag) == "" ==> e == Effect(images, None)
    ensures image.result.Some? && Trim(newTag) != "" && image.result.value.tags.Arr? ==>
      e.shown == Some(image.(result := Some(image.result.value.(
        tags := Arr(image.result.value.tags.items + [Str(Trim(newTag))])))))
    ensures image.result.Some? && Trim(newTag) != "" && !image.result.value.tags.Arr? && !image.result.value.tags.Str? ==>
      e == Effect(images, None)
  {
    match image.result
    case None => Effect(images, None)
    case Some(result) =>
      var tag := Trim(newTag);
      if tag == "" then Effect(images, None)
      else match TagsWith(result.tags, tag)
        case None => Effect(images, None)
        case Some(tags) => Publish(images, image, result.(tags := tags), w)
  }

  /** `onMetadataUpdate(updates)`: a shallow merge, the fields present in `updates` override and
      the others are kept. */
  function MetadataUpdate(images: seq<StoredImage>, image: StoredImage, updates: Value, w: Write): (e: Effect)
    ensures image.result.None? ==> e == Effect(images, None)
    ensures image.result.Some? ==>
      && e.shown.Some? && e.shown.value.result.Some?
      && e.shown.value == image.(result := e.shown.value.result)
    ensures image.result.Some? && !updates.Obj? ==> e.shown == Some(image)
    ensures image.result.Some? && updates.Obj? ==>
      var before := image.result.value;
      var after := e.shown.value.result.value;
      && (if "tags" in updates.fields then after.tags == updates.fields["tags"] else after.tags == before.tags)
      && (if "objects" in updates.fields then after.objects == updates.fields["objects"] else after.objects == before.objects)
      && (if "colors" in updates.fields then after.colors == updates.fields["colors"] else after.colors == before.colors)
      && (if "mood" in updates.fields then after.mood == updates.fields["mood"] else after.mood == before.mood)
      && (if "scene" in updates.fields then after.scene == updates.fields["scene"] else after.scene == before.scene)
      && (if "description" in updates.fields then after.description == updates.fields["description"] else after.description == before.description)
      && (if "suggestedTitle" in updates.fields then after.suggestedTitle == updates.fields["suggestedTitle"] else after.suggestedTitle == before.suggestedTitle)
  {
    match image.result
    case None => Effect(images, None)
    case Some(result) =>
      MergeLaws(result, result, updates);
      Publish(images, image, Merge(result, PartialOf(updates)), w)
  }

  /** `onChatHistoryUpdate(history)`: only the chat history changes. */
  function ChatHistoryUpdate(images: seq<StoredImage>, image: StoredImage, history: seq<ChatMessage>, w: Write): (e: Effect)
    ensures image.result.None? ==> e == Effect(images, None)
    ensures image.result.Some? ==> e.shown == Some(image.(chatHistory := Some(history)))
    ensures |e.images| == |images|
    ensures image.result.Some? && w.Written? ==> forall k :: 0 <= k < |images| ==>
      e.images[k] == if images[k].id == image.id && (forall j :: 0 <= j < k ==> images[j].id != image.id)
                     then images[k].(chatHistory := Some(history)) else images[k]
  {
    match image.result
    case None => Effect(images, None)
    case Some(_) => Effect(UpdateImage(images, image.id, HistoryPatch(history), w), Some(image.(chatHistory := Some(history))))
  }

  /** The first stored record with the image's id. */
  predicate FirstWithImageId(images: seq<StoredImage>, id: string, k: int) {
    0 <= k < |images| && images[k].id == id && forall j :: 0 <= j < k ==> images[j].id != id
  }

  /** The store holds what an edit showed: when the write succeeds, the first record with the
      image's id carries the shown result and every other record is untouched; a refused write
      leaves the store as it was. */
  ghost predicate Persisted(images: seq<StoredImage>, image: StoredImage, e: Effect, w: Write) {
    e.shown.Some? ==>
      && |e.images| == |images|
      && (w.Refused? ==> e.images == images)
      && (w.Written? ==> forall k :: FirstWithImageId(images, image.id, k) ==> e.images[k].result == e.shown.value.result)
      && (w.Written? ==> forall k :: 0 <= k < |images| && !FirstWithImageId(images, image.id, k) ==> e.images[k] == images[k])
  }

  /** Publishing a result stores what it shows. */
  lemma PublishPersists(images: seq<StoredImage>, image: StoredImage, result: AnalysisResult, w: Write)
    ensures Persisted(images, image, Publish(images, image, result, w), w)
  {
  }

  /** Every result edit stores and shows the same new result. */
  lemma EditsPersistWhatIsShown(images: seq<StoredImage>, image: StoredImage, tag: string, newTag: string, updates: Value, w: Write)
    ensures Persisted(images, image, RemoveTag(images, image, tag, w), w)
    ensures Persisted(images, image, AddTag(images, image, newTag, w), w)
    ensures Persisted(images, image, MetadataUpdate(images, image, updates, w), w)
  {
    var removed := RemoveTag(images, image, tag, w);
    if removed.shown.Some? {
      assert removed == Publish(images, image, removed.shown.value.result.value, w);
      PublishPersists(images, image, removed.shown.value.result.value, w);
    }
    var added := AddTag(images, image, newTag, w);
    if added.shown.Some? {
      assert added == Publish(images, image, added.shown.value.result.value, w);
      PublishPersists(images, image, added.shown.value.result.value, w);
    }
    var merged := MetadataUpdate(images, image, updates, w);
    if merged.shown.Some? {
      assert merged == Publish(images, image, merged.shown.value.result.value, w);
      PublishPersists(images, image, merged.shown.value.result.value, w);
    }
  }
}

=== FILE: image_payload.dfy ===
/** How each adapter turns its image argument (a browser `File` or a string) into what it sends. */
module ImagePayload {
  import opened Wrappers
  import opened Text
  import opened AdapterTypes
  import opened Extract

  /** `parseDataUrl` of the Claude and Gemini adapters: the split data URL, or the whole text as
      PNG data when it does not match. */
  function ParseDataUrl(s: string): (d: DataUrl)
    ensures MatchDataUrl(s).Some? ==> d == MatchDataUrl(s).value
    ensures MatchDataUrl(s).None? ==> d == DataUrl(s, "image/png")
  {
    match MatchDataUrl(s)
    case Some(d) => d
    case None => DataUrl(s, "image/png")
  }

  /** `fileToBase64` of the Claude and Gemini adapters: the file's data URL split, rejecting with
      `Invalid data URL` when it does not match and with the reader's error event when reading
      fails. */
  function FileToBase64(f: File): (r: Result<DataUrl, Thrown>)
    ensures f.dataUrl.None? ==> r == Failure(NonError)
    ensures f.dataUrl.Some? && MatchDataUrl(f.dataUrl.value).None? ==> r == Failure(Error("Invalid data URL"))
    ensures r.Success? ==> f.dataUrl.Some? && Some(r.value) == MatchDataUrl(f.dataUrl.value)
  {
    match f.dataUrl
    case None => Failure(NonError)
    case Some(u) =>
      match MatchDataUrl(u)
      case Some(d) => Success(d)
      case None => Failure(Error("Invalid data URL"))
  }

  /** The image argument of the Claude and Gemini `analyze`: a file is read, a `data:` string is
      split, any other string is refused with `Invalid image format`. */
  function Base64Image(image: ImageInput): (r: Result<DataUrl, Thrown>)
    ensures image.TextImage? ==> (r.Success? <==> StartsWith(image.text, "data:"))
    ensures image.TextImage? && !StartsWith(image.text, "data:") ==> r == Failure(Error("Invalid image format"))
  {
    match image
    case FileImage(f) => FileToBase64(f)
    case TextImage(t) =>
      if StartsWith(t, "data:") then Success(ParseDataUrl(t)) else Failure(Error("Invalid image format"))
  }

  /** A file whose data URL is well formed is sent as exactly its media type and data. */
  lemma FileRoundTrip(name: string, mediaType: string, data: string)
    requires |mediaType| > 0 && |data| > 0
    requires NoLineTerminator(mediaType) && NoLineTerminator(data) && ';' !in data
    ensures Base64Image(FileImage(File(name, Some("data:" + mediaType + Base64Marker + data)))) ==
      Success(DataUrl(data, mediaType))
  {
    DataUrlRoundTrip(mediaType, data);
  }

  /** The image argument of the OpenAI `analyze`: a file becomes its data URL, any string is sent
      as it is (a data URL or a plain URL alike). */
  function ImageUrl(image: ImageInput): (r: Result<string, Thrown>)
    ensures image.TextImage? ==> r == Success(image.text)
    ensures image.FileImage? ==> (r.Success? <==> image.file.dataUrl.Some?)
  {
    match image
    case FileImage(f) => (
      match f.dataUrl
      case None => Failure(NonError)
      case Some(u) => Success(u))
    case TextImage(t) => Success(t)
  }

  /** The image argument of the Ollama `analyze`: the field after the first comma of a data URL
      (of the file, or of a `data:` string), `undefined` when there is no comma; any other string
      is taken to be base64 already. */
  function OllamaImage(image: ImageInput): (r: Result<Option<string>, Thrown>)
    ensures image.TextImage? && !StartsWith(image.text, "data:") ==> r == Success(Some(image.text))
    ensures image.TextImage? && StartsWith(image.text, "data:") ==> r == Success(SecondCommaField(image.text))
    ensures r.Failure? <==> image.FileImage? && image.file.dataUrl.None?
  {
    match image
    case FileImage(f) => (
      match f.dataUrl
      case None => Failure(NonError)
      case Some(u) => Success(SecondCommaField(u)))
    case TextImage(t) =>
      if StartsWith(t, "data:") then Success(SecondCommaField(t)) else Success(Some(t))
  }

  /** A data URL with a single comma yields exactly its base64 data for Ollama. */
  lemma OllamaImageOfDataUrl(head: string, data: string)
    requires StartsWith(head, "data:") && ',' !in head && ',' !in data
    ensures OllamaImage(TextImage(head + "," + data)) == Success(Some(data))
  {
    assert (head + "," + data)[..5] == head[..5];
    SecondCommaFieldOfDataUrl(head, data);
  }
}

=== FILE: json.dfy ===
/** The JSON values `JSON.parse` can produce, and the JavaScript operations the modelled code
    applies to them: truthiness, property access, `Array.isArray` and `a || b`. */
module Json {

  /** A parsed JSON value. Numbers are reals; duplicate object keys were already resolved
      by the parser, so an object is a map from its keys to their values. */
  datatype Value =
    | Null
    | Bool(b: bool)
    | Num(n: real)
    | Str(s: string)
    | Arr(items: seq<Value>)
    | Obj(fields: map<string, Value>)

  /** JavaScript truthiness: `null`, `false`, `0` and `""` are falsy, every array and object is truthy. */
  predicate Truthy(v: Value) {
    match v
    case Null => false
    case Bool(b) => b
    case Num(n) => n != 0.0
    case Str(s) => s != ""
    case Arr(_) => true
    case Obj(_) => true
  }

  /** The outcome of reading `v.key`: reading a property of `null` throws a TypeError,
      a missing property reads as `undefined`. */
  datatype Lookup = TypeError | Undefined | Found(value: Value)

  /** `v.key` for the field names the adapters read (`tags`, `message`, `models`, ...): none of
      them is a property of a JavaScript string, number, boolean or array, so on those it is `undefined`. */
  function Get(v: Value, key: string): (l: Lookup)
    ensures l.TypeError? <==> v.Null?
    ensures l.Found? <==> v.Obj? && key in v.fields
    ensures l.Found? ==> l.value == v.fields[key]
  {
    match v
    case Null => TypeError
    case Obj(m) => if key in m then Found(m[key]) else Undefined
    case _ => Undefined
  }

  /** The looked-up value is present and truthy. */
  predicate IsTruthy(l: Lookup) {
    l.Found? && Truthy(l.value)
  }

  /** The looked-up value is an array (`Array.isArray`). */
  predicate IsArray(l: Lookup) {
    l.Found? && l.value.Arr?
  }

  /** `l || default` on a successful property read. */
  function OrElse(l: Lookup, default: Value): (r: Value)
    ensures Truthy(default) ==> Truthy(r)
  {
    if IsTruthy(l) then l.value else default
  }

  /** `Array.isArray(l) ? l : default` */
  function ArrayOr(l: Lookup, default: Value): (r: Value)
    ensures default.Arr? ==> r.Arr?
  {
    if IsArray(l) then l.value else default
  }
}

=== FILE: mermaid.dfy ===
/** Mermaid flowchart text from a diagram description: an optional header line, one line per
    node, one line per connection, joined by newlines. Shapes, connection types and the diagram
    type are strings as parsed; names outside the known tables fall back to a rectangle and a
    plain arrow. */
module Mermaid {
  import opened Wrappers
  import opened Text
  import opened Seqs

  /** A node and a connection; `caption` is the source's `label`. */
  datatype Node = Node(id: string, caption: string, shape: string)

  datatype Connection = Connection(from: string, to: string, caption: Option<string>, kind: string)

  datatype Diagram = Diagram(kind: string, direction: string, nodes: seq<Node>, connections: seq<Connection>)

  /** The closing counterpart of an opening delimiter character. */
  function MirrorChar(c: char): char {
    match c
    case '[' => ']'
    case '(' => ')'
    case '{' => '}'
    case _ => c
  }

  /** The closing delimiter matching an opening one: reversed, each bracket closed. */
  function Mirror(s: string): (r: string)
    ensures |r| == |s|
  {
    if |s| == 0 then "" else Mirror(s[1..]) + [MirrorChar(s[0])]
  }

  /** The opening delimiters of the six shapes; anything else opens a rectangle. */
  function ShapeStart(shape: string): (r: string)
    ensures 1 <= |r| <= 2 && r[0] in "[({"
    ensures shape !in ["rounded", "circle", "diamond", "hexagon", "parallelogram"] ==> r == "["
  {
    match shape
    case "rectangle" => "["
    case "rounded" => "("
    case "circle" => "(("
    case "diamond" => "{"
    case "hexagon" => "{{"
    case "parallelogram" => "[/"
    case _ => "["
  }

  /** Every shape is closed by the mirror image of its opening delimiter. */
  function ShapeEnd(shape: string): (r: string)
    ensures r == Mirror(ShapeStart(shape))
  {
    match shape
    case "rectangle" => "]"
    case "rounded" => ")"
    case "circle" => "))"
    case "diamond" => "}"
    case "hexagon" => "}}"
    case "parallelogram" => "/]"
    case _ => "]"
  }

  /** The six shapes have six different delimiter pairs. */
  lemma ShapesDistinct()
    ensures var names := ["rectangle", "rounded", "circle", "diamond", "hexagon", "parallelogram"];
      forall i, j :: 0 <= i < j < |names| ==> ShapeStart(names[i]) != ShapeStart(names[j])
  {
  }

  /** The edge of a connection type: `-->`, `-..->` or `==>`, anything else a plain arrow. Each
      ends in `>` and holds neither a space nor the label delimiters `|` and `"`. */
  function Arrow(kind: string): (r: string)
    ensures |r| >= 3 && r[|r| - 1] == '>'
    ensures forall i :: 0 <= i < |r| ==> r[i] != ' ' && r[i] != '|' && r[i] != '"'
    ensures kind != "dotted" && kind != "thick" ==> r == "-->"
  {
    match kind
    case "arrow" => "-->"
    case "dotted" => "-..->"
    case "thick" => "==>"
    case _ => "-->"
  }

  const Indent := "    "

  /** `    id` + opening delimiter + `"label"` + closing delimiter */
  function NodeLine(n: Node): string {
    Indent + n.id + ShapeStart(n.shape) + "\"" + n.caption + "\"" + ShapeEnd(n.shape)
  }

  /** A label is written only when truthy, that is present and non-empty. */
  function ConnectionLine(c: Connection): string {
    if c.caption.Some? && c.caption.value != "" then Indent + c.from + " " + Arrow(c.kind) + "|\"" + c.caption.value + "\"| " + c.to
    else Indent + c.from + " " + Arrow(c.kind) + " " + c.to
  }

  /** The header: `flowchart <direction>` for a flowchart, nothing for the other types. */
  function Header(d: Diagram): (h: seq<string>)
    ensures |h| <= 1
    ensures |h| == 1 <==> d.kind == "flowchart"
  {
    if d.kind == "flowchart" then ["flowchart " + d.direction] else []
  }

  /** The lines of the diagram's text. */
  function Lines(d: Diagram): seq<string> {
    Header(d) + Map(d.nodes, NodeLine) + Map(d.connections, ConnectionLine)
  }

  /** The lines are the header, then the nodes in order, then the connections in order. */
  lemma LinesInOrder(d: Diagram)
    ensures var h := |Header(d)|;
      |Lines(d)| == h + |d.nodes| + |d.connections|
      && (forall i :: 0 <= i < |d.nodes| ==> Lines(d)[h + i] == NodeLine(d.nodes[i]))
      && (forall j :: 0 <= j < |d.connections| ==> Lines(d)[h + |d.nodes| + j] == ConnectionLine(d.connections[j]))
  {
  }

  /** `generateMermaidCode(diagram)`: the lines joined by newlines, no trailing newline. */
  function GenerateMermaidCode(d: Diagram): (code: string)
    ensures Lines(d) == [] ==> code == ""
    ensures d.kind == "flowchart" ==> StartsWith(code, "flowchart " + d.direction)
  {
    var lines := Lines(d);
    if d.kind == "flowchart" then
      JoinStartsWithFirst(lines, "\n");
      Join(lines, "\n")
    else Join(lines, "\n")
  }

  /** A join begins with its first part. */
  lemma JoinStartsWithFirst(parts: seq<string>, sep: string)
    requires |parts| >= 1
    ensures StartsWith(Join(parts, sep), parts[0])
  {
    if |parts| > 1 {
      assert Join(parts, sep) == parts[0] + (sep + Join(parts[1..], sep));
    }
  }

  /** No text of the diagram holds a newline. */
  predicate SingleLineTexts(d: Diagram) {
    && '\n' !in d.direction
    && (forall i :: 0 <= i < |d.nodes| ==> '\n' !in d.nodes[i].id && '\n' !in d.nodes[i].caption)
    && (forall j :: 0 <= j < |d.connections| ==>
          '\n' !in d.connections[j].from && '\n' !in d.connections[j].to
          && (d.connections[j].caption.Some? ==> '\n' !in d.connections[j].caption.value))
  }

  lemma NodeLineSingle(n: Node)
    requires '\n' !in n.id && '\n' !in n.caption
    ensures '\n' !in NodeLine(n)
  {
    assert '\n' !in ShapeStart(n.shape) && '\n' !in ShapeEnd(n.shape);
  }

  lemma ConnectionLineSingle(c: Connection)
    requires '\n' !in c.from && '\n' !in c.to && (c.caption.Some? ==> '\n' !in c.caption.value)
    ensures '\n' !in ConnectionLine(c)
  {
    assert '\n' !in Arrow(c.kind);
  }

  /** No line of a diagram whose texts are single lines holds a newline. */
  lemma LineSingle(d: Diagram, i: nat)
    requires SingleLineTexts(d) && i < |Lines(d)|
    ensures '\n' !in Lines(d)[i]
  {
    LinesInOrder(d);
    var h := |Header(d)|;
    if i < h {
      HeaderLineSingle(d, i);
    } else if i < h + |d.nodes| {
      NodeLineAtSingle(d, i - h);
    } else {
      ConnectionLineAtSingle(d, i - h - |d.nodes|);
    }
  }

  lemma HeaderLineSingle(d: Diagram, i: nat)
    requires '\n' !in d.direction && i < |Header(d)|
    ensures i < |Lines(d)| && '\n' !in Lines(d)[i]
  {
    var line := "flowchart " + d.direction;
    assert '\n' !in "flowchart ";
    assert Header(d) == [line];
    assert Lines(d)[i] == line;
  }

  lemma NodeLineAtSingle(d: Diagram, n: nat)
    requires SingleLineTexts(d) && n < |d.nodes|
    ensures |Header(d)| + n < |Lines(d)| && '\n' !in Lines(d)[|Header(d)| + n]
  {
    LinesInOrder(d);
    NodeLineSingle(d.nodes[n]);
  }

  lemma ConnectionLineAtSingle(d: Diagram, c: nat)
    requires SingleLineTexts(d) && c < |d.connections|
    ensures |Header(d)| + |d.nodes| + c < |Lines(d)| && '\n' !in Lines(d)[|Header(d)| + |d.nodes| + c]
  {
    LinesInOrder(d);
    ConnectionLineSingle(d.connections[c]);
  }

  /** Splitting the text on newlines gives back its lines, when no text holds a newline and there
      is at least one line. */
  lemma LinesRoundTrip(d: Diagram)
    requires SingleLineTexts(d) && |Lines(d)| >= 1
    ensures SplitOn(GenerateMermaidCode(d), '\n') == Lines(d)
  {
    var lines := Lines(d);
    forall i | 0 <= i < |lines| ensures '\n' !in lines[i] {
      LineSingle(d, i);
    }
    SplitJoin(lines, '\n');
  }
}

=== FILE: normalize.dfy ===
/** The normalisation every vision adapter applies to a parsed reply: keep each list field that is
    an array and each text field that is truthy, and fill the rest from fixed defaults. */
module Normalize {
  import opened Wrappers
  import opened Json
  import opened Text
  import opened AdapterTypes
  import Extract

  /** A JSON array of strings. */
  function StrList(xs: seq<string>): (v: Value)
    ensures v.Arr? && |v.items| == |xs|
    ensures forall i :: 0 <= i < |xs| ==> v.items[i] == Str(xs[i])
  {
    if |xs| == 0 then Arr([]) else Arr([Str(xs[0])] + StrList(xs[1..]).items)
  }

  /** The colour swatch used when a reply has no colour list. */
  const Gray: Value :=
    Obj(map["hex" := Str("#888888"), "name" := Str("Gray"), "percentage" := Num(100.0)])

  /** A detected object entry `{ name, confidence }`. */
  function DetectedObject(name: string, confidence: real): Value {
    Obj(map["name" := Str(name), "confidence" := Num(confidence)])
  }

  /** The defaults of the OpenAI, Claude and Gemini adapters for fields a parsed reply lacks. */
  const CloudDefaults: AnalysisResult := AnalysisResult(
    StrList(["image"]), Arr([]), Arr([Gray]),
    Str("neutral"), Str("unknown"), Str("No description"), Str("Untitled"))

  /** The Ollama adapter's defaults: one unknown object, and the first 200 characters of the raw
      reply as the description. */
  function OllamaDefaults(response: string): AnalysisResult {
    AnalysisResult(
      StrList(["image"]), Arr([DetectedObject("unknown", 0.5)]), Arr([Gray]),
      Str("neutral"), Str("unknown"), Str(Take(response, 200)), Str("Analyzed Image"))
  }

  /** The Claude and Gemini result when the reply holds no usable JSON: fixed tags, the first
      300 characters of the reply as description. */
  function ReplyFallback(content: string): (r: AnalysisResult)
    ensures WellShaped(r)
    ensures r.tags == StrList(["image", "analyzed"])
    ensures content != "" ==> r.description == Str(Take(content, 300))
  {
    AnalysisResult(
      StrList(["image", "analyzed"]), Arr([]), Arr([Gray]), Str("neutral"), Str("unknown"),
      Str(if content != "" then Take(content, 300) else "Image analyzed"), Str("Analyzed Image"))
  }

  /** `kept` is the read list field when it is an array (`Array.isArray`), else `default`. */
  predicate KeepsArray(l: Lookup, kept: Value, default: Value) {
    && (IsArray(l) ==> kept == l.value)
    && (!IsArray(l) ==> kept == default)
  }

  /** `kept` is the read text field when it is truthy (`||`), else `default`. */
  predicate KeepsTruthy(l: Lookup, kept: Value, default: Value) {
    && (IsTruthy(l) ==> kept == l.value)
    && (!IsTruthy(l) ==> kept == default)
  }

  /** The result built from a parsed reply. Reading a field of `null` throws (`None`); any other
      value yields a result whose list fields are the parsed arrays where there are arrays and
      whose text fields are the parsed values where they are truthy, defaults elsewhere. */
  function Coerce(parsed: Value, d: AnalysisResult): (r: Option<AnalysisResult>)
    ensures r.None? <==> parsed.Null?
    ensures r.Some? && WellShaped(d) ==> WellShaped(r.value)
    ensures r.Some? && parsed.Obj? && "tags" in parsed.fields && parsed.fields["tags"].Arr? ==>
      r.value.tags == parsed.fields["tags"]
    ensures r.Some? && !IsArray(Get(parsed, "tags")) ==> r.value.tags == d.tags
    ensures r.Some? && !IsTruthy(Get(parsed, "description")) ==> r.value.description == d.description
    ensures r.Some? && !parsed.Obj? ==> r == Some(d)
    ensures r.Some? ==>
      && KeepsArray(Get(parsed, "tags"), r.value.tags, d.tags)
      && KeepsArray(Get(parsed, "objects"), r.value.objects, d.objects)
      && KeepsArray(Get(parsed, "colors"), r.value.colors, d.colors)
    ensures r.Some? ==>
      && KeepsTruthy(Get(parsed, "mood"), r.value.mood, d.mood)
      && KeepsTruthy(Get(parsed, "scene"), r.value.scene, d.scene)
      && KeepsTruthy(Get(parsed, "description"), r.value.description, d.description)
      && KeepsTruthy(Get(parsed, "suggestedTitle"), r.value.suggestedTitle, d.suggestedTitle)
  {
    if parsed.Null? then None
    else Some(AnalysisResult(
      ArrayOr(Get(parsed, "tags"), d.tags),
      ArrayOr(Get(parsed, "objects"), d.objects),
      ArrayOr(Get(parsed, "colors"), d.colors),
      OrElse(Get(parsed, "mood"), d.mood),
      OrElse(Get(parsed, "scene"), d.scene),
      OrElse(Get(parsed, "description"), d.description),
      OrElse(Get(parsed, "suggestedTitle"), d.suggestedTitle)))
  }

  /** A well-shaped result survives serialisation and normalisation unchanged, whatever the defaults. */
  lemma CoerceRoundTrip(r: AnalysisResult, d: AnalysisResult)
    requires WellShaped(r)
    ensures Coerce(ToJson(r), d) == Some(r)
  {
  }

  /** Normalisation is idempotent: a normalised result, serialised, normalises to itself. */
  lemma CoerceIdempotent(parsed: Value, d: AnalysisResult)
    requires WellShaped(d) && !parsed.Null?
    ensures Coerce(ToJson(Coerce(parsed, d).value), d) == Coerce(parsed, d)
  {
    CoerceRoundTrip(Coerce(parsed, d).value, d);
  }

  /** The `try` block of `analyze`: find the brace span of the (cleaned) reply, parse it and
      normalise it. `None` means the block threw: no span, a span `JSON.parse` rejects, or `null`. */
  function TryNormalize(text: string, parse: string -> Option<Value>, d: AnalysisResult): (r: Option<AnalysisResult>)
    ensures Extract.BraceSpan(text).None? ==> r.None?
    ensures r.Some? && WellShaped(d) ==> WellShaped(r.value)
    ensures Extract.BraceSpan(text).Some? ==>
      var parsed := parse(Extract.BraceSpan(text).value);
      && (parsed.None? ==> r.None?)
      && (parsed.Some? ==> r == Coerce(parsed.value, d))
    ensures r.None? <==>
      || Extract.BraceSpan(text).None?
      || parse(Extract.BraceSpan(text).value).None?
      || parse(Extract.BraceSpan(text).value) == Some(Null)
  {
    match Extract.BraceSpan(text)
    case None => None
    case Some(span) =>
      match parse(span)
      case None => None
      case Some(v) => Coerce(v, d)
  }

  /** A reply whose brace span parses to a well-shaped result yields exactly that result. */
  lemma TryNormalizeKeepsWellShaped(text: string, parse: string -> Option<Value>, d: AnalysisResult, r: AnalysisResult)
    requires Extract.BraceSpan(text).Some? && parse(Extract.BraceSpan(text).value) == Some(ToJson(r))
    requires WellShaped(r)
    ensures TryNormalize(text, parse, d) == Some(r)
  {
    CoerceRoundTrip(r, d);
  }

  /** The defaults themselves are well shaped. */
  lemma DefaultsWellShaped(response: string)
    requires Contains(response, "{")
    ensures WellShaped(CloudDefaults)
    ensures WellShaped(OllamaDefaults(response))
  {
    var k :| 0 <= k <= |response| && OccursAt(response, "{", k);
    assert |Take(response, 200)| > 0;
  }
}

=== FILE: ollama.dfy ===
/** The Ollama adapter: a local server, no key, plain-text replies that may embed JSON. */
module OllamaAdapter {
  import opened Wrappers
  import opened Json
  import opened Text
  import opened AdapterTypes
  import opened Extract
  import opened Normalize
  import AdapterState
  import ImagePayload

  /** The adapter's own model list. */
  const AdapterModels: seq<string> := ["llava:latest", "llama3.2-vision:latest", "minicpm-v:latest"]

  /** The model families counted as vision-capable. */
  const VisionFamilies: seq<string> := ["llava", "bakllava", "llava-llama3", "minicpm-v", "llama3.2-vision"]

  /** `checkOllama()`: the version endpoint answered with a success status in time. */
  function CheckOllama(version: Fetch): (up: bool)
    ensures up <==> version.Responded? && version.ok
  {
    version.Responded? && version.ok
  }

  /** A model name that mentions a vision family: a string containing one, or an array holding
      one as an element (`includes` on an array compares elements). */
  predicate VisionName(name: Value) {
    match name
    case Str(s) => exists j :: 0 <= j < |VisionFamilies| && Contains(s, VisionFamilies[j])
    case Arr(xs) => exists j :: 0 <= j < |VisionFamilies| && Str(VisionFamilies[j]) in xs
    case _ => false
  }

  /** `visionModels.some(v => m.name.includes(v))` for one listed model, or `None` when it throws:
      only a string or an array name has `includes`; a missing name, `null`, a number or an
      object does not. */
  function IsVisionModel(m: Value): (r: Option<bool>)
    ensures r.Some? <==> Get(m, "name").Found? && (Get(m, "name").value.Str? || Get(m, "name").value.Arr?)
    ensures r.Some? ==> r.value == VisionName(Get(m, "name").value)
  {
    match Get(m, "name")
    case Found(n) => if n.Str? || n.Arr? then Some(VisionName(n)) else None
    case _ => None
  }

  /** `models.filter(isVision).map(m => m.name)`, or `None` when some entry throws. Every name kept
      mentions a vision family, and the name of every vision model is kept. */
  function VisionNames(models: seq<Value>): (r: Option<seq<Value>>)
    ensures r.Some? <==> forall k :: 0 <= k < |models| ==> IsVisionModel(models[k]).Some?
    ensures r.Some? ==> |r.value| <= |models|
    ensures r.Some? ==> forall i :: 0 <= i < |r.value| ==> VisionName(r.value[i])
    ensures r.Some? ==> forall k :: 0 <= k < |models| && IsVisionModel(models[k]) == Some(true) ==>
      Get(models[k], "name").value in r.value
  {
    if |models| == 0 then Some([])
    else
      match IsVisionModel(models[0])
      case None => None
      case Some(keep) =>
        match VisionNames(models[1..])
        case None =>
          assert exists k :: 1 <= k < |models| && IsVisionModel(models[k]).None? by {
            var k :| 0 <= k < |models[1..]| && IsVisionModel(models[1..][k]).None?;
            assert models[1..][k] == models[k + 1];
          }
          None
        case Some(rest) =>
          assert forall k :: 1 <= k < |models| ==> models[k] == models[1..][k - 1];
          Some((if keep then [Get(models[0], "name").value] else []) + rest)
  }

  /** The filter keeps order and multiplicity: the names of a joined list are those of the first
      part followed by those of the second, and the joined list throws exactly when a part does. */
  lemma {:induction false} VisionNamesAppend(a: seq<Value>, b: seq<Value>)
    ensures VisionNames(a + b).Some? <==> VisionNames(a).Some? && VisionNames(b).Some?
    ensures VisionNames(a + b).Some? ==> VisionNames(a + b).value == VisionNames(a).value + VisionNames(b).value
  {
    if |a| == 0 {
      assert a + b == b;
    } else {
      assert (a + b)[0] == a[0];
      assert (a + b)[1..] == a[1..] + b;
      VisionNamesAppend(a[1..], b);
    }
  }

  /** A single listed model contributes its name exactly when it is a vision model. */
  lemma VisionNamesOfOne(m: Value)
    ensures VisionNames([m]) ==
      match IsVisionModel(m)
      case None => None
      case Some(keep) => Some(if keep then [Get(m, "name").value] else [])
  {
    assert [m][0] == m && [m][1..] == [];
    assert VisionNames([]) == Some([]);
    match IsVisionModel(m)
    case None =>
    case Some(keep) =>
      var kept: seq<Value> := if keep then [Get(m, "name").value] else [];
      assert kept + [] == kept;
  }

  /** `getVisionModels()`: the names of the vision-capable models the tags endpoint lists. Any
      failure (rejected request, failed status, unreadable body, no model list, an entry whose
      name cannot be searched) yields the empty list. */
  function GetVisionModels(tags: Fetch, body: Option<Value>): (names: seq<Value>)
    ensures !(tags.Responded? && tags.ok) ==> names == []
    ensures body.None? || !IsArray(Get(body.value, "models")) ==> names == []
    ensures tags.Responded? && tags.ok && body.Some? && Get(body.value, "models").Found? ==>
      var models := Get(body.value, "models").value;
      models.Arr? ==> names == VisionNames(models.items).GetOr([])
  {
    if !(tags.Responded? && tags.ok) then []
    else match body
      case None => []
      case Some(data) =>
        match Get(data, "models")
        case Found(Arr(models)) => VisionNames(models).GetOr([])
        case _ => []
  }

  /** Each model the adapter offers is recognised as a vision model by name. */
  lemma AdapterModelsAreVisionModels()
    ensures forall i :: 0 <= i < |AdapterModels| ==>
      IsVisionModel(Obj(map["name" := Str(AdapterModels[i])])) == Some(true)
  {
    assert OccursAt(AdapterModels[0], VisionFamilies[0], 0);
    assert OccursAt(AdapterModels[1], VisionFamilies[4], 0);
    assert OccursAt(AdapterModels[2], VisionFamilies[3], 0);
    assert VisionName(Str(AdapterModels[0])) && VisionName(Str(AdapterModels[1])) && VisionName(Str(AdapterModels[2]));
  }

  /** The result when the reply cannot be used: fixed local tags, and the reply's first 200
      characters (or `Analysis complete`) as description. */
  function Fallback(response: Option<string>): (r: AnalysisResult)
    ensures WellShaped(r)
    ensures r.tags == StrList(["image", "analyzed", "local"])
    ensures response.Some? && response.value != "" ==> r.description == Str(Take(response.value, 200))
  {
    AnalysisResult(
      StrList(["image", "analyzed", "local"]), Arr([DetectedObject("unknown", 0.5)]), Arr([Gray]),
      Str("neutral"), Str("unknown"),
      Str(if response.Some? && response.value != "" then Take(response.value, 200) else "Analysis complete"),
      Str("Analyzed Image"))
  }

  /** The text of a reply with a brace span contains a `{`. */
  lemma SpanHasBrace(s: string)
    requires BraceSpan(s).Some?
    ensures Contains(s, "{")
  {
    var i := BraceBounds(s).value.0;
    assert s[i..i + 1] == "{";
    assert OccursAt(s, "{", i);
  }

  /** The result drawn from the reply's `response` field, which may be missing. */
  function Interpret(response: Option<string>, parse: string -> Option<Value>): (r: AnalysisResult)
    ensures WellShaped(r)
  {
    match response
    case None => Fallback(None)
    case Some(text) =>
      match TryNormalize(text, parse, OllamaDefaults(text))
      case Some(r) =>
        SpanHasBrace(text);
        DefaultsWellShaped(text);
        r
      case None => Fallback(response)
  }

  /** `analyze(image, model)`: no key; the image, then the request, whose rejection propagates; a
      failed status throws `Ollama error: <status text>`; any reply then yields a result. */
  function Analyze(image: ImageInput, fetch: Fetch, parse: string -> Option<Value>): (r: Result<AnalysisResult, Thrown>)
    ensures r.Success? <==> ImagePayload.OllamaImage(image).Success? && Answered(fetch)
    ensures r.Success? ==> WellShaped(r.value)
    ensures ImagePayload.OllamaImage(image).Success? && fetch.Rejected? ==> r == Failure(fetch.error)
    ensures ImagePayload.OllamaImage(image).Success? && fetch.Responded? && !fetch.ok ==>
      r == Failure(Error("Ollama error: " + fetch.statusText))
    ensures ImagePayload.OllamaImage(image).Success? && fetch.Responded? && fetch.ok && fetch.body.Unreadable? ==>
      r == Failure(fetch.body.error)
    ensures ImagePayload.OllamaImage(image).Success? && fetch.Responded? && fetch.ok && fetch.body.NullBody? ==>
      r == Failure(TypeFault)
  {
    match ImagePayload.OllamaImage(image)
    case Failure(e) => Failure(e)
    case Success(_) =>
      match fetch
      case Rejected(e) => Failure(e)
      case Responded(ok, _, statusText, _, body) =>
        if !ok then Failure(Error("Ollama error: " + statusText))
        else match body
          case Unreadable(e) => Failure(e)
          case NullBody => Failure(TypeFault)
          case Reply(text) => Success(Interpret(text, parse))
  }

  /** A reply that is a well-shaped result as JSON is returned as that result. */
  lemma AnalyzeKeepsWellShapedReply(text: string, parse: string -> Option<Value>, r: AnalysisResult)
    requires BraceSpan(text).Some? && parse(BraceSpan(text).value) == Some(ToJson(r))
    requires WellShaped(r)
    ensures Interpret(Some(text), parse) == r
  {
    TryNormalizeKeepsWellShaped(text, parse, OllamaDefaults(text), r);
  }

  /** `isConfigured()`: always, since reachability is only known asynchronously. */
  function IsConfigured(): (configured: bool)
    ensures configured
  {
    true
  }
}

=== FILE: openai.dfy ===
/** The OpenAI vision adapter: `analyze` and `chat` against the Chat Completions API. */
module OpenAIAdapter {
  import opened Wrappers
  import opened Json
  import opened Text
  import opened AdapterTypes
  import opened Extract
  import opened Normalize
  import AdapterState
  import ImagePayload
  import ChatReply

  /** `words.filter(w => w.length > 3)` */
  function LongWords(words: seq<string>): (r: seq<string>)
    ensures |r| <= |words|
    ensures forall i :: 0 <= i < |r| ==> |r[i]| > 3 && r[i] in words
    ensures forall i :: 0 <= i < |words| && |words[i]| > 3 ==> words[i] in r
  {
    if |words| == 0 then []
    else (if |words[0]| > 3 then [words[0]] else []) + LongWords(words[1..])
  }

  /** The filter leaves nothing exactly when no word is longer than three characters. */
  lemma NoLongWords(words: seq<string>)
    ensures LongWords(words) == [] <==> forall i :: 0 <= i < |words| ==> |words[i]| <= 3
  {
    if LongWords(words) != [] {
      assert LongWords(words)[0] in words;
    }
  }

  /** Filtering keeps the order: the long words of a joined list are those of the first part
      followed by those of the second. */
  lemma {:induction false} LongWordsAppend(a: seq<string>, b: seq<string>)
    ensures LongWords(a + b) == LongWords(a) + LongWords(b)
  {
    if |a| == 0 {
      assert a + b == b;
    } else {
      assert (a + b)[0] == a[0];
      assert (a + b)[1..] == a[1..] + b;
      LongWordsAppend(a[1..], b);
    }
  }

  /** The fallback tags: the first five words of the reply longer than three characters. */
  function FallbackWords(content: string): (r: seq<string>)
    ensures |r| <= 5
    ensures forall i :: 0 <= i < |r| ==> |r[i]| > 3 && Contains(content, r[i])
    ensures forall i :: 0 <= i < |r| ==> forall j :: 0 <= j < |r[i]| ==> !IsSpace(r[i][j])
    ensures var long := LongWords(SplitOnSpaceRuns(content));
      |r| == (if |long| < 5 then |long| else 5) && r == long[..|r|]
    ensures var words := SplitOnSpaceRuns(content);
      r == [] <==> forall i :: 0 <= i < |words| ==> |words[i]| <= 3
  {
    var words := SplitOnSpaceRuns(content);
    var long := LongWords(words);
    NoLongWords(words);
    var r := if |long| <= 5 then long else long[..5];
    assert r == long[..|r|];
    LongWordPrefix(content, |r|);
    r
  }

  /** Each of the first `n` long words of the reply is long, free of white space and occurs in
      the reply. */
  lemma LongWordPrefix(content: string, n: nat)
    requires n <= |LongWords(SplitOnSpaceRuns(content))|
    ensures var r := LongWords(SplitOnSpaceRuns(content))[..n];
      forall i :: 0 <= i < |r| ==>
        |r[i]| > 3 && Contains(content, r[i]) && forall j :: 0 <= j < |r[i]| ==> !IsSpace(r[i][j])
  {
    var words := SplitOnSpaceRuns(content);
    SplitOnSpaceRunsPiecesOccur(content);
    var r := LongWords(words)[..n];
    forall i | 0 <= i < |r|
      ensures |r[i]| > 3 && Contains(content, r[i]) && forall j :: 0 <= j < |r[i]| ==> !IsSpace(r[i][j])
    {
      assert r[i] in words;
      var k :| 0 <= k < |words| && words[k] == r[i];
    }
  }

  /** The result when the reply holds no usable JSON: its long words as tags (or fixed tags when
      there are none), one generic object, the reply's first 300 and 50 characters as
      description and title. */
  function TextFallback(content: string): (r: AnalysisResult)
    ensures WellShaped(r)
    ensures r.tags.Arr? && 1 <= |r.tags.items| <= 5
    ensures |FallbackWords(content)| > 0 ==> r.tags == StrList(FallbackWords(content))
    ensures content != "" ==> r.suggestedTitle == Str(Take(content, 50)) && r.description == Str(Take(content, 300))
  {
    var words := FallbackWords(content);
    AnalysisResult(
      if |words| > 0 then StrList(words) else StrList(["image", "analyzed"]),
      Arr([DetectedObject("image content", 0.8)]), Arr([Gray]), Str("neutral"), Str("digital"),
      Str(if content != "" then Take(content, 300) else "Image analyzed"),
      Str(if content != "" then Take(content, 50) else "Analyzed Image"))
  }

  /** The result drawn from a successful reply's text. */
  function Interpret(content: string, parse: string -> Option<Value>): (r: AnalysisResult)
    ensures WellShaped(r)
  {
    match TryNormalize(content, parse, CloudDefaults)
    case Some(r) => r
    case None => TextFallback(content)
  }

  /** A reply without braces is described by its own words. */
  lemma PlainReplyTagsAreItsWords(content: string, parse: string -> Option<Value>)
    requires forall i :: 0 <= i < |content| ==> content[i] != '{'
    ensures Interpret(content, parse) == TextFallback(content)
    ensures forall i :: 0 <= i < |FallbackWords(content)| ==> Contains(content, FallbackWords(content)[i])
  {
  }

  /** `analyze(image, model)`: the key check, then the image (any string is accepted), then the
      request, whose rejection propagates; a failed status throws a TypeError on a `null`
      error body, otherwise the backend's message or `OpenAI API error: <status>`. */
  function Analyze(c: AdapterState.Config, image: ImageInput, fetch: Fetch, parse: string -> Option<Value>)
    : (r: Result<AnalysisResult, Thrown>)
    ensures r.Success? <==>
      IsTruthy(AdapterState.KeyOf(c, OpenAI)) && ImagePayload.ImageUrl(image).Success? && Answered(fetch)
    ensures r.Success? ==> WellShaped(r.value)
    ensures AdapterState.KeyOf(c, OpenAI).Undefined? ==> r == Failure(Error("OpenAI API key not configured"))
    ensures IsTruthy(AdapterState.KeyOf(c, OpenAI)) && ImagePayload.ImageUrl(image).Success? && fetch.Rejected? ==>
      r == Failure(fetch.error)
    ensures IsTruthy(AdapterState.KeyOf(c, OpenAI)) && ImagePayload.ImageUrl(image).Success? && fetch.Responded? ==>
      (!fetch.ok && fetch.errorBody.ErrorField? ==>
        r == Failure(ApiError(fetch.errorBody.message, "OpenAI API error: ", fetch.status))) &&
      (!fetch.ok && fetch.errorBody.NullError? ==> r == Failure(TypeFault)) &&
      (fetch.ok && fetch.body.Unreadable? ==> r == Failure(fetch.body.error)) &&
      (fetch.ok && fetch.body.NullBody? ==> r == Failure(TypeFault))
  {
    match AdapterState.KeyOf(c, OpenAI)
    case TypeError => Failure(TypeFault)
    case key =>
      if !IsTruthy(key) then Failure(Error("OpenAI API key not configured"))
      else match ImagePayload.ImageUrl(image)
        case Failure(e) => Failure(e)
        case Success(_) =>
          match fetch
          case Rejected(e) => Failure(e)
          case Responded(ok, status, _, errorBody, body) =>
            if !ok then Failure(StatusError(errorBody, "OpenAI API error: ", status))
            else match body
              case Unreadable(e) => Failure(e)
              case NullBody => Failure(TypeFault)
              case Reply(text) => Success(Interpret(text.GetOr(""), parse))
  }

  /** The system prompt of `chat` reads `metadata.tags.join(', ')` and
      `metadata.objects.map(o => o.name)`: it throws unless both are arrays and no object is `null`. */
  predicate PromptBuildable(metadata: AnalysisResult) {
    && metadata.tags.Arr? && metadata.objects.Arr?
    && forall i :: 0 <= i < |metadata.objects.items| ==> !metadata.objects.items[i].Null?
  }

  /** Every well-shaped result whose objects are entries builds a prompt. */
  lemma EntriesBuildPrompt(metadata: AnalysisResult)
    requires WellShaped(metadata)
    requires forall i :: 0 <= i < |metadata.objects.items| ==> metadata.objects.items[i].Obj?
    ensures PromptBuildable(metadata)
  {
  }

  /** `chat(...)`: the key check, then the prompt, then the request, whose rejection propagates;
      a failed status throws as in `analyze`; a reply is read by the any-span rule, so its message
      is never empty. */
  function Chat(c: AdapterState.Config, metadata: AnalysisResult, fetch: Fetch, parse: string -> Option<Value>)
    : (r: Result<ChatResponse, Thrown>)
    ensures r.Success? <==>
      IsTruthy(AdapterState.KeyOf(c, OpenAI)) && PromptBuildable(metadata) && Answered(fetch)
    ensures r.Success? ==> Truthy(r.value.message)
    ensures r.Success? ==> r.value == ChatReply.AnySpanReply(fetch.body.text.GetOr(""), parse)
    ensures IsTruthy(AdapterState.KeyOf(c, OpenAI)) && PromptBuildable(metadata) && fetch.Responded? ==>
      (!fetch.ok && fetch.errorBody.ErrorField? ==>
        r == Failure(ApiError(fetch.errorBody.message, "OpenAI API error: ", fetch.status))) &&
      (!fetch.ok && fetch.errorBody.NullError? ==> r == Failure(TypeFault)) &&
      (fetch.ok && fetch.body.Unreadable? ==> r == Failure(fetch.body.error)) &&
      (fetch.ok && fetch.body.NullBody? ==> r == Failure(TypeFault))
    ensures IsTruthy(AdapterState.KeyOf(c, OpenAI)) && !PromptBuildable(metadata) ==> r == Failure(TypeFault)
  {
    match AdapterState.KeyOf(c, OpenAI)
    case TypeError => Failure(TypeFault)
    case key =>
      if !IsTruthy(key) then Failure(Error("OpenAI API key not configured"))
      else if !PromptBuildable(metadata) then Failure(TypeFault)
      else match fetch
        case Rejected(e) => Failure(e)
        case Responded(ok, status, _, errorBody, body) =>
          if !ok then Failure(StatusError(errorBody, "OpenAI API error: ", status))
          else match body
            case Unreadable(e) => Failure(e)
            case NullBody => Failure(TypeFault)
            case Reply(text) => Success(ChatReply.AnySpanReply(text.GetOr(""), parse))
  }

  /** The conversation of `chat`: the history with assistant turns named `assistant`, between the
      metadata system prompt and the question, followed by the reply-format instruction. */
  function ChatTurns(history: seq<ChatMessage>, systemPrompt: Value, question: Value, format: Value): (turns: seq<ChatReply.Turn>)
    ensures |turns| == |history| + 3
    ensures turns[0].role == "system" && turns[|turns| - 1].role == "system"
    ensures turns[1..|history| + 1] == ChatReply.HistoryTurns(history, "assistant")
  {
    [ChatReply.Turn("system", systemPrompt)] + ChatReply.HistoryTurns(history, "assistant")
      + [ChatReply.Turn("user", question), ChatReply.Turn("system", format)]
  }

  /** `isConfigured()` */
  function IsConfigured(c: AdapterState.Config): Result<bool, Thrown> {
    AdapterState.CloudConfigured(c, OpenAI)
  }

  /** With a readable image and a successful reply, `analyze` succeeds exactly when the adapter
      reports itself configured. */
  lemma ConfiguredIffKeyAccepted(c: AdapterState.Config, image: ImageInput, fetch: Fetch, parse: string -> Option<Value>)
    requires !AdapterState.GetApiKeys(c).Null?
    requires ImagePayload.ImageUrl(image).Success? && Answered(fetch)
    ensures IsConfigured(c).Success?
    ensures IsConfigured(c).value <==> Analyze(c, image, fetch, parse).Success?
  {
  }
}

=== FILE: person_bucket.dfy ===
/** The detail view of one person: renaming, moving selected faces to another person, removing
    selected faces, and the list of move targets. Each action is a sequence of face-store calls. */
module PersonBucketDetail {
  import opened Wrappers
  import opened Text
  import opened Seqs
  import opened Faces

  /** `handleSaveName()`: the person is renamed only when the trimmed name is non-blank and the
      name differs from the current one; the untrimmed text is what is stored. */
  function SaveName(persons: seq<Person>, person: Person, editedName: string, now: string): (r: seq<Person>)
    ensures Trim(editedName) == "" || editedName == person.name || PersonIndex(persons, person.id).None? ==> r == persons
    ensures Trim(editedName) != "" && editedName != person.name && PersonIndex(persons, person.id).Some? ==>
      var j := PersonIndex(persons, person.id).value;
      && |r| == |persons|
      && r[j] == persons[j].(name := editedName, updatedAt := now)
      && forall b :: 0 <= b < |persons| && b != j ==> r[b] == persons[b]
  {
    if Trim(editedName) != "" && editedName != person.name then UpdatePerson(persons, person.id, NamePatch(editedName), now)
    else persons
  }

  /** One step of `handleMoveSelected`: unassign the face, then assign it to the target. */
  function MoveOne(s: FaceStore, faceId: string, target: string, now: string): (r: FaceStore)
    ensures |r.faces| == |s.faces| && |r.persons| == |s.persons|
    ensures forall a :: 0 <= a < |s.faces| ==> r.faces[a].id == s.faces[a].id
    ensures forall b :: 0 <= b < |s.persons| ==> r.persons[b].id == s.persons[b].id
    ensures forall a :: 0 <= a < |s.faces| && s.faces[a].id != faceId ==> r.faces[a] == s.faces[a]
    ensures forall a :: 0 <= a < |s.faces| && FaceIndex(s.faces, faceId) == Some(a) ==> r.faces[a].personId == Some(target)
  {
    var u := UnassignFaceFromPerson(s, faceId, now);
    FaceIndexOfSameIds(u.faces, s.faces, faceId);
    AssignFaceToPerson(u, faceId, target, now)
  }

  /** Person ids are non-empty, as generated ids are: no person can be named by a `personId` of
      `""`, which counts as unassigned. */
  predicate NamedPersons(persons: seq<Person>) {
    forall b :: 0 <= b < |persons| ==> persons[b].id != ""
  }

  /** A move keeps a consistent store consistent, whether or not the face or the target exists:
      the unassign leaves the face naming no person, which is what the assign needs. */
  lemma MoveOneKeepsConsistent(s: FaceStore, faceId: string, target: string, now: string)
    requires Consistent(s) && NamedPersons(s.persons) && DistinctFaceLists(s.persons)
    ensures var r := MoveOne(s, faceId, target, now);
      Consistent(r) && NamedPersons(r.persons) && DistinctFaceLists(r.persons)
  {
    var u := UnassignFaceFromPerson(s, faceId, now);
    UnassignKeepsConsistent(s, faceId, now);
    UnassignKeepsFaceIdsDistinct(s, faceId, now);
    forall a, b | 0 <= a < |u.faces| && 0 <= b < |u.persons| && u.faces[a].id == faceId
      ensures u.faces[a].personId != Some(u.persons[b].id)
    {
      assert FaceIndex(s.faces, faceId) == Some(a);
    }
    AssignUnlinkedKeepsConsistent(u, faceId, target, now);
    AssignKeepsFaceIdsDistinct(u, faceId, target, now);
  }

  /** `handleMoveSelected(target)`: each selected face in turn is moved. */
  function MoveSelected(s: FaceStore, selected: seq<string>, target: string, now: string): (r: FaceStore)
    decreases |selected|
    ensures |r.faces| == |s.faces| && |r.persons| == |s.persons|
    ensures forall a :: 0 <= a < |s.faces| ==> r.faces[a].id == s.faces[a].id
    ensures forall b :: 0 <= b < |s.persons| ==> r.persons[b].id == s.persons[b].id
    ensures forall a :: 0 <= a < |s.faces| && s.faces[a].id !in selected ==> r.faces[a] == s.faces[a]
  {
    if |selected| == 0 then s
    else MoveSelected(MoveOne(s, selected[0], target, now), selected[1..], target, now)
  }

  lemma {:induction false} MoveSelectedKeepsConsistent(s: FaceStore, selected: seq<string>, target: string, now: string)
    requires Consistent(s) && NamedPersons(s.persons) && DistinctFaceLists(s.persons)
    decreases |selected|
    ensures var r := MoveSelected(s, selected, target, now);
      Consistent(r) && NamedPersons(r.persons) && DistinctFaceLists(r.persons)
  {
    if |selected| > 0 {
      MoveOneKeepsConsistent(s, selected[0], target, now);
      MoveSelectedKeepsConsistent(MoveOne(s, selected[0], target, now), selected[1..], target, now);
    }
  }

  /** With unique face ids, every selected face ends up naming the target. */
  lemma {:induction false} MoveSelectedSetsTarget(s: FaceStore, selected: seq<string>, target: string, now: string, a: nat)
    requires UniqueFaceIds(s.faces) && a < |s.faces| && s.faces[a].id in selected
    decreases |selected|
    ensures MoveSelected(s, selected, target, now).faces[a].personId == Some(target)
  {
    var id := s.faces[a].id;
    var m := MoveOne(s, selected[0], target, now);
    assert UniqueFaceIds(m.faces);
    if selected[0] == id {
      FaceIndexOfUnique(s.faces, a);
      if id in selected[1..] {
        MoveSelectedSetsTarget(m, selected[1..], target, now, a);
      }
    } else {
      assert id in selected[1..];
      MoveSelectedSetsTarget(m, selected[1..], target, now, a);
    }
  }

  /** After a move to an existing person, each selected face names the target, is listed by the
      target exactly once, and is listed by no other person, its old owner included. */
  lemma MoveSelectedEffect(s: FaceStore, selected: seq<string>, j: nat, now: string, a: nat)
    requires Consistent(s) && NamedPersons(s.persons) && DistinctFaceLists(s.persons)
    requires j < |s.persons| && a < |s.faces| && s.faces[a].id in selected
    ensures var r := MoveSelected(s, selected, s.persons[j].id, now);
      && r.faces[a].personId == Some(s.persons[j].id)
      && s.faces[a].id in r.persons[j].faceIds
      && NoDuplicates(r.persons[j].faceIds)
      && forall b :: 0 <= b < |s.persons| && b != j ==> s.faces[a].id !in r.persons[b].faceIds
  {
    var r := MoveSelected(s, selected, s.persons[j].id, now);
    MoveSelectedKeepsConsistent(s, selected, s.persons[j].id, now);
    MoveSelectedSetsTarget(s, selected, s.persons[j].id, now, a);
    assert r.faces[a].id == s.faces[a].id;
    forall b | 0 <= b < |s.persons| && b != j
      ensures s.faces[a].id !in r.persons[b].faceIds
    {
      assert r.persons[b].id != r.persons[j].id;
    }
  }

  /** The bulk remove: each selected face in turn is unassigned. */
  function RemoveSelected(s: FaceStore, selected: seq<string>, now: string): (r: FaceStore)
    decreases |selected|
    ensures |r.faces| == |s.faces| && |r.persons| == |s.persons|
    ensures forall a :: 0 <= a < |s.faces| ==> r.faces[a].id == s.faces[a].id
    ensures forall b :: 0 <= b < |s.persons| ==> r.persons[b].id == s.persons[b].id
    ensures forall a :: 0 <= a < |s.faces| && s.faces[a].id !in selected ==> r.faces[a] == s.faces[a]
    ensures forall a :: 0 <= a < |s.faces| && !Assigned(s.faces[a]) ==> !Assigned(r.faces[a])
  {
    if |selected| == 0 then s
    else RemoveSelected(UnassignFaceFromPerson(s, selected[0], now), selected[1..], now)
  }

  /** With unique face ids, no selected face is assigned after a bulk remove, and a consistent
      store stays consistent, so no person lists a removed face any more. */
  lemma {:induction false} RemoveSelectedUnassigns(s: FaceStore, selected: seq<string>, now: string, a: nat)
    requires UniqueFaceIds(s.faces) && a < |s.faces| && s.faces[a].id in selected
    decreases |selected|
    ensures !Assigned(RemoveSelected(s, selected, now).faces[a])
  {
    var u := UnassignFaceFromPerson(s, selected[0], now);
    assert UniqueFaceIds(u.faces) by {
      assert forall k :: 0 <= k < |s.faces| ==> u.faces[k].id == s.faces[k].id;
    }
    if selected[0] == s.faces[a].id {
      FaceIndexOfUnique(s.faces, a);
      assert !Assigned(u.faces[a]);
    } else {
      assert s.faces[a].id in selected[1..];
      RemoveSelectedUnassigns(u, selected[1..], now, a);
    }
  }

  lemma {:induction false} RemoveSelectedKeepsConsistent(s: FaceStore, selected: seq<string>, now: string)
    requires Consistent(s)
    decreases |selected|
    ensures Consistent(RemoveSelected(s, selected, now))
  {
    if |selected| > 0 {
      UnassignKeepsConsistent(s, selected[0], now);
      RemoveSelectedKeepsConsistent(UnassignFaceFromPerson(s, selected[0], now), selected[1..], now);
    }
  }

  /** `otherPersons`: every person but the one shown, in order. */
  function OtherPersons(persons: seq<Person>, person: Person): (r: seq<Person>)
    ensures forall k :: 0 <= k < |r| ==> r[k].id != person.id && r[k] in persons
    ensures forall k :: 0 <= k < |persons| && persons[k].id != person.id ==> persons[k] in r
  {
    Filter(persons, (q: Person) => q.id != person.id)
  }
}

=== FILE: queue.dfy ===
/** The upload queue: items wait as `pending`, are processed, and end `complete` or `error`. A
    browser `File` cannot be serialised, so the stored queue never holds one. Writes are taken to
    succeed. */
module Queue {
  import opened Wrappers
  import opened Seqs
  import opened AdapterTypes

  datatype Status = Pending | Processing | Complete | Failed

  datatype QueueItem = QueueItem(
    id: string,
    file: Option<File>,
    thumbnail: string,
    filename: string,
    addedAt: string,
    status: Status,
    processingProgress: Option<real>,
    errorMessage: Option<string>)

  /** `Partial<QueueItem>`; the optional fields may be set to `undefined`. */
  datatype QueuePatch = QueuePatch(
    id: Option<string>,
    file: Option<Option<File>>,
    thumbnail: Option<string>,
    filename: Option<string>,
    addedAt: Option<string>,
    status: Option<Status>,
    processingProgress: Option<Option<real>>,
    errorMessage: Option<Option<string>>)

  /** `{ ...item, ...updates }` */
  function ApplyPatch(item: QueueItem, p: QueuePatch): QueueItem {
    QueueItem(
      p.id.GetOr(item.id), p.file.GetOr(item.file), p.thumbnail.GetOr(item.thumbnail),
      p.filename.GetOr(item.filename), p.addedAt.GetOr(item.addedAt), p.status.GetOr(item.status),
      p.processingProgress.GetOr(item.processingProgress), p.errorMessage.GetOr(item.errorMessage))
  }

  /** No item holds a file. */
  predicate NoFiles(items: seq<QueueItem>) {
    forall k :: 0 <= k < |items| ==> items[k].file.None?
  }

  /** `{ ...item, file: null }` over the list: what `saveQueue` writes and `getQueueItems` returns.
      Everything but the file is kept. */
  function DropFiles(items: seq<QueueItem>): (r: seq<QueueItem>)
    ensures |r| == |items| && NoFiles(r)
    ensures forall k :: 0 <= k < |items| ==> r[k] == items[k].(file := None)
  {
    Map(items, (item: QueueItem) => item.(file := None))
  }

  /** Dropping files twice is dropping them once, and a list without files is unchanged: a
      save followed by a load gives back what was saved. */
  lemma DropFilesIdempotent(items: seq<QueueItem>)
    ensures DropFiles(DropFiles(items)) == DropFiles(items)
    ensures NoFiles(items) ==> DropFiles(items) == items
  {
  }

  /** `getQueueItems()` on the stored list. */
  function QueueItems(stored: seq<QueueItem>): (r: seq<QueueItem>)
    ensures NoFiles(r) && |r| == |stored|
  {
    DropFiles(stored)
  }

  /** `addToQueue(item)`: the item, `pending` and with a fresh id and time, is appended and returned
      with its file; the stored copy has none. */
  function AddToQueue(stored: seq<QueueItem>, item: QueueItem, id: string, addedAt: string): (r: (seq<QueueItem>, QueueItem))
    ensures r.1 == item.(id := id, addedAt := addedAt, status := Pending)
    ensures |r.0| == |stored| + 1 && r.0[..|stored|] == QueueItems(stored) && r.0[|stored|] == r.1.(file := None)
    ensures NoFiles(r.0)
  {
    var queued := item.(id := id, addedAt := addedAt, status := Pending);
    (DropFiles(QueueItems(stored) + [queued]), queued)
  }

  function ItemHasId(id: string): QueueItem -> bool {
    (item: QueueItem) => item.id == id
  }

  /** `updateQueueItem(id, updates)`: the first item with that id is merged with the patch, a file
      it carries being dropped on save; an unknown id writes nothing. */
  function UpdateQueueItem(stored: seq<QueueItem>, id: string, p: QueuePatch): (r: seq<QueueItem>)
    ensures |r| == |stored|
    ensures FindIndex(stored, ItemHasId(id)).None? ==> r == stored
    ensures FindIndex(stored, ItemHasId(id)).Some? ==>
      var k := FindIndex(stored, ItemHasId(id)).value;
      NoFiles(r) && r[k] == ApplyPatch(stored[k], p).(file := None) &&
      forall j :: 0 <= j < |stored| && j != k ==> r[j] == stored[j].(file := None)
  {
    var items := QueueItems(stored);
    match FindIndex(stored, ItemHasId(id))
    case None => stored
    case Some(k) => DropFiles(items[k := ApplyPatch(items[k], p)])
  }

  /** `removeFromQueue(id)`: every item with that id is dropped. */
  function RemoveFromQueue(stored: seq<QueueItem>, id: string): (r: seq<QueueItem>)
    ensures NoFiles(r)
    ensures forall k :: 0 <= k < |r| ==> r[k].id != id && r[k] in QueueItems(stored)
    ensures forall k :: 0 <= k < |stored| && stored[k].id != id ==> stored[k].(file := None) in r
  {
    var kept := Filter(QueueItems(stored), (item: QueueItem) => item.id != id);
    DropFilesIdempotentOn(kept);
    DropFiles(kept)
  }

  lemma DropFilesIdempotentOn(items: seq<QueueItem>)
    requires NoFiles(items)
    ensures DropFiles(items) == items
  {
  }

  /** Removal keeps the other items in order. */
  lemma RemoveKeepsOrder(xs: seq<QueueItem>, ys: seq<QueueItem>, id: string)
    requires NoFiles(xs) && NoFiles(ys)
    ensures RemoveFromQueue(xs + ys, id) == RemoveFromQueue(xs, id) + RemoveFromQueue(ys, id)
  {
    assert NoFiles(xs + ys);
    DropFilesIdempotentOn(xs);
    DropFilesIdempotentOn(ys);
    DropFilesIdempotentOn(xs + ys);
    var keep := (item: QueueItem) => item.id != id;
    FilterAppend(xs, ys, keep);
    DropFilesIdempotentOn(Filter(xs, keep));
    DropFilesIdempotentOn(Filter(ys, keep));
    DropFilesIdempotentOn(Filter(xs + ys, keep));
  }

  /** `clearQueue()` removes the entry, which reads back as the empty queue. */
  function ClearQueue(stored: seq<QueueItem>): (r: seq<QueueItem>)
    ensures r == [] && QueueItems(r) == []
  {
    []
  }

  /** `getQueueStats()` */
  datatype Stats = Stats(total: nat, pending: nat, processing: nat, error: nat)

  function HasStatus(s: Status): QueueItem -> bool {
    (item: QueueItem) => item.status == s
  }

  function QueueStats(stored: seq<QueueItem>): (r: Stats)
    ensures r.total == |stored|
    ensures r.pending == |Filter(stored, HasStatus(Pending))|
    ensures r.processing == |Filter(stored, HasStatus(Processing))|
    ensures r.error == |Filter(stored, HasStatus(Failed))|
  {
    var items := QueueItems(stored);
    assert items == Map(stored, (item: QueueItem) => item.(file := None));
    StatusCountsIgnoreFiles(stored, Pending);
    StatusCountsIgnoreFiles(stored, Processing);
    StatusCountsIgnoreFiles(stored, Failed);
    Stats(|items|, Count(items, HasStatus(Pending)), Count(items, HasStatus(Processing)), Count(items, HasStatus(Failed)))
  }

  /** Dropping files does not change how many items have a status. */
  lemma {:induction false} StatusCountsIgnoreFiles(items: seq<QueueItem>, s: Status)
    ensures Count(DropFiles(items), HasStatus(s)) == Count(items, HasStatus(s))
  {
    if |items| > 0 {
      assert DropFiles(items)[1..] == DropFiles(items[1..]);
      StatusCountsIgnoreFiles(items[1..], s);
    }
  }

  /** `complete` items are not counted, so the three counts never exceed the total, and they
      reach it exactly when no item is complete. */
  lemma {:induction false} StatsBounded(stored: seq<QueueItem>)
    ensures var st := QueueStats(stored);
      st.pending + st.processing + st.error + Count(stored, HasStatus(Complete)) == st.total
    ensures var st := QueueStats(stored); st.pending + st.processing + st.error <= st.total
  {
    if |stored| > 0 {
      StatsBounded(stored[1..]);
    }
  }

  /** `getPendingQueueItems()` and `getErrorQueueItems()` */
  function PendingQueueItems(stored: seq<QueueItem>): (r: seq<QueueItem>)
    ensures forall k :: 0 <= k < |r| ==> r[k].status == Pending && r[k] in QueueItems(stored)
    ensures forall k :: 0 <= k < |stored| && stored[k].status == Pending ==> stored[k].(file := None) in r
  {
    Filter(QueueItems(stored), HasStatus(Pending))
  }

  function ErrorQueueItems(stored: seq<QueueItem>): (r: seq<QueueItem>)
    ensures forall k :: 0 <= k < |r| ==> r[k].status == Failed && r[k] in QueueItems(stored)
    ensures forall k :: 0 <= k < |stored| && stored[k].status == Failed ==> stored[k].(file := None) in r
  {
    Filter(QueueItems(stored), HasStatus(Failed))
  }

  /** Both lists keep queue order: listing a concatenation lists each part. */
  lemma StatusListsKeepOrder(xs: seq<QueueItem>, ys: seq<QueueItem>)
    ensures PendingQueueItems(xs + ys) == PendingQueueItems(xs) + PendingQueueItems(ys)
    ensures ErrorQueueItems(xs + ys) == ErrorQueueItems(xs) + ErrorQueueItems(ys)
  {
    DropFilesAppend(xs, ys);
    FilterAppend(DropFiles(xs), DropFiles(ys), HasStatus(Pending));
    FilterAppend(DropFiles(xs), DropFiles(ys), HasStatus(Failed));
  }

  /** Dropping files from a concatenation drops them from each part. */
  lemma DropFilesAppend(xs: seq<QueueItem>, ys: seq<QueueItem>)
    ensures DropFiles(xs + ys) == DropFiles(xs) + DropFiles(ys)
  {
    var l := DropFiles(xs + ys);
    var r := DropFiles(xs) + DropFiles(ys);
    forall k | 0 <= k < |l| ensures l[k] == r[k] {
      if k < |xs| {
        assert (xs + ys)[k] == xs[k];
      } else {
        assert (xs + ys)[k] == ys[k - |xs|];
      }
    }
  }

  /** What reading the auto-process entry gives: storage may be unreadable. */
  datatype Setting = Unreadable | Stored(value: Option<string>)

  /** `getAutoProcessQueue()`: true when the entry is exactly `true`, false when it is missing or
      anything else, and true when storage cannot be read. */
  function AutoProcessQueue(read: Setting): (enabled: bool)
    ensures read.Stored? ==> (enabled <==> read.value == Some("true"))
    ensures read.Unreadable? ==> enabled
  {
    match read
    case Unreadable => true
    case Stored(v) => v == Some("true")
  }

  /** `setAutoProcessQueue(enabled)` stores `enabled.toString()`; reading it back gives `enabled`. */
  function SetAutoProcessQueue(enabled: bool): (stored: Option<string>)
    ensures AutoProcessQueue(Stored(stored)) == enabled
  {
    Some(if enabled then "true" else "false")
  }
}

=== FILE: seqs.dfy ===
/** Order-preserving filtering and first-match search, the two list idioms the stores use
    (`Array.prototype.filter` and `findIndex`). */
module Seqs {
  import opened Wrappers

  /** `xs.filter(keep)` */
  function Filter<T>(xs: seq<T>, keep: T -> bool): (r: seq<T>)
    ensures |r| <= |xs|
    ensures forall i :: 0 <= i < |r| ==> keep(r[i]) && r[i] in xs
    ensures forall i :: 0 <= i < |xs| && keep(xs[i]) ==> xs[i] in r
  {
    if |xs| == 0 then []
    else (if keep(xs[0]) then [xs[0]] else []) + Filter(xs[1..], keep)
  }

  /** Filtering distributes over concatenation: the kept elements stay in their original order. */
  lemma {:induction false} FilterAppend<T>(xs: seq<T>, ys: seq<T>, keep: T -> bool)
    ensures Filter(xs + ys, keep) == Filter(xs, keep) + Filter(ys, keep)
  {
    if |xs| == 0 {
      assert xs + ys == ys;
    } else {
      assert (xs + ys)[0] == xs[0];
      assert (xs + ys)[1..] == xs[1..] + ys;
      FilterAppend(xs[1..], ys, keep);
    }
  }

  /** A list whose every element is kept filters to itself. */
  lemma {:induction false} FilterKeepsAll<T>(xs: seq<T>, keep: T -> bool)
    requires forall i :: 0 <= i < |xs| ==> keep(xs[i])
    ensures Filter(xs, keep) == xs
  {
    if |xs| > 0 {
      FilterKeepsAll(xs[1..], keep);
    }
  }

  /** Every element is kept by a filter or by its complement, never both. */
  lemma {:induction false} FilterSplitsLength<T>(xs: seq<T>, keep: T -> bool)
    ensures |Filter(xs, keep)| + |Filter(xs, x => !keep(x))| == |xs|
  {
    if |xs| > 0 {
      FilterSplitsLength(xs[1..], keep);
    }
  }

  /** The number of elements satisfying `p`. */
  function Count<T>(xs: seq<T>, p: T -> bool): (n: nat)
    ensures n <= |xs|
    ensures n == |Filter(xs, p)|
  {
    if |xs| == 0 then 0 else (if p(xs[0]) then 1 else 0) + Count(xs[1..], p)
  }

  /** `xs.findIndex(matches)`, as an option: the first index whose element matches. */
  function FindIndex<T>(xs: seq<T>, matches: T -> bool): (r: Option<nat>)
    ensures r.Some? ==> r.value < |xs| && matches(xs[r.value])
    ensures r.Some? ==> forall j :: 0 <= j < r.value ==> !matches(xs[j])
    ensures r.None? ==> forall j :: 0 <= j < |xs| ==> !matches(xs[j])
  {
    if |xs| == 0 then None
    else if matches(xs[0]) then Some(0)
    else match FindIndex(xs[1..], matches)
      case None => None
      case Some(i) => Some(i + 1)
  }

  /** Replaces the first element that matches by `f` of it; a list without a match is unchanged. */
  function UpdateFirst<T>(xs: seq<T>, matches: T -> bool, f: T -> T): (r: seq<T>)
    ensures |r| == |xs|
    ensures FindIndex(xs, matches).None? ==> r == xs
    ensures FindIndex(xs, matches).Some? ==>
      r == xs[FindIndex(xs, matches).value := f(xs[FindIndex(xs, matches).value])]
  {
    match FindIndex(xs, matches)
    case None => xs
    case Some(i) => xs[i := f(xs[i])]
  }

  /** Applies `f` to every element. */
  function Map<T, U>(xs: seq<T>, f: T -> U): (r: seq<U>)
    ensures |r| == |xs|
    ensures forall i :: 0 <= i < |xs| ==> r[i] == f(xs[i])
  {
    if |xs| == 0 then [] else [f(xs[0])] + Map(xs[1..], f)
  }

  /** No element occurs twice. */
  predicate NoDuplicates<T(==)>(xs: seq<T>) {
    forall i, j :: 0 <= i < j < |xs| ==> xs[i] != xs[j]
  }

  /** Filtering never introduces a repeat. */
  lemma {:induction false} FilterKeepsNoDuplicates<T>(xs: seq<T>, keep: T -> bool)
    requires NoDuplicates(xs)
    ensures NoDuplicates(Filter(xs, keep))
  {
    if |xs| > 0 {
      assert NoDuplicates(xs[1..]) by {
        forall i, j | 0 <= i < j < |xs[1..]| ensures xs[1..][i] != xs[1..][j] {
          assert xs[1..][i] == xs[i + 1] && xs[1..][j] == xs[j + 1];
        }
      }
      FilterKeepsNoDuplicates(xs[1..], keep);
      assert xs[0] !in xs[1..] by {
        forall j | 0 <= j < |xs[1..]| ensures xs[1..][j] != xs[0] {
          assert xs[1..][j] == xs[j + 1];
        }
      }
      var rest := Filter(xs[1..], keep);
      assert xs[0] !in rest;
      if keep(xs[0]) {
        var r := [xs[0]] + rest;
        forall i, j | 0 <= i < j < |r| ensures r[i] != r[j] {
          if i == 0 {
            assert r[j] == rest[j - 1];
          } else {
            assert r[i] == rest[i - 1] && r[j] == rest[j - 1];
          }
        }
      } else {
        assert Filter(xs, keep) == rest;
      }
    }
  }

  function IsNot<T(==)>(x: T): T -> bool {
    (y: T) => y != x
  }

  /** A selection toggle: an absent element is appended, a present one is removed wherever it
      occurs; membership of every other element is unchanged. */
  function Toggle<T(==)>(xs: seq<T>, x: T): (r: seq<T>)
    ensures x in r <==> x !in xs
    ensures forall i :: 0 <= i < |xs| && xs[i] != x ==> xs[i] in r
    ensures forall i :: 0 <= i < |r| && r[i] != x ==> r[i] in xs
    ensures x !in xs ==> r == xs + [x]
    ensures x in xs ==> |r| < |xs|
  {
    if x in xs then
      var r := Filter(xs, IsNot(x));
      assert |r| < |xs| by {
        FilterSplitsLength(xs, IsNot(x));
        var i :| 0 <= i < |xs| && xs[i] == x;
        assert xs[i] in Filter(xs, y => !IsNot(x)(y));
      }
      r
    else xs + [x]
  }

  /** Toggling an absent element twice gives the selection back. */
  lemma ToggleTwice<T>(xs: seq<T>, x: T)
    requires x !in xs
    ensures Toggle(Toggle(xs, x), x) == xs
  {
    FilterAppend(xs, [x], IsNot(x));
    FilterKeepsAll(xs, IsNot(x));
    assert Filter([x], IsNot(x)) == [];
  }

  /** Toggling keeps a selection free of repeats. */
  lemma ToggleKeepsNoDuplicates<T>(xs: seq<T>, x: T)
    requires NoDuplicates(xs)
    ensures NoDuplicates(Toggle(xs, x))
  {
    if x in xs {
      FilterKeepsNoDuplicates(xs, IsNot(x));
    }
  }
}

=== FILE: sketch_page.dfy ===
/** Recognising a sketched diagram: the adapter's reply is searched for JSON, which becomes the
    diagram; when none is found or it does not parse, a fixed three-node flowchart stands in.
    `JSON.parse` is the parameter `parse`. */
module SketchPage {
  import opened Wrappers
  import opened Json
  import opened Text
  import opened AdapterTypes
  import opened Extract
  import opened Mermaid
  import opened Seqs

  /** What `adapter.analyze` resolved to: a reply text, or an analysis object. Every adapter
      returns an object, which has no `match` method. */
  datatype Reply = TextReply(text: string) | ObjectReply(result: AnalysisResult)

  /** The text handed to `JSON.parse`: the captured group of the first fenced block when the
      group is non-empty, the whole block when it is empty, and otherwise the first-`{`-to-last-`}`
      span. `None` when neither pattern matches. */
  function SketchJson(text: string): (r: Option<string>)
    ensures FencedBlock(text).Some? && FencedBlock(text).value.1 != "" ==> r == Some(FencedBlock(text).value.1)
    ensures FencedBlock(text).Some? && FencedBlock(text).value.1 == "" ==> r == Some(FencedBlock(text).value.0)
    ensures FencedBlock(text).None? ==> r == BraceSpan(text)
    ensures r.None? <==> FencedBlock(text).None? && BraceBounds(text).None?
  {
    match FencedBlock(text)
    case Some((whole, group)) => Some(if group != "" then group else whole)
    case None => BraceSpan(text)
  }

  /** A text with no fence whose only braces are its first and last character is taken whole. */
  lemma PlainJsonTakenWhole(text: string)
    requires |text| >= 2 && text[0] == '{' && text[|text| - 1] == '}'
    requires !Contains(text, "```")
    ensures SketchJson(text) == Some(text)
  {
    assert IndexOfFrom(text, "```", 0).None?;
    assert text[..|text|] == text;
  }

  /** The diagram used when no JSON is recognised: Start, Process, End, top to bottom. */
  const Fallback: Diagram := Diagram("flowchart", "TD",
    [Node("A", "Start", "rounded"), Node("B", "Process", "rectangle"), Node("C", "End", "rounded")],
    [Connection("A", "B", None, "arrow"), Connection("B", "C", None, "arrow")])

  /** Every connection of the fallback joins two declared nodes. */
  lemma FallbackConnectionsDeclared()
    ensures forall c :: 0 <= c < |Fallback.connections| ==>
      (exists n :: 0 <= n < |Fallback.nodes| && Fallback.nodes[n].id == Fallback.connections[c].from) &&
      (exists n :: 0 <= n < |Fallback.nodes| && Fallback.nodes[n].id == Fallback.connections[c].to)
  {
    assert Fallback.nodes[0].id == "A" && Fallback.nodes[1].id == "B" && Fallback.nodes[2].id == "C";
  }

  /** The fallback renders as a header, three node lines and two connection lines. */
  lemma FallbackLines()
    ensures Lines(Fallback) == [
      "flowchart TD",
      "    A(\"Start\")",
      "    B[\"Process\"]",
      "    C(\"End\")",
      "    A --> B",
      "    B --> C"]
  {
    FallbackHeader();
    FallbackNodeMap();
    FallbackConnectionMap();
    SixInOrder("flowchart TD", "    A(\"Start\")", "    B[\"Process\"]", "    C(\"End\")", "    A --> B", "    B --> C");
  }

  /** One, three and two elements, concatenated, are the six in order. */
  lemma SixInOrder<T>(a: T, b: T, c: T, d: T, e: T, f: T)
    ensures [a] + [b, c, d] + [e, f] == [a, b, c, d, e, f]
  {
  }

  lemma FallbackHeader()
    ensures Header(Fallback) == ["flowchart TD"]
  {
    assert "flowchart " + "TD" == "flowchart TD";
  }

  lemma FallbackNodeMap()
    ensures Map(Fallback.nodes, NodeLine) == ["    A(\"Start\")", "    B[\"Process\"]", "    C(\"End\")"]
  {
    assert Map(Fallback.nodes, NodeLine) == [NodeLine(Fallback.nodes[0]), NodeLine(Fallback.nodes[1]), NodeLine(Fallback.nodes[2])];
    FallbackNodeLines();
  }

  lemma FallbackConnectionMap()
    ensures Map(Fallback.connections, ConnectionLine) == ["    A --> B", "    B --> C"]
  {
    assert Map(Fallback.connections, ConnectionLine) == [ConnectionLine(Fallback.connections[0]), ConnectionLine(Fallback.connections[1])];
    FallbackConnectionLines();
  }

  lemma FallbackNodeLines()
    ensures NodeLine(Fallback.nodes[0]) == "    A(\"Start\")"
    ensures NodeLine(Fallback.nodes[1]) == "    B[\"Process\"]"
    ensures NodeLine(Fallback.nodes[2]) == "    C(\"End\")"
  {
    StartLine();
    ProcessLine();
    EndLine();
  }

  lemma StartLine()
    ensures NodeLine(Node("A", "Start", "rounded")) == "    A(\"Start\")"
  {
    RoundedLine("A", "Start");
  }

  lemma ProcessLine()
    ensures NodeLine(Node("B", "Process", "rectangle")) == "    B[\"Process\"]"
  {
    RectangleLine("B", "Process");
  }

  lemma EndLine()
    ensures NodeLine(Node("C", "End", "rounded")) == "    C(\"End\")"
  {
    RoundedLine("C", "End");
  }

  lemma RoundedLine(id: string, caption: string)
    ensures NodeLine(Node(id, caption, "rounded")) == Indent + id + "(" + "\"" + caption + "\"" + ")"
  {
  }

  lemma RectangleLine(id: string, caption: string)
    ensures NodeLine(Node(id, caption, "rectangle")) == Indent + id + "[" + "\"" + caption + "\"" + "]"
  {
  }

  lemma FallbackConnectionLines()
    ensures ConnectionLine(Fallback.connections[0]) == "    A --> B"
    ensures ConnectionLine(Fallback.connections[1]) == "    B --> C"
  {
  }

  /** What the page shows: the recognised diagram (a parsed JSON value or the fallback). */
  datatype Recognition = Parsed(json: Value) | FallbackUsed

  /** The page's state after a capture: the diagram shown and the error shown. */
  datatype SketchState = SketchState(result: Option<Recognition>, error: Option<string>)

  /** The inner `try`: the recognised diagram for a reply. An object reply makes `match` throw,
      as do a missing match and a parse failure; each of these falls back. */
  function Recognize(reply: Reply, parse: string -> Option<Value>): (r: Recognition)
    ensures reply.ObjectReply? ==> r == FallbackUsed
    ensures reply.TextReply? && SketchJson(reply.text).None? ==> r == FallbackUsed
    ensures reply.TextReply? && SketchJson(reply.text).Some? ==>
      r == if parse(SketchJson(reply.text).value).Some? then Parsed(parse(SketchJson(reply.text).value).value) else FallbackUsed
  {
    match reply
    case ObjectReply(_) => FallbackUsed
    case TextReply(text) =>
      match SketchJson(text)
      case None => FallbackUsed
      case Some(candidate) =>
        match parse(candidate)
        case None => FallbackUsed
        case Some(v) => Parsed(v)
  }

  /** `handleCapture(imageData)`: the error is cleared and the recognised diagram shown; only a
      failing `analyze` sets the error instead, leaving the previous diagram in place. */
  function HandleCapture(prev: SketchState, outcome: Result<Reply, Thrown>, parse: string -> Option<Value>,
                         engineText: string): (r: SketchState)
    ensures outcome.Success? ==> r.error.None? && r.result == Some(Recognize(outcome.value, parse))
    ensures outcome.Failure? ==> r.result == prev.result && r.error.Some?
    ensures outcome.Failure? && outcome.error.Error? ==> r.error == Some(outcome.error.message)
    ensures outcome.Failure? && outcome.error.NonError? ==> r.error == Some("Failed to analyze sketch")
  {
    match outcome
    case Success(reply) => SketchState(Some(Recognize(reply, parse)), None)
    case Failure(e) => SketchState(prev.result, Some(ErrorText(e, engineText, "Failed to analyze sketch")))
  }

  /** Since every adapter replies with an object, a successful capture always shows the fallback,
      whatever `parse` does. */
  lemma ObjectRepliesAlwaysFallBack(prev: SketchState, result: AnalysisResult, parse: string -> Option<Value>, engineText: string)
    ensures HandleCapture(prev, Success(ObjectReply(result)), parse, engineText) == SketchState(Some(FallbackUsed), None)
  {
  }
}

=== FILE: storage.dfy ===
/** The image and batch collections. Each operation reads a collection whole, changes it and
    writes it back whole; a write the browser refuses (storage full) is swallowed and leaves the
    stored collection as it was. */
module Storage {
  import opened Wrappers
  import opened AdapterTypes
  import opened Seqs

  /** Whether the browser accepted a `setItem`. */
  datatype Write = Written | Refused

  /** `saveImages` / `saveBatches`: the new collection if written, the old one otherwise. */
  function Save<T>(prev: seq<T>, next: seq<T>, w: Write): (stored: seq<T>)
    ensures w.Written? ==> stored == next
    ensures w.Refused? ==> stored == prev
  {
    if w.Written? then next else prev
  }

  /** A stored image. The chat history is not declared on the type but is written by the detail
      panel and read by the chat, so it is part of the record. */
  datatype StoredImage = StoredImage(
    id: string,
    filename: string,
    thumbnail: string,
    result: Option<AnalysisResult>,
    batchId: Option<string>,
    chatHistory: Option<seq<ChatMessage>>,
    addedAt: string)

  /** `Partial<StoredImage>`: each field is absent or a new value; for the optional fields the new
      value may itself be `undefined`. */
  datatype ImagePatch = ImagePatch(
    id: Option<string>,
    filename: Option<string>,
    thumbnail: Option<string>,
    result: Option<Option<AnalysisResult>>,
    batchId: Option<Option<string>>,
    chatHistory: Option<Option<seq<ChatMessage>>>,
    addedAt: Option<string>)

  /** `{ ...img, ...patch }` */
  function ApplyPatch(img: StoredImage, p: ImagePatch): StoredImage {
    StoredImage(
      p.id.GetOr(img.id), p.filename.GetOr(img.filename), p.thumbnail.GetOr(img.thumbnail),
      p.result.GetOr(img.result), p.batchId.GetOr(img.batchId),
      p.chatHistory.GetOr(img.chatHistory), p.addedAt.GetOr(img.addedAt))
  }

  /** A patch changing only the result, and one changing only the chat history. */
  function ResultPatch(r: Option<AnalysisResult>): ImagePatch {
    ImagePatch(None, None, None, Some(r), None, None, None)
  }

  function HistoryPatch(h: seq<ChatMessage>): ImagePatch {
    ImagePatch(None, None, None, None, None, Some(Some(h)), None)
  }

  /** A batch of images. */
  datatype Batch = Batch(id: string, name: string, imageIds: seq<string>, createdAt: string, expanded: bool)

  /** The two stored collections. */
  datatype Store = Store(images: seq<StoredImage>, batches: seq<Batch>)

  /** `addImage(image)`: appended at the end; the existing records keep their order and content. */
  function AddImage(images: seq<StoredImage>, img: StoredImage, w: Write): (r: seq<StoredImage>)
    ensures w.Written? ==> |r| == |images| + 1 && r[..|images|] == images && r[|images|] == img
    ensures w.Refused? ==> r == images
  {
    Save(images, images + [img], w)
  }

  /** `updateImage(id, updates)`: the first record with that id is merged with the patch and
      every other record is untouched; an unknown id writes nothing. */
  function UpdateImage(images: seq<StoredImage>, id: string, p: ImagePatch, w: Write): (r: seq<StoredImage>)
    ensures |r| == |images|
    ensures (forall k :: 0 <= k < |images| ==> images[k].id != id) ==> r == images
    ensures w.Written? ==> forall k :: 0 <= k < |images| ==>
      r[k] == if images[k].id == id && (forall j :: 0 <= j < k ==> images[j].id != id)
              then ApplyPatch(images[k], p) else images[k]
    ensures w.Refused? ==> r == images
  {
    var updated := UpdateFirst(images, (img: StoredImage) => img.id == id, (img: StoredImage) => ApplyPatch(img, p));
    if FindIndex(images, (img: StoredImage) => img.id == id).None? then images
    else Save(images, updated, w)
  }

  /** `removeImage(id)`: every record with that id is dropped. */
  function RemoveImage(images: seq<StoredImage>, id: string, w: Write): (r: seq<StoredImage>)
    ensures w.Written? ==> forall k :: 0 <= k < |r| ==> r[k].id != id && r[k] in images
    ensures w.Written? ==> forall k :: 0 <= k < |images| && images[k].id != id ==> images[k] in r
    ensures w.Refused? ==> r == images
  {
    Save(images, Filter(images, (img: StoredImage) => img.id != id), w)
  }

  /** Removal keeps the surviving records in their original order: removing from a concatenation
      removes from each part. */
  lemma RemoveImageKeepsOrder(xs: seq<StoredImage>, ys: seq<StoredImage>, id: string)
    ensures RemoveImage(xs + ys, id, Written) == RemoveImage(xs, id, Written) + RemoveImage(ys, id, Written)
  {
    FilterAppend(xs, ys, (img: StoredImage) => img.id != id);
  }

  /** `clearAllImages()`: both entries are removed, which cannot fail. */
  function ClearAllImages(s: Store): (r: Store)
    ensures r.images == [] && r.batches == []
  {
    Store([], [])
  }

  /** Image `k` is the first with its id; `find` only ever reaches that one. */
  predicate FirstWithId(images: seq<StoredImage>, k: int)
    requires 0 <= k < |images|
  {
    forall j :: 0 <= j < k ==> images[j].id != images[k].id
  }

  /** `images.find(i => i.id === imgId)` gets `batchId = bid`. */
  function SetFirstBatchId(images: seq<StoredImage>, imgId: string, bid: string): (r: seq<StoredImage>)
    ensures |r| == |images|
    ensures forall k :: 0 <= k < |images| ==> r[k].id == images[k].id
    ensures forall k :: 0 <= k < |images| ==>
      r[k] == if images[k].id == imgId && FirstWithId(images, k) then images[k].(batchId := Some(bid)) else images[k]
  {
    UpdateFirst(images, (img: StoredImage) => img.id == imgId, (img: StoredImage) => img.(batchId := Some(bid)))
  }

  /** The `imageIds.forEach` loop of `createBatch`, one id after another. */
  function SetBatchIds(images: seq<StoredImage>, ids: seq<string>, bid: string): (r: seq<StoredImage>)
    decreases |ids|
    ensures |r| == |images|
  {
    if |ids| == 0 then images else SetBatchIds(SetFirstBatchId(images, ids[0], bid), ids[1..], bid)
  }

  /** After the loop, exactly the first image of each listed id carries the batch, every other
      image is as it was, and none is added, removed or reordered. */
  lemma {:induction false} SetBatchIdsEffect(images: seq<StoredImage>, ids: seq<string>, bid: string)
    decreases |ids|
    ensures |SetBatchIds(images, ids, bid)| == |images|
    ensures forall k :: 0 <= k < |images| ==>
      SetBatchIds(images, ids, bid)[k] ==
        if images[k].id in ids && FirstWithId(images, k) then images[k].(batchId := Some(bid)) else images[k]
  {
    if |ids| > 0 {
      var once := SetFirstBatchId(images, ids[0], bid);
      assert forall k :: 0 <= k < |images| ==> (FirstWithId(once, k) <==> FirstWithId(images, k));
      SetBatchIdsEffect(once, ids[1..], bid);
      forall k | 0 <= k < |images|
        ensures SetBatchIds(images, ids, bid)[k] ==
          if images[k].id in ids && FirstWithId(images, k) then images[k].(batchId := Some(bid)) else images[k]
      {
        assert images[k].id in ids <==> images[k].id == ids[0] || images[k].id in ids[1..];
      }
    }
  }

  /** `createBatch(name, imageIds)`: appends a batch listing exactly the given ids (unknown ones
      included) and expanded, then gives the first image of each listed id that batch. The fresh
      id and the timestamp are parameters; the two writes can fail independently. */
  function CreateBatch(s: Store, name: string, ids: seq<string>, newId: string, createdAt: string,
                       wBatches: Write, wImages: Write): (r: (Store, Batch))
    ensures r.1 == Batch(newId, name, ids, createdAt, true)
    ensures wBatches.Written? ==> r.0.batches == s.batches + [r.1]
    ensures wBatches.Refused? ==> r.0.batches == s.batches
    ensures wImages.Refused? ==> r.0.images == s.images
  {
    var batch := Batch(newId, name, ids, createdAt, true);
    (Store(Save(s.images, SetBatchIds(s.images, ids, newId), wImages), Save(s.batches, s.batches + [batch], wBatches)), batch)
  }

  /** The images of a created batch: an image carries the new batch exactly when it is the first
      with its id and that id was listed. */
  lemma CreateBatchImages(s: Store, name: string, ids: seq<string>, newId: string, createdAt: string, wBatches: Write)
    ensures var r := CreateBatch(s, name, ids, newId, createdAt, wBatches, Written).0.images;
      |r| == |s.images| &&
      forall k :: 0 <= k < |s.images| ==>
        (r[k].batchId == Some(newId) <==> (s.images[k].id in ids && FirstWithId(s.images, k)) || s.images[k].batchId == Some(newId)) &&
        r[k].id == s.images[k].id && r[k].result == s.images[k].result
  {
    SetBatchIdsEffect(s.images, ids, newId);
  }

  /** Batch lists can drift from the images' own `batchId`: moving an image into a new batch leaves
      it listed in its old batch, which now names an image that no longer points back. */
  lemma CreateBatchLeavesOldListing(s: Store, k: nat, prior: Batch, name: string, ids: seq<string>,
                                    newId: string, createdAt: string)
    requires k < |s.images| && FirstWithId(s.images, k)
    requires prior in s.batches && s.images[k].batchId == Some(prior.id) && s.images[k].id in prior.imageIds
    requires s.images[k].id in ids && newId != prior.id
    ensures var r := CreateBatch(s, name, ids, newId, createdAt, Written, Written).0;
      prior in r.batches && s.images[k].id in prior.imageIds && r.images[k].id == s.images[k].id &&
      r.images[k].batchId == Some(newId) && r.images[k].batchId != Some(prior.id)
  {
    SetBatchIdsEffect(s.images, ids, newId);
  }

  /** No batch before position `i` has the id of the batch at `i`. */
  predicate FirstWithBatchId(batches: seq<Batch>, i: nat)
    requires i < |batches|
  {
    forall j :: 0 <= j < i ==> batches[j].id != batches[i].id
  }

  /** `renameBatch(id, name)`: the first batch with that id is renamed; an unknown id writes nothing. */
  function RenameBatch(batches: seq<Batch>, id: string, name: string, w: Write): (r: seq<Batch>)
    ensures |r| == |batches|
    ensures (forall k :: 0 <= k < |batches| ==> batches[k].id != id) || w.Refused? ==> r == batches
    ensures forall k :: 0 <= k < |batches| ==>
      r[k] == batches[k] || (r[k] == batches[k].(name := name) && batches[k].id == id)
    ensures w.Written? ==> forall i :: 0 <= i < |batches| && batches[i].id == id && FirstWithBatchId(batches, i) ==>
      r == batches[i := batches[i].(name := name)]
  {
    if FindIndex(batches, (b: Batch) => b.id == id).None? then batches
    else Save(batches, UpdateFirst(batches, (b: Batch) => b.id == id, (b: Batch) => b.(name := name)), w)
  }

  /** `deleteBatch(id)`: drops the batches with that id and clears `batchId` on exactly the images
      pointing at it, whatever the batch listed; no image is removed or reordered. */
  function DeleteBatch(s: Store, id: string, wBatches: Write, wImages: Write): (r: Store)
    ensures wBatches.Written? ==> forall k :: 0 <= k < |r.batches| ==> r.batches[k].id != id && r.batches[k] in s.batches
    ensures wBatches.Written? ==> forall k :: 0 <= k < |s.batches| && s.batches[k].id != id ==> s.batches[k] in r.batches
    ensures |r.images| == |s.images|
    ensures wImages.Written? ==> forall k :: 0 <= k < |s.images| ==>
      r.images[k] == if s.images[k].batchId == Some(id) then s.images[k].(batchId := None) else s.images[k]
    ensures wBatches.Refused? ==> r.batches == s.batches
    ensures wImages.Refused? ==> r.images == s.images
  {
    var images := Map(s.images, (img: StoredImage) => if img.batchId == Some(id) then img.(batchId := None) else img);
    Store(Save(s.images, images, wImages), Save(s.batches, Filter(s.batches, (b: Batch) => b.id != id), wBatches))
  }

  /** After deleting a batch no image points at it. */
  lemma DeleteBatchUnlinks(s: Store, id: string)
    ensures forall k :: 0 <= k < |DeleteBatch(s, id, Written, Written).images| ==>
      DeleteBatch(s, id, Written, Written).images[k].batchId != Some(id)
  {
  }

  /** `toggleBatchExpanded(id)`: flips `expanded` of the first batch with that id, nothing else. */
  function ToggleBatchExpanded(batches: seq<Batch>, id: string, w: Write): (r: seq<Batch>)
    ensures |r| == |batches|
    ensures forall k :: 0 <= k < |batches| ==>
      r[k] == batches[k] || (r[k] == batches[k].(expanded := !batches[k].expanded) && batches[k].id == id)
    ensures (forall k :: 0 <= k < |batches| ==> batches[k].id != id) || w.Refused? ==> r == batches
    ensures w.Written? ==> forall i :: 0 <= i < |batches| && batches[i].id == id && FirstWithBatchId(batches, i) ==>
      r == batches[i := batches[i].(expanded := !batches[i].expanded)]
  {
    if FindIndex(batches, (b: Batch) => b.id == id).None? then batches
    else Save(batches, UpdateFirst(batches, (b: Batch) => b.id == id, (b: Batch) => b.(expanded := !b.expanded)), w)
  }

  /** Toggling twice restores the batches. */
  lemma ToggleTwice(batches: seq<Batch>, id: string)
    ensures ToggleBatchExpanded(ToggleBatchExpanded(batches, id, Written), id, Written) == batches
  {
    var once := ToggleBatchExpanded(batches, id, Written);
    match FindIndex(batches, (b: Batch) => b.id == id)
    case None =>
    case Some(i) =>
      assert once == batches[i := batches[i].(expanded := !batches[i].expanded)];
      assert forall j :: 0 <= j < i ==> once[j] == batches[j];
      assert FindIndex(once, (b: Batch) => b.id == id) == Some(i);
  }
}

=== FILE: text.dfy ===
/** String operations of JavaScript that the modelled code relies on, on `seq<char>`. */
module Text {
  import opened Wrappers

  /** Characters matched by `\s` and removed by `String.prototype.trim`:
      the ECMAScript WhiteSpace and LineTerminator code points. */
  predicate IsSpace(c: char) {
    || c == '\t' || c == '\n' || c == '\U{000B}' || c == '\U{000C}' || c == '\r' || c == ' '
    || c == '\U{00A0}' || c == '\U{1680}' || ('\U{2000}' <= c <= '\U{200A}')
    || c == '\U{2028}' || c == '\U{2029}' || c == '\U{202F}' || c == '\U{205F}'
    || c == '\U{3000}' || c == '\U{FEFF}'
  }

  /** Characters a regular-expression `.` does not match. */
  predicate IsLineTerminator(c: char) {
    c == '\n' || c == '\r' || c == '\U{2028}' || c == '\U{2029}'
  }

  predicate AllSpace(s: string) {
    forall i :: 0 <= i < |s| ==> IsSpace(s[i])
  }

  /** `s.trimStart()` */
  function TrimStart(s: string): (r: string)
    ensures |r| <= |s| && r == s[|s| - |r|..]
    ensures |r| == 0 || !IsSpace(r[0])
    ensures AllSpace(s[..|s| - |r|])
  {
    if |s| == 0 || !IsSpace(s[0]) then s
    else
      var r := TrimStart(s[1..]);
      assert s[1..][..|s| - 1 - |r|] == s[1..|s| - |r|];
      r
  }

  /** `s.trimEnd()` */
  function TrimEnd(s: string): (r: string)
    ensures |r| <= |s| && r == s[..|r|]
    ensures |r| == 0 || !IsSpace(r[|r| - 1])
    ensures AllSpace(s[|r|..])
  {
    if |s| == 0 || !IsSpace(s[|s| - 1]) then s
    else
      var r := TrimEnd(s[..|s| - 1]);
      assert s[..|s| - 1][|r|..] + [s[|s| - 1]] == s[|r|..];
      r
  }

  /** `s.trim()`: the infix left after removing leading and trailing white space. */
  function Trim(s: string): (r: string)
    ensures exists i {:trigger s[i..]} ::
              0 <= i <= |s| - |r| && r == s[i..][..|r|] && AllSpace(s[..i]) && AllSpace(s[i..][|r|..])
    ensures |r| == 0 || (!IsSpace(r[0]) && !IsSpace(r[|r| - 1]))
  {
    var t := TrimStart(s);
    var r := TrimEnd(t);
    var i := |s| - |t|;
    InfixAt(s, i, r);
    assert s[i..] == t && t[..|r|] == r && AllSpace(t[|r|..]);
    r
  }

  /** `r` read at offset `i` of `s` is an infix of `s`. */
  lemma InfixAt(s: string, i: nat, r: string)
    requires i <= |s| && |r| <= |s[i..]| && r == s[i..][..|r|]
    ensures exists k {:trigger s[k..]} :: 0 <= k <= |s| - |r| && r == s[k..][..|r|]
  {
    assert 0 <= i <= |s| - |r| && r == s[i..][..|r|];
  }

  /** The trimmed text is the infix of `s` between a white-space prefix and a white-space suffix. */
  lemma TrimIsInfix(s: string)
    ensures exists i {:trigger s[i..]} ::
              (0 <= i <= |s| - |Trim(s)| && Trim(s) == s[i..][..|Trim(s)|] && AllSpace(s[..i]) && AllSpace(s[i..][|Trim(s)|..]))
  {
    var t := TrimStart(s);
    var i := |s| - |t|;
    assert t == s[i..];
    assert Trim(s) == s[i..][..|Trim(s)|];
  }

  /** A string trims to nothing exactly when every character is white space. */
  lemma TrimEmptyIffAllSpace(s: string)
    ensures Trim(s) == [] <==> AllSpace(s)
  {
    var t := TrimStart(s);
    assert s[..|s|] == s;
    if t != [] {
      assert t[0] == s[|s| - |t|];
    }
  }

  /** Trimming twice is trimming once. */
  lemma TrimIdempotent(s: string)
    ensures Trim(Trim(s)) == Trim(s)
  {
  }

  /** `s.startsWith(p)` */
  predicate StartsWith(s: string, p: string) {
    |p| <= |s| && s[..|p|] == p
  }

  /** `p` occurs in `s` starting at index `k`. */
  predicate OccursAt(s: string, p: string, k: int) {
    0 <= k && k + |p| <= |s| && s[k..k + |p|] == p
  }

  /** `s.includes(p)` */
  predicate Contains(s: string, p: string) {
    exists k :: 0 <= k <= |s| && OccursAt(s, p, k)
  }

  /** `s.indexOf(p, from)`, as an option: the first occurrence of `p` at or after `from`. */
  function IndexOfFrom(s: string, p: string, from: nat): (r: Option<nat>)
    decreases |s| - from
    ensures r.Some? ==> from <= r.value && OccursAt(s, p, r.value)
    ensures r.Some? ==> forall k :: from <= k < r.value ==> !OccursAt(s, p, k)
    ensures r.None? ==> forall k :: from <= k ==> !OccursAt(s, p, k)
  {
    if from + |p| > |s| then None
    else if s[from..from + |p|] == p then Some(from)
    else IndexOfFrom(s, p, from + 1)
  }

  /** `s.indexOf(c)`, as an option. */
  function FirstIndexOf(s: string, c: char): (r: Option<nat>)
    ensures r.Some? ==> r.value < |s| && s[r.value] == c && forall k :: 0 <= k < r.value ==> s[k] != c
    ensures r.None? ==> forall k :: 0 <= k < |s| ==> s[k] != c
  {
    if |s| == 0 then None
    else if s[0] == c then Some(0)
    else match FirstIndexOf(s[1..], c)
      case None => None
      case Some(i) => Some(i + 1)
  }

  /** `s.lastIndexOf(c)`, as an option. */
  function LastIndexOf(s: string, c: char): (r: Option<nat>)
    ensures r.Some? ==> r.value < |s| && s[r.value] == c && forall k :: r.value < k < |s| ==> s[k] != c
    ensures r.None? ==> forall k :: 0 <= k < |s| ==> s[k] != c
  {
    if |s| == 0 then None
    else if s[|s| - 1] == c then Some(|s| - 1)
    else LastIndexOf(s[..|s| - 1], c)
  }

  /** `s.slice(0, n)` */
  function Take(s: string, n: nat): (r: string)
    ensures |r| == if |s| <= n then |s| else n
    ensures r == s[..|r|]
  {
    if |s| <= n then s else s[..n]
  }

  /** `parts.join(sep)` */
  function Join(parts: seq<string>, sep: string): string
  {
    if |parts| == 0 then ""
    else if |parts| == 1 then parts[0]
    else parts[0] + sep + Join(parts[1..], sep)
  }

  /** Joining a list of two or more parts puts the separator after the first. */
  lemma JoinCons(first: string, rest: seq<string>, sep: string)
    requires |rest| >= 1
    ensures Join([first] + rest, sep) == first + sep + Join(rest, sep)
  {
    assert ([first] + rest)[1..] == rest;
  }

  /** `s.split(c)` for a one-character separator. */
  function SplitOn(s: string, c: char): (r: seq<string>)
    decreases |s|
    ensures |r| >= 1
    ensures forall i :: 0 <= i < |r| ==> c !in r[i]
  {
    match FirstIndexOf(s, c)
    case None => [s]
    case Some(i) =>
      var rest := SplitOn(s[i + 1..], c);
      assert forall k :: 0 <= k < |s[..i]| ==> s[..i][k] != c;
      [s[..i]] + rest
  }

  /** A text without the separator splits into itself alone. */
  lemma SplitOnAbsent(s: string, c: char)
    requires c !in s
    ensures SplitOn(s, c) == [s]
  {
    assert forall k :: 0 <= k < |s| ==> s[k] in s;
  }

  /** A part without the separator, the separator, then the rest: the part is the first piece. */
  lemma SplitOnFirst(p: string, c: char, rest: string)
    requires c !in p
    ensures SplitOn(p + [c] + rest, c) == [p] + SplitOn(rest, c)
  {
    var s := p + [c] + rest;
    assert forall k :: 0 <= k < |p| ==> s[k] == p[k] && p[k] in p;
    assert s[|p|] == c;
    assert FirstIndexOf(s, c) == Some(|p|);
    assert s[..|p|] == p;
    assert s[|p| + 1..] == rest;
  }

  /** Splitting a joined list on a separator absent from its parts gives the parts back. */
  lemma {:induction false} SplitJoin(parts: seq<string>, c: char)
    requires |parts| >= 1
    requires forall i :: 0 <= i < |parts| ==> c !in parts[i]
    ensures SplitOn(Join(parts, [c]), c) == parts
  {
    if |parts| == 1 {
      SplitOnAbsent(parts[0], c);
    } else {
      assert Join(parts, [c]) == parts[0] + [c] + Join(parts[1..], [c]);
      SplitOnFirst(parts[0], c, Join(parts[1..], [c]));
      SplitJoin(parts[1..], c);
      assert [parts[0]] + parts[1..] == parts;
    }
  }

  /** The longest prefix of `s` free of white space. */
  function TakeWord(s: string): (w: string)
    ensures |w| <= |s| && w == s[..|w|]
    ensures forall i :: 0 <= i < |w| ==> !IsSpace(w[i])
    ensures |w| == |s| || IsSpace(s[|w|])
  {
    if |s| == 0 || IsSpace(s[0]) then ""
    else [s[0]] + TakeWord(s[1..])
  }

  /** The text with every maximal run of white space replaced by a single space. */
  function CollapseSpace(s: string): string
    decreases |s|
  {
    if |s| == 0 then ""
    else if IsSpace(s[0]) then " " + CollapseSpace(TrimStart(s))
    else [s[0]] + CollapseSpace(s[1..])
  }

  /** A leading word free of white space passes through `CollapseSpace` unchanged. */
  lemma {:induction false} CollapseAfterWord(w: string, t: string)
    requires forall i :: 0 <= i < |w| ==> !IsSpace(w[i])
    ensures CollapseSpace(w + t) == w + CollapseSpace(t)
  {
    if |w| > 0 {
      assert (w + t)[0] == w[0];
      assert (w + t)[1..] == w[1..] + t;
      CollapseAfterWord(w[1..], t);
    } else {
      assert w + t == t;
    }
  }

  /** `s.split(/\s+/)`: the pieces between maximal runs of white space; a leading or trailing
      run yields an empty first or last piece, and the empty string yields `[""]`. */
  function SplitOnSpaceRuns(s: string): (r: seq<string>)
    decreases |s|
    ensures |r| >= 1
    ensures forall i :: 0 <= i < |r| ==> forall j :: 0 <= j < |r[i]| ==> !IsSpace(r[i][j])
  {
    var w := TakeWord(s);
    if |w| == |s| then [w]
    else [w] + SplitOnSpaceRuns(TrimStart(s[|w|..]))
  }

  /** A text that does not end inside its first word splits into that word and the pieces after
      the white space that follows it. */
  lemma SplitAtWord(s: string)
    requires |TakeWord(s)| < |s|
    ensures Join(SplitOnSpaceRuns(s), " ")
      == TakeWord(s) + " " + Join(SplitOnSpaceRuns(TrimStart(s[|TakeWord(s)|..])), " ")
  {
    var w := TakeWord(s);
    var rest := SplitOnSpaceRuns(TrimStart(s[|w|..]));
    assert SplitOnSpaceRuns(s) == [w] + rest;
    JoinCons(w, rest, " ");
  }

  /** Collapsing a text that does not end inside its first word keeps the word and one space. */
  lemma CollapseAtWord(s: string)
    requires |TakeWord(s)| < |s|
    ensures CollapseSpace(s) == TakeWord(s) + " " + CollapseSpace(TrimStart(s[|TakeWord(s)|..]))
  {
    var w := TakeWord(s);
    var u := s[|w|..];
    assert IsSpace(u[0]);
    assert CollapseSpace(u) == " " + CollapseSpace(TrimStart(u));
    assert w + u == s;
    CollapseAfterWord(w, u);
  }

  /** Joined by single spaces, the pieces of `split(/\s+/)` give back the text with each run of
      white space collapsed to one space: they are the text's words, in order, with nothing lost. */
  lemma {:induction false} SplitOnSpaceRunsJoin(s: string)
    decreases |s|
    ensures Join(SplitOnSpaceRuns(s), " ") == CollapseSpace(s)
  {
    var w := TakeWord(s);
    if |w| == |s| {
      CollapseAfterWord(w, "");
      assert w + "" == s;
    } else {
      var u := s[|w|..];
      var t := TrimStart(u);
      SplitAtWord(s);
      CollapseAtWord(s);
      SplitOnSpaceRunsJoin(t);
    }
  }

  /** What occurs in a suffix occurs in the whole text. */
  lemma ContainsInSuffix(s: string, off: nat, p: string)
    requires off <= |s| && Contains(s[off..], p)
    ensures Contains(s, p)
  {
    var t := s[off..];
    var k :| 0 <= k <= |t| && OccursAt(t, p, k);
    assert s[off + k..off + k + |p|] == t[k..k + |p|];
    assert OccursAt(s, p, off + k);
  }

  /** Every piece `split(/\s+/)` yields occurs in the text. */
  lemma {:induction false} SplitOnSpaceRunsPiecesOccur(s: string)
    decreases |s|
    ensures forall i :: 0 <= i < |SplitOnSpaceRuns(s)| ==> Contains(s, SplitOnSpaceRuns(s)[i])
  {
    var w := TakeWord(s);
    assert OccursAt(s, w, 0);
    if |w| < |s| {
      var t := TrimStart(s[|w|..]);
      var off := |s| - |t|;
      assert t == s[off..];
      var rest := SplitOnSpaceRuns(t);
      SplitOnSpaceRunsPiecesOccur(t);
      forall i | 0 <= i < |SplitOnSpaceRuns(s)| ensures Contains(s, SplitOnSpaceRuns(s)[i]) {
        if i > 0 {
          assert SplitOnSpaceRuns(s)[i] == rest[i - 1];
          ContainsInSuffix(s, off, rest[i - 1]);
        }
      }
    }
  }

  /** Lower-cases an ASCII capital; every other character is kept. */
  function LowerAscii(c: char): char {
    if 'A' <= c <= 'Z' then (c as int + 32) as char else c
  }

  predicate IsUpperAscii(c: char) {
    'A' <= c <= 'Z'
  }

  /** The decimal digit for `d`. */
  function DigitChar(d: nat): (c: char)
    requires d < 10
    ensures '0' <= c <= '9' && c as int - '0' as int == d
  {
    ('0' as int + d) as char
  }

  /** `String(n)` for a non-negative integer: its decimal digits. */
  function NatToString(n: nat): (r: string)
    ensures |r| >= 1
    ensures forall i :: 0 <= i < |r| ==> '0' <= r[i] <= '9'
  {
    if n < 10 then [DigitChar(n)] else NatToString(n / 10) + [DigitChar(n % 10)]
  }

  /** The number a string of decimal digits denotes. */
  function DecimalValue(s: string): nat
    requires forall i :: 0 <= i < |s| ==> '0' <= s[i] <= '9'
  {
    if |s| == 0 then 0 else 10 * DecimalValue(s[..|s| - 1]) + (s[|s| - 1] as int - '0' as int)
  }

  /** The decimal rendering of a status code reads back as that code. */
  lemma {:induction false} NatToStringRoundTrip(n: nat)
    ensures DecimalValue(NatToString(n)) == n
  {
    if n >= 10 {
      NatToStringRoundTrip(n / 10);
      var r := NatToString(n);
      assert r[..|r| - 1] == NatToString(n / 10);
    }
  }
}

=== FILE: theme.dfy ===
/** CSS custom properties from a theme: each camelCase key becomes a kebab-case property name,
    one `  --name: value;` line per entry in entry order. The colour values themselves are data
    and not part of this model; only the two themes' key lists are. */
module Theme {
  import opened Text
  import opened Seqs

  /** `key.replace(/([A-Z])/g, '-$1').toLowerCase()`, over ASCII: a hyphen before every capital,
      then every capital lowered. */
  function KebabKey(key: string): (r: string)
    ensures forall i :: 0 <= i < |r| ==> !IsUpperAscii(r[i])
    ensures |r| >= |key|
  {
    if |key| == 0 then ""
    else (if IsUpperAscii(key[0]) then ['-', LowerAscii(key[0])] else [key[0]]) + KebabKey(key[1..])
  }

  /** A key without capitals is its own property name, so the conversion is idempotent. */
  lemma {:induction false} KebabKeyOfLowercase(key: string)
    requires forall i :: 0 <= i < |key| ==> !IsUpperAscii(key[i])
    ensures KebabKey(key) == key
  {
    if |key| > 0 {
      KebabKeyOfLowercase(key[1..]);
    }
  }

  lemma KebabKeyIdempotent(key: string)
    ensures KebabKey(KebabKey(key)) == KebabKey(key)
  {
    KebabKeyOfLowercase(KebabKey(key));
  }

  function UpperAscii(c: char): char {
    if 'a' <= c <= 'z' then (c as int - 32) as char else c
  }

  /** The inverse reading: a hyphen before a lower-case letter marks a capital. */
  function CamelKey(name: string): string {
    if |name| == 0 then ""
    else if |name| >= 2 && name[0] == '-' && 'a' <= name[1] <= 'z' then [UpperAscii(name[1])] + CamelKey(name[2..])
    else [name[0]] + CamelKey(name[1..])
  }

  /** For keys without hyphens no information is lost: the key can be read back from its
      property name, so distinct keys give distinct names. */
  lemma {:induction false} KebabKeyRoundTrip(key: string)
    requires '-' !in key
    ensures CamelKey(KebabKey(key)) == key
  {
    if |key| > 0 {
      var rest := KebabKey(key[1..]);
      assert '-' !in key[1..] by { assert forall i :: 0 <= i < |key[1..]| ==> key[1..][i] == key[i + 1]; }
      KebabKeyRoundTrip(key[1..]);
      if IsUpperAscii(key[0]) {
        var name := ['-', LowerAscii(key[0])] + rest;
        assert name[2..] == rest;
      } else {
        var name := [key[0]] + rest;
        assert key[0] in key;
        assert name[1..] == rest;
      }
      assert key == [key[0]] + key[1..];
    }
  }

  lemma KebabKeyInjective(a: string, b: string)
    requires '-' !in a && '-' !in b && KebabKey(a) == KebabKey(b)
    ensures a == b
  {
    KebabKeyRoundTrip(a);
    KebabKeyRoundTrip(b);
  }

  /** One line of the style sheet. */
  function CssLine(key: string, value: string): string {
    "  --" + KebabKey(key) + ": " + value + ";"
  }

  function EntryLine(entry: (string, string)): string {
    CssLine(entry.0, entry.1)
  }

  /** `generateThemeCSS(theme)`: the entries' lines joined by newlines. */
  function ThemeCss(entries: seq<(string, string)>): string {
    Join(Map(entries, EntryLine), "\n")
  }

  /** Splitting the style sheet on newlines gives one line per entry, in entry order, when no key
      or value holds a newline. */
  lemma ThemeCssLines(entries: seq<(string, string)>)
    requires |entries| >= 1
    requires forall i :: 0 <= i < |entries| ==> '\n' !in entries[i].0 && '\n' !in entries[i].1
    ensures |SplitOn(ThemeCss(entries), '\n')| == |entries|
    ensures forall i :: 0 <= i < |entries| ==>
      SplitOn(ThemeCss(entries), '\n')[i] == "  --" + KebabKey(entries[i].0) + ": " + entries[i].1 + ";"
  {
    var lines := Map(entries, EntryLine);
    forall i | 0 <= i < |lines| ensures '\n' !in lines[i] {
      KebabKeyKeepsNewlines(entries[i].0);
    }
    SplitJoin(lines, '\n');
  }

  /** The conversion adds only hyphens and lower-case letters. */
  lemma {:induction false} KebabKeyKeepsNewlines(key: string)
    requires '\n' !in key
    ensures '\n' !in KebabKey(key)
  {
    if |key| > 0 {
      assert key[0] in key;
      assert '\n' !in key[1..] by { assert forall i :: 0 <= i < |key[1..]| ==> key[1..][i] in key; }
      KebabKeyKeepsNewlines(key[1..]);
    }
  }

  /** The keys of the dark and the light theme, in declaration order. */
  const DarkThemeKeys: seq<string> := [
    "background", "foreground", "card", "cardForeground", "popover", "popoverForeground",
    "primary", "primaryForeground", "secondary", "secondaryForeground", "muted", "mutedForeground",
    "accent", "accentForeground", "destructive", "destructiveForeground", "border", "input", "ring"]

  const LightThemeKeys: seq<string> := [
    "background", "foreground", "card", "cardForeground", "popover", "popoverForeground",
    "primary", "primaryForeground", "secondary", "secondaryForeground", "muted", "mutedForeground",
    "accent", "accentForeground", "destructive", "destructiveForeground", "border", "input", "ring"]

  /** A theme with the given keys and values. */
  function WithValues(keys: seq<string>, values: seq<string>): (entries: seq<(string, string)>)
    requires |keys| == |values|
    ensures |entries| == |keys|
    ensures forall i :: 0 <= i < |keys| ==> entries[i] == (keys[i], values[i])
  {
    if |keys| == 0 then [] else [(keys[0], values[0])] + WithValues(keys[1..], values[1..])
  }

  /** A key's length and first two characters, which tell the theme keys apart. */
  function Signature(key: string): (int, char, char) {
    if |key| < 2 then (|key|, ' ', ' ') else (|key|, key[0], key[1])
  }

  /** The theme keys are 19 distinct names. */
  lemma ThemeKeysDistinct()
    ensures |DarkThemeKeys| == 19 && NoDuplicates(DarkThemeKeys)
  {
    forall i, j | 0 <= i < j < 19 ensures DarkThemeKeys[i] != DarkThemeKeys[j] {
      assert Signature(DarkThemeKeys[i]) != Signature(DarkThemeKeys[j]);
    }
  }

  /** Both themes have the same 19 distinct keys, so whatever their colours they render 19 lines
      whose property names agree line by line. */
  lemma ThemesShareKeys(darkValues: seq<string>, lightValues: seq<string>)
    requires |darkValues| == 19 && |lightValues| == 19
    ensures DarkThemeKeys == LightThemeKeys && |DarkThemeKeys| == 19 && NoDuplicates(DarkThemeKeys)
    ensures forall i :: 0 <= i < 19 ==>
      Map(WithValues(DarkThemeKeys, darkValues), EntryLine)[i] == CssLine(DarkThemeKeys[i], darkValues[i]) &&
      Map(WithValues(LightThemeKeys, lightValues), EntryLine)[i] == CssLine(DarkThemeKeys[i], lightValues[i])
  {
    ThemeKeysDistinct();
  }
}

=== FILE: types.dfy ===
/** The adapter contract's data: analysis results, chat messages and responses, the fixed set of
    adapter kinds with their model lists, and the transport outcomes an adapter call sees. */
module AdapterTypes {
  import opened Wrappers
  import opened Json
  import Text

  /** An analysis result. TypeScript declares string arrays and strings, but nothing checks that
      at run time: a parsed array is kept whatever its elements, a truthy parsed scalar is kept
      whatever its type, and a chat update may put any JSON value in any field. */
  datatype AnalysisResult = AnalysisResult(
    tags: Value,
    objects: Value,
    colors: Value,
    mood: Value,
    scene: Value,
    description: Value,
    suggestedTitle: Value)

  /** The seven field names of an analysis result, as JSON keys. */
  const FieldNames: set<string> :=
    {"tags", "objects", "colors", "mood", "scene", "description", "suggestedTitle"}

  /** The result as the JSON object it serialises to. */
  function ToJson(r: AnalysisResult): Value {
    Obj(map[
      "tags" := r.tags, "objects" := r.objects, "colors" := r.colors, "mood" := r.mood,
      "scene" := r.scene, "description" := r.description, "suggestedTitle" := r.suggestedTitle])
  }

  /** The shape every adapter promises: the three list fields are arrays and the four text
      fields are truthy. */
  predicate WellShaped(r: AnalysisResult) {
    && r.tags.Arr? && r.objects.Arr? && r.colors.Arr?
    && Truthy(r.mood) && Truthy(r.scene) && Truthy(r.description) && Truthy(r.suggestedTitle)
  }

  /** `Partial<AnalysisResult>`: any subset of the seven fields. */
  datatype PartialResult = PartialResult(
    tags: Option<Value>,
    objects: Option<Value>,
    colors: Option<Value>,
    mood: Option<Value>,
    scene: Option<Value>,
    description: Option<Value>,
    suggestedTitle: Option<Value>)

  const NoFields := PartialResult(None, None, None, None, None, None, None)

  /** The names of the fields a partial result carries. */
  function PresentFields(p: PartialResult): set<string> {
    (if p.tags.Some? then {"tags"} else {})
    + (if p.objects.Some? then {"objects"} else {})
    + (if p.colors.Some? then {"colors"} else {})
    + (if p.mood.Some? then {"mood"} else {})
    + (if p.scene.Some? then {"scene"} else {})
    + (if p.description.Some? then {"description"} else {})
    + (if p.suggestedTitle.Some? then {"suggestedTitle"} else {})
  }

  function Field(m: map<string, Value>, key: string): Option<Value> {
    if key in m then Some(m[key]) else None
  }

  /** The result fields that spreading `updates` into an object sets: the matching own keys of a
      JSON object. Spreading a string or an array only sets index keys and spreading a number or
      boolean sets nothing, so neither touches a result field. */
  function PartialOf(updates: Value): (p: PartialResult)
    ensures updates.Obj? ==> PresentFields(p) == FieldNames * updates.fields.Keys
    ensures !updates.Obj? ==> p == NoFields
  {
    match updates
    case Obj(m) =>
      PartialResult(
        Field(m, "tags"), Field(m, "objects"), Field(m, "colors"), Field(m, "mood"),
        Field(m, "scene"), Field(m, "description"), Field(m, "suggestedTitle"))
    case _ => NoFields
  }

  /** `{ ...r, ...p }`: each field present in `p` overrides, every other field of `r` is kept. */
  function Merge(r: AnalysisResult, p: PartialResult): AnalysisResult {
    AnalysisResult(
      p.tags.GetOr(r.tags), p.objects.GetOr(r.objects), p.colors.GetOr(r.colors),
      p.mood.GetOr(r.mood), p.scene.GetOr(r.scene), p.description.GetOr(r.description),
      p.suggestedTitle.GetOr(r.suggestedTitle))
  }

  /** Merging an update carrying no result field changes nothing, merging the JSON form of a whole
      result replaces everything, and merging the same update twice is merging it once. */
  lemma MergeLaws(r: AnalysisResult, r': AnalysisResult, v: Value)
    ensures Merge(r, NoFields) == r
    ensures Merge(r, PartialOf(ToJson(r'))) == r'
    ensures Merge(Merge(r, PartialOf(v)), PartialOf(v)) == Merge(r, PartialOf(v))
  {
  }

  /** A merge keeps exactly the fields the update leaves out. */
  lemma MergeKeepsAbsentFields(r: AnalysisResult, m: map<string, Value>)
    ensures "tags" !in m ==> Merge(r, PartialOf(Obj(m))).tags == r.tags
    ensures "tags" in m ==> Merge(r, PartialOf(Obj(m))).tags == m["tags"]
    ensures "description" !in m ==> Merge(r, PartialOf(Obj(m))).description == r.description
    ensures "description" in m ==> Merge(r, PartialOf(Obj(m))).description == m["description"]
    ensures "suggestedTitle" !in m ==> Merge(r, PartialOf(Obj(m))).suggestedTitle == r.suggestedTitle
    ensures "suggestedTitle" in m ==> Merge(r, PartialOf(Obj(m))).suggestedTitle == m["suggestedTitle"]
  {
  }

  datatype Role = User | Assistant

  /** A chat turn. User turns hold the typed text; an assistant turn holds whatever the backend's
      `message` field was, so its content is a JSON value. */
  datatype ChatMessage = ChatMessage(role: Role, content: Value, timestamp: string)

  datatype ChatResponse = ChatResponse(message: Value, updatedMetadata: Option<Value>)

  /** What an operation throws: an `Error` with its message; a `TypeError` the JavaScript engine
      raises itself (reading a property of `null`, calling a missing method), whose message text is
      the engine's own; or some value that is not an `Error` (a `FileReader` progress event, say). */
  datatype Thrown = Error(message: string) | TypeFault | NonError

  /** `error instanceof Error ? error.message : otherwise`. Both kinds of error carry a message;
      `engineText` stands for the one the engine gives a TypeError it raises. */
  function ErrorText(t: Thrown, engineText: string, otherwise: string): (text: string)
    ensures t.Error? ==> text == t.message
    ensures t.NonError? ==> text == otherwise
  {
    match t
    case Error(m) => m
    case TypeFault => engineText
    case NonError => otherwise
  }

  /** The error a cloud adapter throws for a failed HTTP status: the backend's own message when it
      sent one, otherwise a fixed prefix followed by the status code. */
  function ApiError(errorMessage: string, prefix: string, status: nat): (t: Thrown)
    ensures t.Error? && t.message != ""
    ensures errorMessage != "" ==> t.message == errorMessage
    ensures errorMessage == "" ==> Text.StartsWith(t.message, prefix)
  {
    Error(if errorMessage != "" then errorMessage else prefix + Text.NatToString(status))
  }

  /** A failed response's body as `error.error?.message` reads it after
      `await response.json().catch(() => ({}))`: JSON `null`, on which reading `.error` throws a
      TypeError (the `?.` guards only `.message`), or any other value, whose `error.message` text
      is `message` (empty when there is none or the body does not parse). */
  datatype ErrorBody = NullError | ErrorField(message: string)

  /** The error a cloud adapter throws for a failed HTTP status: a TypeError on a `null` error
      body, otherwise the backend's message or the fixed prefix with the status code. */
  function StatusError(e: ErrorBody, prefix: string, status: nat): (t: Thrown)
    ensures t == TypeFault <==> e.NullError?
    ensures e.ErrorField? ==> t.Error? && t.message != ""
    ensures e.ErrorField? && e.message != "" ==> t.message == e.message
    ensures e.ErrorField? && e.message == "" ==> t.message == prefix + Text.NatToString(status)
  {
    match e
    case NullError => TypeFault
    case ErrorField(m) => ApiError(m, prefix, status)
  }

  /** A browser `File`, seen through what `FileReader.readAsDataURL` yields for it:
      its data URL, or `None` when reading fails. */
  datatype File = File(name: string, dataUrl: Option<string>)

  /** The image argument of `analyze`: a `File` or a string. */
  datatype ImageInput = FileImage(file: File) | TextImage(text: string)

  /** The body of a successful response as the adapter reads it with `await response.json()`:
      that call rejects when the body is not JSON; a body that is JSON `null` makes the adapter's
      first field read throw a TypeError; otherwise the parsed body gives the reply text found in
      it, if any. */
  datatype Body =
    | Unreadable(error: Thrown)
    | NullBody
    | Reply(text: Option<string>)

  /** What an HTTP request resolved to: `fetch` rejected, or a response arrived. For a response,
      `errorBody` is what a failed status reads from the body and `body` is what reading a
      successful body gives. */
  datatype Fetch =
    | Rejected(error: Thrown)
    | Responded(ok: bool, status: nat, statusText: string, errorBody: ErrorBody, body: Body)

  /** The response succeeded and its body was read. */
  predicate Answered(f: Fetch) {
    f.Responded? && f.ok && f.body.Reply?
  }

  /** The five adapter kinds, the keys of `ADAPTERS`. */
  datatype AdapterKind = Mock | OpenAI | Claude | Google | Ollama

  const AllKinds: seq<AdapterKind> := [Mock, OpenAI, Claude, Google, Ollama]

  /** The kind's key string. */
  function Key(k: AdapterKind): string {
    match k
    case Mock => "mock"
    case OpenAI => "openai"
    case Claude => "claude"
    case Google => "google"
    case Ollama => "ollama"
  }

  /** `ADAPTERS[k]`, the display name. */
  function DisplayName(k: AdapterKind): string {
    match k
    case Mock => "Mock (Demo)"
    case OpenAI => "OpenAI Vision"
    case Claude => "Claude Vision"
    case Google => "Google Vision"
    case Ollama => "Ollama (Local)"
  }

  /** `ADAPTER_MODELS[k]` */
  function ModelsOf(k: AdapterKind): seq<string> {
    match k
    case Mock => ["demo-v1"]
    case OpenAI => ["gpt-4o", "gpt-4o-mini"]
    case Claude => ["claude-sonnet-4-20250514", "claude-3-5-sonnet-latest", "claude-3-haiku-20240307"]
    case Google => ["gemini-2.0-flash", "gemini-1.5-pro", "gemini-1.5-flash"]
    case Ollama => ["llava", "bakllava", "llava-llama3"]
  }

  /** The kind whose key is `s`, if any. */
  function KindOfKey(s: string): (k: Option<AdapterKind>)
    ensures k.Some? ==> Key(k.value) == s
    ensures k.None? ==> forall j :: 0 <= j < |AllKinds| ==> Key(AllKinds[j]) != s
  {
    if s == "mock" then Some(Mock)
    else if s == "openai" then Some(OpenAI)
    else if s == "claude" then Some(Claude)
    else if s == "google" then Some(Google)
    else if s == "ollama" then Some(Ollama)
    else None
  }

  /** There are exactly five kinds, the key of each reads back as it, and so no two share a key. */
  lemma KindsAreFive()
    ensures |AllKinds| == 5
    ensures forall k: AdapterKind :: k in AllKinds
    ensures forall k: AdapterKind :: KindOfKey(Key(k)) == Some(k)
    ensures forall a: AdapterKind, b: AdapterKind :: Key(a) == Key(b) ==> a == b
  {
    forall k: AdapterKind ensures k in AllKinds {
      match k
      case Mock => assert AllKinds[0] == k;
      case OpenAI => assert AllKinds[1] == k;
      case Claude => assert AllKinds[2] == k;
      case Google => assert AllKinds[3] == k;
      case Ollama => assert AllKinds[4] == k;
    }
    forall a: AdapterKind, b: AdapterKind | Key(a) == Key(b) ensures a == b {
      assert KindOfKey(Key(a)) == Some(a);
    }
  }

  /** Every kind has at least one model, so "the first model" is always defined; the mock
      adapter's only model is `demo-v1`. */
  lemma ModelListsNonEmpty(k: AdapterKind)
    ensures |ModelsOf(k)| >= 1
    ensures ModelsOf(Mock) == ["demo-v1"]
  {
  }
}

=== FILE: wrappers.dfy ===
/** Option and Result, the two failure-carrying datatypes every other module uses. */
module Wrappers {

  /** A value that may be absent: TypeScript's `T | undefined`. */
  datatype Option<+T> = None | Some(value: T) {

    /** The value if present, otherwise `default` (the `??` idiom). */
    function GetOr(default: T): T {
      match this
      case Some(v) => v
      case None => default
    }
  }

  /** The outcome of an operation that can throw: `Failure` carries what was thrown. */
  datatype Result<+R, +E> = Success(value: R) | Failure(error: E)
}
